=== FILE: README.md ===
# A model of the Gamer's Edge point-of-sale core

This project models the part of the Gamer's Edge point-of-sale desktop app
that holds the shop's logic.

- **The sale ledger** (`electron/db.js`):
  - recording a sale;
  - editing a recorded sale;
  - listing sales and held carts;
  - the best sellers;
  - the dashboard figures;
  - holding and deleting carts.
- **The arithmetic of the pages that feed the ledger:**
  - the point-of-sale cart and checkout (`POS.jsx`);
  - the sale-history editor (`History.jsx`);
  - the invoice editor (`InvoiceEditor.jsx`);
  - the repairs board (`Repairs.jsx`);
  - the stock page's form, filter, valuations and CSV export (`Stock.jsx`);
  - the dashboard's seven-day sales chart (`Dashboard.jsx`).

The database is a value. It holds products and customers as maps from id to
row. It holds sales and held carts as tables: the rows in scan order plus
the AUTOINCREMENT counter.

`createTransaction` and `updateTransaction` are modelled as two pieces:

- **A script of write statements.** An interpreter (`Ledger.Run`) runs the
  script. A storage failure at any chosen statement is a parameter
  (`fault`).
- **A wrapper (`Ledger.Atomically`).** It keeps the starting database
  whenever the script fails.

All-or-nothing is therefore a proved law, not a construction.

Each page operation is a pure function from the page's state to its next
state, plus what it sends to the ledger. Money is a Dafny `real`, and
quantities and stock are integers.

Modules, one per file:

| module | file |
|---|---|
| `Common` | common.dfy |
| `Tables` | tables.dfy |
| `Records` | records.dfy |
| `Ordering` | ordering.dfy |
| `Ledger` | ledger.dfy |
| `LedgerLaws` | ledger_laws.dfy |
| `Reports` | reports.dfy |
| `Csv` | csv.dfy |
| `Pos` | pos.dfy |
| `History` | history.dfy |
| `InvoiceEditor` | invoice_editor.dfy |
| `Repairs` | repairs.dfy |
| `StockPage` | stock_page.dfy |
| `SalesChart` | sales_chart.dfy |

The CSV reader in `Csv` is the one section 2 of RFC 4180 describes, applied
to one record. It is the partner that the export's round-trip lemmas read
back with.

## Model

| member | source | states |
|---|---|---|
| Tables.Insert | electron/db.js:284 | An insert hands out an id above every id the table ever used. It appends the row at the end of the scan, the new id finds that row, and every other id finds what it found before. |
| Tables.Delete | electron/db.js:339-341 | After deleting an id, no row has it. Every other id finds what it found before, and the AUTOINCREMENT counter is unchanged. |
| Tables.Rewrite | electron/db.js:317-321 | An UPDATE by id changes only the rows with that id, and only through the update. The ids and the row count stay. |
| Tables.DeleteInserted | electron/db.js:328-341 | Deleting the row an insert just added gives back the rows there were. |
| Ledger.RunUnderFault | electron/db.js:264-286 | A storage failure inside the script always aborts it. A faulted run that still succeeds produced exactly the fault-free result. |
| Ledger.RunAppend | electron/db.js:264-286 | Running two statement lists back to back is running their concatenation, stopping at the first failure. |
| Ledger.Atomically | electron/db.js:264-286 | The `db.transaction` wrapper commits the script's database on success. On failure it returns the starting database with the error. |
| Ledger.RunStockWrites | electron/db.js:265-266 | The per-line stock statements change only stock. Each product moves by the summed quantity of the lines with its id, with no lower bound. Ids with no product change nothing. |
| Ledger.PointsEarned | electron/db.js:280 | Points earned are `floor(total / 100)`: p × 100 ≤ total < (p + 1) × 100. |
| Ledger.RunLoyaltyWrites | electron/db.js:273-282 | Only a customer name that is non-empty and not "Walk-in" moves points. Every customer with exactly that name loses `pointsUsed` (only when it is positive) and gains the points earned. Nobody else changes. |
| Ledger.Margins | electron/db.js:255-256 | Σ (price_sell − price_buy) × quantity is undefined (NaN, stored as NULL) exactly when some line has no `price_buy` key. |
| Ledger.CreateTransaction | electron/db.js:251-287 | All or nothing. On success, every product loses the units the lines name and customers move by the loyalty rule. A row with `customer \|\| 'Walk-in'`, `paymentMethod \|\| 'Cash'`, the discount and the item snapshot goes in under a fresh id above every existing one. That id is returned. Without a storage fault it always succeeds. |
| Ledger.RunRestock | electron/db.js:302-314 | Putting back the stored lines and then taking out the new lines leaves every product at stock + old quantity − new quantity. |
| Ledger.EditedDbShape | electron/db.js:302-321 | The database a successful edit leaves has customers and held carts unchanged and stock moved by old − new. Only timestamp, customer name, total, profit and items of the edited row change; payment method and discount stay. No other row changes. |
| Ledger.RunEdit | electron/db.js:294-325 | Without a fault, the edit fails exactly when no timestamp is sent (the NOT NULL column). Otherwise it leaves exactly the edited database. |
| Ledger.UpdateTransaction | electron/db.js:294-325 | A missing id gives "Transaction not found" and no change. Any failure keeps the database as it was. Success implies a timestamp was sent, and then stock moves by old − new per product and only the five named columns of that row are overwritten. A known id with a timestamp and no storage fault always succeeds. |
| Ledger.UpdateIsEdited | electron/db.js:294-325 | A fault-free edit of a stored sale that carries a timestamp yields exactly the edited database and success. |
| Ledger.AddHeldCart | electron/db.js:328-332 | Holding a cart appends one row (name, items, timestamp) under a fresh id and changes nothing else. |
| Ledger.DeleteHeldCart | electron/db.js:339-341 | Deleting a held cart removes that id, keeps every other held cart, and touches no other table. |
| LedgerLaws.SaleAllOrNothing | electron/db.js:264-286 | Whatever storage failure strikes, a sale either leaves the database exactly as it was, with an error, or has exactly the fault-free effect. |
| LedgerLaws.EditAllOrNothing | electron/db.js:296-324 | The same for an edit: nothing survives a failure, and a success is the fault-free edit. |
| LedgerLaws.MarginsWithCosts | electron/db.js:307-314 | When every line has a cost, the margins the create path sums equal the margins the edit path sums. |
| LedgerLaws.MissingCostOnlyBreaksCreate | electron/db.js:255-258 | A line without a `price_buy` key makes the profit the create path stores NULL, whatever the discount. |
| LedgerLaws.SaleEffect | electron/db.js:265-284 | A fault-free sale stores its row under the returned id and lowers each product's stock by the units sold. |
| LedgerLaws.EditEffect | electron/db.js:302-321 | A fault-free edit with a timestamp succeeds, stores the overwritten row, and moves each product's stock by old − new units. |
| LedgerLaws.SoldStock | electron/db.js:265-266 | After a fault-free sale, the products are the old products shifted down by the sale's lines. |
| LedgerLaws.RestockSame | electron/db.js:302-314 | Restoring and deducting the same lines leaves every product as it was. |
| LedgerLaws.RestockAfterSale | electron/db.js:302-305 | Restoring all the lines a sale deducted gives the stock back. |
| LedgerLaws.RestockTwice | electron/db.js:302-314 | Two restocks in a row, the second restoring what the first deducted, are one restock. |
| LedgerLaws.ResavedRow | electron/db.js:255-321 | Re-saving a created row with its own lines changes only its profit, which goes up by the sale's discount. |
| LedgerLaws.ResaveForgetsDiscount | electron/db.js:255-321 | Editing a sale to exactly what was recorded succeeds and moves no stock. The stored profit still rises by the discount, because the edit path does not subtract it. |
| LedgerLaws.VoidingEditRestoresStock | electron/db.js:265-305 | Editing a just-recorded sale down to no lines gives every product back the units the sale took. Customers' points stay as the sale left them. |
| LedgerLaws.EditsCompose | electron/db.js:302-314 | Two fault-free edits of one sale move stock exactly as the second edit alone would have. |
| LedgerLaws.DeleteUndoesHold | electron/db.js:328-341 | Deleting a cart right after holding it gives back the held carts there were. Only the counter has moved. |
| Ordering.SortBy | electron/db.js:290 | `ORDER BY` as a stable sort: sorted by the given total preorder, and a permutation of its input. |
| Reports.NewerSaleIsPreorder | electron/db.js:290 | Newest-first by timestamp text is a total preorder. |
| Reports.ListTransactions | electron/db.js:289-292 | Every stored sale exactly once, each with its stored items, ordered by non-increasing timestamp. |
| Reports.ListHeldCarts | electron/db.js:334-337 | Every held cart exactly once, each with its items, ordered by non-increasing timestamp. |
| Reports.Window | electron/db.js:195 | `LIMIT 100` over the newest-first order takes min(100, n) sales, and no sale left out is newer than one taken. |
| Reports.WindowIsNewest | electron/db.js:195 | A prefix of a newest-first list holds the newest elements. |
| Reports.TallyStep | electron/db.js:198-205 | Reading one more line keeps one entry per name, with units and revenue equal to that name's totals so far. |
| Reports.Group | electron/db.js:197-205 | After reading all lines there is one entry per item name with that name's summed units and summed quantity × price_sell. A name that a plain object `{}` inherits, such as `toString` or `__proto__`, finds a truthy value already in place, so it never gets an entry. |
| Reports.Sellers | electron/db.js:195-205 | The grouping over the newest 100 sales has distinct names, covering exactly the names sold that are not inherited keys, each with its totals. |
| Reports.MoreSoldIsPreorder | electron/db.js:208 | "More units first" is a total preorder. |
| Reports.TopOf | electron/db.js:207-209 | At most five entries, in non-increasing units, each taken from the grouping. Any entry left out means five were taken, all with at least its units. |
| Reports.TopSelling | electron/db.js:191-210 | Exactly min(5, number of grouped names) best sellers over the newest 100 sales, by non-increasing units, each a grouped entry with its true units and revenue. A grouped name left out means five were listed, each with at least its units. |
| Reports.TopIsBest | electron/db.js:207-209 | Slicing a descending sort keeps the entries that sold most. |
| Reports.LowStock | electron/db.js:177 | A product counts as low exactly when its stock is under 5. |
| Reports.DashboardStats | electron/db.js:171-185 | Revenue is the sum over all sales of the total when the sale is dated today and 0 otherwise. Profit is the sum of the stored profits with NULL as 0. Orders are the count of sales dated today. The low-stock count is the number of products under 5 units. Hence orders never exceed the sales, the low count never exceeds the products, and with no sales every figure is 0. |
| Reports.SaleCountsToday | electron/db.js:171-185 | A sale stamped today adds one order and its total to today's figures (a sale on another day adds neither), and adds its stored profit to the net profit. |
| Reports.LowStockAfterSale | electron/db.js:177 | A sale of non-negative quantities never takes a product off the low-stock list. |
| Pos.LineOf | src/pages/POS.jsx:107 | `find` by id: a line found carries that id, and none is found exactly when no line has it. |
| Pos.AddToCart | src/pages/POS.jsx:104-114 | A product with a line at its stock is refused and the cart is unchanged. A new product is appended with one unit. Otherwise that product's line gains one unit and nothing else changes: the cart keeps its length and order, and every other line and every other field is as it was. Other products' units never change, and one line per product stays one line per product. |
| Pos.AddKeepsWithinStock | src/pages/POS.jsx:104-114 | Adding a product in stock keeps its units in the cart within its stock. |
| Pos.RemoveFromCart | src/pages/POS.jsx:131 | Drops exactly the lines of that product, keeps the others in their order, and leaves other products' units unchanged. |
| Pos.RemoveUndoesAdd | src/pages/POS.jsx:104-131 | Removing a product right after adding it gives the cart without that product. |
| Pos.AdjustLine | src/pages/POS.jsx:116-129 | Only lines of that id change, and only in quantity. When the catalogue lists the product and max(1, q + delta) passes its stock, the line stays as it was. Otherwise the new quantity is max(1, q + delta): at least 1, at least q + delta, and one of the two. |
| Pos.UpdateQuantity | src/pages/POS.jsx:116-129 | The cart keeps its length, and only quantities change. Lines of other products, and lines whose move the stock refuses, stay as they were. Every other line of the product gets max(1, q + delta) units. |
| Pos.UpThenDown | src/pages/POS.jsx:116-129 | `+` then `−` on a line with room for one more unit gives the cart back. |
| Pos.DownStopsAtOne | src/pages/POS.jsx:120 | `−` on a one-unit line leaves it at one unit. |
| Pos.TotalsOf | src/pages/POS.jsx:36-42 | The subtotal is Σ price_sell × quantity. The redeemable points are min(balance, subtotal − discount), and they come off only when redeemed. The taxable amount is max(0, subtotal − discount − points). The tax is taxable × rate / 100, and the total is taxable plus tax, so it is at least the taxable amount when the rate is non-negative. |
| Pos.PointsNeverRaiseTotal | src/pages/POS.jsx:36-42 | With a non-negative balance and rate and a discount within the subtotal, redeeming points never makes the bill larger. |
| Pos.OpenCheckout | src/pages/POS.jsx:51-55 | Opening checkout sets cash to the whole total and card to 0 and changes no other field of the till, so the split check passes and the totals are unchanged. |
| Pos.OpenCheckoutTwice | src/pages/POS.jsx:51-55 | Opening checkout on an already opened till changes nothing. |
| Pos.Payload | src/pages/POS.jsx:146-155 | The sale request carries the cart, the customer and the total. The discount is discount + the points discount. `pointsUsed` is the redeemable points when redeeming and 0 otherwise. The method is "Split" exactly when split. |
| Pos.ChargedIsTaxedRemainder | src/pages/POS.jsx:36-42 | At any tax rate, the total sent is (subtotal − recorded discount) × (1 + rate / 100) whenever that remainder is not negative. |
| Pos.PaidPlusDiscountIsSubtotal | src/pages/POS.jsx:146-155 | Without tax, what the customer pays plus the discount the ledger records is the subtotal. |
| Pos.Cleared | src/pages/POS.jsx:171-179 | After a sale the till is empty, with no customer, cash, no discount, no points and no split, and its total is 0. |
| Pos.Checkout | src/pages/POS.jsx:135-187 | A split that misses the total by more than 1 is refused, nothing is sent and the till stays. Once the sale is sent, the till is cleared whatever the ledger answers, because the IPC wrapper turns a ledger error into an `{ error }` reply that the page does not check. A failed sale leaves the ledger as it was. A success records the payload in the ledger. Without a storage fault a valid split always completes. |
| Pos.CheckoutRecordsCart | src/pages/POS.jsx:146-155 | A completed checkout stores a row with the cart, the total, the defaulted customer and method, and lowers each product's stock by its units. |
| Pos.HoldCart | src/pages/POS.jsx:191-201 | With an empty cart or no name, nothing happens. Otherwise one held cart (name, lines) is added, and the cart, customer and discount are cleared. |
| Pos.RestoreCart | src/pages/POS.jsx:209-215 | The held lines and name come back on the till, and no other till field changes. That held cart is deleted, every other held cart is kept, and no other table changes. |
| Pos.HoldThenRestore | src/pages/POS.jsx:191-215 | Holding then restoring gives back the cart under the reference name and the held list as it was. The discount does not come back. |
| Pos.FindCustomer | src/pages/POS.jsx:93 | Finds the first customer whose name matches ignoring case, or reports that none matches. |
| Pos.LookupPoints | src/pages/POS.jsx:88-101 | No name or no matching customer shows 0 points. Otherwise it shows the first match's balance. |
| Pos.LookupIgnoresCase | src/pages/POS.jsx:93 | The lookup gives the same balance however the name is capitalised. |
| History.RemoveItem | src/pages/History.jsx:36-41 | The line at the index is dropped, the rest keep their order, and the total is re-priced as Σ price_sell × quantity. It falls by exactly that line's amount. |
| History.Decrement | src/pages/History.jsx:255-261 | `−` changes nothing at one unit. Above one unit it removes one unit and lowers the total by the unit price. |
| History.Increment | src/pages/History.jsx:269-273 | `+` adds exactly one unit to that line and raises the total by the unit price. |
| History.IncrementThenDecrement | src/pages/History.jsx:255-273 | `+` then `−` gives back the lines, priced afresh. |
| History.SaveChanges | src/pages/History.jsx:43-51 | The edit request carries the draft's id, timestamp, lines, customer and total unchanged. |
| History.RemovingALineReturnsItsStock | src/pages/History.jsx:36-51 | Saving a sale with one line removed succeeds and gives that line's units back to its product. No other stock moves. |
| History.DecrementReturnsOneUnit | src/pages/History.jsx:255-261 | Saving after `−` returns exactly one unit of that line's product. |
| History.Filtered | src/pages/History.jsx:61-64 | A sale is listed exactly when its lower-cased customer name contains the lower-cased term, or its decimal id contains the term. The order is kept. |
| History.EmptySearchListsAll | src/pages/History.jsx:61-64 | An empty search lists every sale. |
| History.SearchIgnoresNameCase | src/pages/History.jsx:61-64 | Two terms that agree ignoring case find the same sales, unless one of them matches an id. |
| InvoiceEditor.Open | src/components/InvoiceEditor.jsx:10-14 | The editor opens on a copy of the invoice with nothing edited. |
| InvoiceEditor.TotalsOf | src/components/InvoiceEditor.jsx:68-74 | The subtotal is Σ (price_at_sale or 0) × quantity, the tax is 0, and total + (discount or 0) = subtotal. |
| InvoiceEditor.UnpricedLinesCountZero | src/components/InvoiceEditor.jsx:68 | Lines without a price add nothing to the subtotal. |
| InvoiceEditor.SetCustomer | src/components/InvoiceEditor.jsx:18-21 | A field update changes only that field and marks the editor edited. |
| InvoiceEditor.SetDate | src/components/InvoiceEditor.jsx:18-21 | The same, for the date. |
| InvoiceEditor.SetDiscount | src/components/InvoiceEditor.jsx:18-21 | The same, for the discount; the total becomes subtotal − discount. |
| InvoiceEditor.QuantityChange | src/components/InvoiceEditor.jsx:23-32 | Line i's quantity becomes q + delta when that is at least 1, and 1 otherwise. Every other line and field stays, and the draft is marked edited. |
| InvoiceEditor.UpThenDown | src/components/InvoiceEditor.jsx:23-32 | `+` then `−` on a line of at least one unit gives the lines back. |
| InvoiceEditor.RemoveItem | src/components/InvoiceEditor.jsx:34-41 | Exactly index i is removed, the rest keep their order, and the subtotal falls by that line's amount. |
| InvoiceEditor.IndexOfProduct | src/components/InvoiceEditor.jsx:45 | `findIndex` on `product_id \|\| id`: the first line of that product, or none. |
| InvoiceEditor.AddItem | src/components/InvoiceEditor.jsx:43-65 | An existing line of the product gains one unit and nothing else changes. Otherwise a one-unit line with the product's id, name and price is appended. |
| InvoiceEditor.AddItemAddsOneUnit | src/components/InvoiceEditor.jsx:43-65 | Adding a product puts exactly one more unit of it on the invoice and no unit of anything else. The subtotal rises by that unit's price. |
| InvoiceEditor.Save | src/components/InvoiceEditor.jsx:76-83 | Nothing is saved before an edit. A save carries the draft, tax 0, the discount defaulting to 0, and total + discount = subtotal. |
| InvoiceEditor.SaveNeedsAnEdit | src/components/InvoiceEditor.jsx:227 | A freshly opened invoice cannot be saved, and after one edit it can. |
| InvoiceEditor.Suggestions | src/components/InvoiceEditor.jsx:85-88 | The first min(5, number of matches) matching products, in catalogue order: a prefix of the matches, of that length. |
| InvoiceEditor.FewMatchesAllShown | src/components/InvoiceEditor.jsx:85-88 | With five matches or fewer, the suggestions are exactly the matches. |
| Repairs.NextStatus | src/pages/Repairs.jsx:36-38 | A next status exists exactly for the three board statuses. It is a different board status. |
| Repairs.ThreeMovesCycle | src/pages/Repairs.jsx:36 | Three moves bring any board status back to itself. |
| Repairs.EveryColumnReachable | src/pages/Repairs.jsx:36 | Every column is reached from every column within two moves. |
| Repairs.MoveStatus | src/pages/Repairs.jsx:35-43 | An unknown status changes nothing and sends nothing. Otherwise only the tickets with that id change, only in status, and the store is asked to record the next status. |
| Repairs.MoveKeepsBoard | src/pages/Repairs.jsx:35-43 | A move never takes a ticket off the board. |
| Repairs.Column | src/pages/Repairs.jsx:85 | A column holds exactly the tickets with its status, in order. |
| Repairs.ColumnsPartition | src/pages/Repairs.jsx:5-9 | The three column sizes add up to the number of tickets with a board status. |
| Repairs.Submit | src/pages/Repairs.jsx:55-66 | Nothing is sent unless a customer and a device are given. The cost is the parsed number or 0, and the form is cleared after sending. |
| Repairs.SubmitTwiceSendsOnce | src/pages/Repairs.jsx:55-66 | A second submit straight after a successful one sends nothing and leaves the form empty. |
| StockPage.Coerce | src/pages/Stock.jsx:118-120 | `Number(x) \|\| 0`: a number stays, and an unparsable text gives 0. |
| StockPage.Shown | src/pages/Stock.jsx:61-63 | `x \|\| ''`: a zero shows as an empty field, anything else as itself. |
| StockPage.OpenEdit | src/pages/Stock.jsx:58-69 | The form shows the product's fields, and its numbers coerce back to the product's values. |
| StockPage.Submit | src/pages/Stock.jsx:113-123 | Numbers are coerced, texts kept, and image and warranty default to empty. |
| StockPage.EditRoundTrip | src/pages/Stock.jsx:58-123 | Opening a product and saving it untouched sends the product's own values. |
| StockPage.BlankFormSendsZeros | src/pages/Stock.jsx:16-26 | The untouched add form sends zeros and empty texts. |
| StockPage.Filtered | src/pages/Stock.jsx:154-163 | A product is listed exactly when it matches the search and category and, under the low-stock switch, has fewer than 5 units. The order is kept. |
| StockPage.LowListMatchesDashboard | src/pages/Stock.jsx:160 | The low-stock list with no search has as many products as the dashboard's low-stock card counts. |
| StockPage.ValuationsAddUp | src/pages/Stock.jsx:173-174 | Stock value plus potential profit is the stock's value at list price. |
| StockPage.ValuationsIgnoreOrder | src/pages/Stock.jsx:173-174 | Both valuations are independent of the list's order. |
| StockPage.ExportRow | src/pages/Stock.jsx:73-82 | A row as the page writes it has eight cells holding id, name, SKU, category, cost, price, stock and warranty (or empty). |
| StockPage.ExportRowRoundTrip | src/pages/Stock.jsx:73-86 | When the SKU and category have no comma or quote, the page's row reads back as its eight values. |
| StockPage.SkuWithCommaShiftsColumns | src/pages/Stock.jsx:76 | With SKU "A,B" the page's row reads back as nine fields, and the category lands in the fifth column. |
| StockPage.SafeExportRow | src/pages/Stock.jsx:73-82 | The corrected row holds the same eight values, every text field enclosed. |
| StockPage.SafeRowRoundTrip | src/pages/Stock.jsx:73-86 | The corrected row reads back as the product's eight values, whatever its texts contain. |
| StockPage.ProductLines | src/pages/Stock.jsx:86 | One line per product, in list order, each the product's row joined with commas as the page writes it. |
| StockPage.ExportLines | src/pages/Stock.jsx:84-87 | The header line first, then line i + 1 is the page's line for product i. |
| StockPage.ExportLineReadsBack | src/pages/Stock.jsx:84-87 | A product line of the page's export reads back as that product's eight values, provided its SKU and category hold no comma or quote. The line is read before the lines are joined, so a line break in them is not covered. |
| StockPage.ExportLineMisread | src/pages/Stock.jsx:84-87 | In the page's export, the line of a product whose SKU is "A,B" reads back as nine fields. |
| StockPage.ExportAppend | src/pages/Stock.jsx:84-87 | One more product adds one newline-separated line at the end of the page's export and changes nothing before it. |
| StockPage.SafeExportLineReadsBack | src/pages/Stock.jsx:84-87 | In the corrected export, every product line reads back as the product's eight values, whatever its texts contain. |
| StockPage.HeaderRoundTrip | src/pages/Stock.jsx:72 | The header line reads back as the eight column names. |
| Csv.EscapeAppend | src/pages/Stock.jsx:75 | Quote doubling distributes over concatenation. |
| Csv.ReadEnclosedEscape | src/pages/Stock.jsx:75 | An escaped text followed by its closing quote reads back as the text (item 7 of section 2 of RFC 4180). |
| Csv.ReadFieldCell | src/pages/Stock.jsx:75-77 | One written cell followed by a comma or the end reads back as its value. |
| Csv.RecordRoundTrip | src/pages/Stock.jsx:86 | A comma-joined record whose bare cells have no comma or quote reads back as its cell values. |
| SalesChart.Label | src/pages/Dashboard.jsx:67 | `date.slice(5)`: the date with its first five characters removed. |
| SalesChart.Chart | src/pages/Dashboard.jsx:57-68 | One bar per given day, oldest first; bar i is for the (n − 1 − i)-th newest day. |
| SalesChart.NoSalesNoBar | src/pages/Dashboard.jsx:63-66 | A day no sale's timestamp starts with has a zero bar. |
| SalesChart.DayTotalIgnoresOrder | src/pages/Dashboard.jsx:64-66 | A day's total does not depend on the order of the sales. |
| SalesChart.ChartIgnoresOrder | src/pages/Dashboard.jsx:63-68 | The whole chart does not depend on the order of the sales. |
| SalesChart.TodayBarIsRevenue | src/pages/Dashboard.jsx:63-67 | Drawn from the ledger's listing, the rightmost bar equals the dashboard's revenue for that day. |
| SalesChart.DayTotalAppend | src/pages/Dashboard.jsx:64-66 | One more sale adds its total to the bar of the day its timestamp starts with, and to no other. |
| SalesChart.SaleRaisesItsBar | src/pages/Dashboard.jsx:63-66 | After a checkout, each bar rises by the sale's total when the sale falls on its day and stays as it was otherwise. |

## Left out

- SQL text, the storage engine, WAL, schema migrations, authentication, backup, restore and reset. Tables are values, and the `db.transaction` wrapper is the script interpreter with `Atomically`.
- SKU generation. It draws on the clock and on randomness, and no modelled operation depends on it.
- Floating point. Money is an exact `real`, so nothing is proved about rounding or `toLocaleString`.
- Case folding covers ASCII letters only; `toLowerCase` beyond ASCII is not modelled.
- The clock. `new Date().toISOString()` is the parameter `now`, and the dashboard's "today" is the parameter `today`.
- The chart's seven dates are given as a parameter, newest first. Their generation from the clock is not modelled. `SalesChart.Chart` draws one bar per given date.
- JSON. The item snapshot is stored as the list itself, so `JSON.stringify` and `JSON.parse` are taken to be an exact round trip.
- Number-to-text. JavaScript's conversion of a number to text in the CSV export is a parameter (`numText`). It is assumed to write no comma or quote.
- Number parsing. `parseFloat` and `Number` on typed text are given as their result (`Option<real>`, `None` for NaN).
- Tie order. `ORDER BY timestamp DESC` and the best-seller sort are modelled as stable sorts over the scan order. The contracts never pin the order of ties, which SQLite leaves unspecified.
- Tax and payment details. The checkout sends `tax` and `paymentDetails` (src/pages/POS.jsx:148-155), but `createTransaction` never reads them (electron/db.js:252), so no row stores them.
- `getCustomerHistory` and `getSalesByCategory`. electron/preload.js:9 and :22 expose them, but electron/main.js:77-113 registers no handler for their channels, and `getSalesByHour` is not exposed at all. They are not modelled.
- The tax rate. src/pages/POS.jsx:81-83 reads it through `getSettings`, whose channel `app:get-settings` (electron/preload.js:48) has no handler in electron/main.js, so the call rejects and the rate stays at its initial 0 (src/pages/POS.jsx:27). `Pos.TotalsOf` and `Pos.ChargedIsTaxedRemainder` allow any rate, which covers that 0.
- SalesChart.Chart: in the code as written the dashboard never draws the chart. src/pages/Dashboard.jsx:48 awaits `getSalesByCategory`, whose channel has no handler, so the call rejects. `fetchData` then jumps to its `catch` at :70 before `setStats` and the chart at :51-69, and `getSalesByHour` at :49 is not even a function. The model gives the bars that lines 57-68 would compute from the dates and the history.
- Field names. `InvoiceEditor.jsx` reads `product_id`, `product_name`, `price_at_sale`, `sell_price` and `discount_amount`, which the ledger's rows do not carry. It is modelled as its own module with its own field names, each optional where the code falls back with `||`.
- InvoiceEditor.AddItemAddsOneUnit: requires a non-zero product id. The code's `i.product_id || i.id` treats id 0 as missing, so the lines of product 0 are not counted.
- Repairs.NextStatus: a status naming an inherited property of a plain object (such as `toString`) would find a function in `nextMap`. The model treats every status outside the three columns as having no next status.
- Reports.Group: a line under an inherited key is skipped, as the code's lookup does. What `map[name].qty += …` then writes onto the inherited value, including `Object.prototype` itself for `__proto__`, is not modelled.
- The history page's `startEdit` deep copy is the identity on values. The `−` and `+` handlers' in-place mutation of a shared line object is not modelled; the model copies.
- Interface gating: F12's `cart.length > 0 && !isCheckoutOpen`, disabled buttons, prompts, alerts, sounds, modals and rendering. `Pos.OpenCheckout` models what F12 and the checkout button do once allowed.
- Csv.RecordRoundTrip: the reader reads one record per line. A newline inside a product's name or warranty, which the export writes inside quotes, is not read back, and a newline in a bare SKU or category splits the record in the file, which the line-level read-back lemmas do not see.
- Reports.DashboardStats: `LIKE 'today%'` is modelled as a prefix test, which is faithful for dates without `%` or `_`.

## Findings

| source | as written | input that shows it | evidently intended | confidence | as-written member | corrected member |
|---|---|---|---|---|---|---|
| src/pages/Stock.jsx:73-87 | SKU and category are written without quotes, while name and warranty are quoted and escaped | a product whose SKU is `A,B` | every exported line reads back as the product's eight fields | not executed | StockPage.SkuWithCommaShiftsColumns | StockPage.SafeRowRoundTrip |

The as-written row is `StockPage.ExportRow`. Under the comma-separated reading that section 2 of RFC 4180 describes, it reads back as nine fields for that SKU, with every column after the SKU shifted by one. The page's whole document, `StockPage.ExportLines` and `StockPage.ExportCsv`, is built from that row, and `StockPage.ExportLineMisread` shows the nine-field line inside it. The corrected row `StockPage.SafeExportRow` encloses every text field, and `StockPage.SafeExportLines` and `StockPage.SafeExportCsv` build the corrected document from it.

=== FILE: common.dfy ===
/** Shared vocabulary: failure-carrying results, sums and counts over
    sequences, order-preserving filters, and the string helpers the pages
    and the ledger use (prefix tests, substring search, ASCII lower-casing,
    decimal rendering of integers). */
module Common {

  datatype Option<+T> = None | Some(value: T) {
    function GetOr(default: T): T {
      match this
      case Some(v) => v
      case None => default
    }
  }

  /** Either a value or the message of the error the source would raise. */
  datatype Result<+T> = Ok(value: T) | Err(error: string)

  function Max(a: real, b: real): real { if a < b then b else a }
  function Min(a: real, b: real): real { if a < b then a else b }
  function MaxInt(a: int, b: int): int { if a < b then b else a }
  function MinInt(a: int, b: int): int { if a < b then a else b }
  function Abs(x: real): real { if x < 0.0 then -x else x }

  // ---------------------------------------------------------------------
  // Sums and counts (the `reduce((acc, x) => acc + f(x), 0)` idiom)
  // ---------------------------------------------------------------------

  function SumOf<T>(s: seq<T>, f: T -> real): real
  {
    if |s| == 0 then 0.0 else f(s[0]) + SumOf(s[1..], f)
  }

  /** Summing is additive over concatenation. */
  lemma {:induction false} SumOfAppend<T>(a: seq<T>, b: seq<T>, f: T -> real)
    ensures SumOf(a + b, f) == SumOf(a, f) + SumOf(b, f)
  {
    if |a| == 0 {
      assert a + b == b;
    } else {
      assert (a + b)[1..] == a[1..] + b;
      SumOfAppend(a[1..], b, f);
    }
  }

  /** Taking one term out of a sum. */
  lemma SumOfRemove<T>(b: seq<T>, j: nat, f: T -> real)
    requires j < |b|
    ensures SumOf(b, f) == f(b[j]) + SumOf(b[..j] + b[j+1..], f)
  {
    var pre, post := b[..j], b[j+1..];
    assert b == pre + ([b[j]] + post);
    SumOfAppend(pre, [b[j]] + post, f);
    assert SumOf([b[j]] + post, f) == f(b[j]) + SumOf(post, f) by {
      assert ([b[j]] + post)[1..] == post;
    }
    SumOfAppend(pre, post, f);
  }

  /** A sum does not depend on the order of its terms. */
  lemma {:induction false} SumOfPermutation<T>(a: seq<T>, b: seq<T>, f: T -> real)
    requires multiset(a) == multiset(b)
    ensures SumOf(a, f) == SumOf(b, f)
    decreases |a|
  {
    if |a| == 0 {
      assert |b| == |multiset(b)| == 0;
    } else {
      var j := IndexIn(a[0], b);
      var rest := b[..j] + b[j+1..];
      RemoveMatching(a, b, j);
      SumOfPermutation(a[1..], rest, f);
      SumOfRemove(b, j, f);
    }
  }

  /** A position of `x` in `b`, when `x` occurs there. */
  lemma IndexIn<T>(x: T, b: seq<T>) returns (j: nat)
    requires x in multiset(b)
    ensures j < |b| && b[j] == x
  {
    assert x in b;
    j :| 0 <= j < |b| && b[j] == x;
  }

  /** Dropping the first element of `a` and its match at `j` in `b` keeps
      the two sides equal as multisets. */
  lemma RemoveMatching<T>(a: seq<T>, b: seq<T>, j: nat)
    requires |a| > 0 && multiset(a) == multiset(b)
    requires j < |b| && b[j] == a[0]
    ensures multiset(a[1..]) == multiset(b[..j] + b[j+1..])
  {
    var x := a[0];
    assert a == [x] + a[1..];
    assert b == b[..j] + [x] + b[j+1..];
    assert multiset(a[1..]) == multiset(a) - multiset{x};
    assert multiset(b[..j] + b[j+1..]) == multiset(b) - multiset{x};
  }

  function CountOf<T>(s: seq<T>, p: T -> bool): nat
  {
    if |s| == 0 then 0 else (if p(s[0]) then 1 else 0) + CountOf(s[1..], p)
  }

  // ---------------------------------------------------------------------
  // Filtering and removal (`Array.prototype.filter`, `splice(i, 1)`)
  // ---------------------------------------------------------------------

  /** `a` is `b` with some elements dropped and the rest kept in order. */
  predicate IsSubseq<T(==)>(a: seq<T>, b: seq<T>)
    decreases |b|
  {
    if |a| == 0 then true
    else if |b| == 0 then false
    else if a[0] == b[0] then IsSubseq(a[1..], b[1..])
    else IsSubseq(a, b[1..])
  }

  function Filter<T(==,!new)>(s: seq<T>, p: T -> bool): (r: seq<T>)
    ensures forall x :: x in r <==> x in s && p(x)
    ensures |r| <= |s|
    ensures IsSubseq(r, s)
    ensures (forall i :: 0 <= i < |s| ==> p(s[i])) ==> r == s
    ensures (forall i :: 0 <= i < |s| ==> !p(s[i])) ==> r == []
  {
    if |s| == 0 then []
    else if p(s[0]) then [s[0]] + Filter(s[1..], p)
    else Filter(s[1..], p)
  }

  /** Filtering keeps as many elements as pass the test. */
  lemma {:induction false} FilterCountOf<T(!new)>(s: seq<T>, p: T -> bool)
    ensures |Filter(s, p)| == CountOf(s, p)
  {
    if |s| > 0 {
      FilterCountOf(s[1..], p);
    }
  }

  /** Summing what passes a test is summing every element, those that
      fail it counted as zero. */
  lemma {:induction false} FilterSum<T(!new)>(s: seq<T>, p: T -> bool, f: T -> real, g: T -> real)
    requires forall x :: g(x) == (if p(x) then f(x) else 0.0)
    ensures SumOf(Filter(s, p), f) == SumOf(s, g)
  {
    if |s| > 0 {
      FilterSum(s[1..], p, f, g);
    }
  }

  lemma {:induction false} FilterAppend<T(!new)>(s: seq<T>, x: T, p: T -> bool)
    ensures Filter(s + [x], p) == Filter(s, p) + (if p(x) then [x] else [])
  {
    if |s| == 0 {
      assert s + [x] == [x];
      assert [x][1..] == [];
    } else {
      assert (s + [x])[1..] == s[1..] + [x];
      FilterAppend(s[1..], x, p);
    }
  }

  /** `splice(i, 1)`: drop the element at index `i`; an index past the end
      removes nothing. */
  function RemoveAt<T>(s: seq<T>, i: nat): (r: seq<T>)
    ensures i < |s| ==> |r| == |s| - 1
    ensures i >= |s| ==> r == s
    ensures forall j :: 0 <= j < i && j < |r| ==> r[j] == s[j]
    ensures forall j :: i <= j < |r| ==> r[j] == s[j + 1]
  {
    if i < |s| then s[..i] + s[i+1..] else s
  }

  // ---------------------------------------------------------------------
  // Strings
  // ---------------------------------------------------------------------

  /** `s.startsWith(prefix)`, and SQL `s LIKE 'prefix%'` for a prefix
      without wildcard characters. */
  predicate StartsWith(s: string, prefix: string)
  {
    |prefix| <= |s| && s[..|prefix|] == prefix
  }

  /** `hay.includes(needle)`. */
  predicate Contains(hay: string, needle: string)
    decreases |hay|
  {
    StartsWith(hay, needle) || (|hay| > 0 && Contains(hay[1..], needle))
  }

  /** Every text contains the empty text. */
  lemma ContainsEmpty(s: string)
    ensures Contains(s, "")
  {
  }

  function LowerChar(c: char): char
  {
    if 'A' <= c <= 'Z' then (c as int + 32) as char else c
  }

  /** `toLowerCase()`, restricted to the ASCII letters. */
  function ToLower(s: string): (r: string)
    ensures |r| == |s|
  {
    seq(|s|, i requires 0 <= i < |s| => LowerChar(s[i]))
  }

  /** `s.slice(n)` for a non-negative `n`. */
  function DropChars(s: string, n: nat): string
  {
    if n <= |s| then s[n..] else ""
  }

  function DigitChar(d: int): char
    requires 0 <= d < 10
  {
    ('0' as int + d) as char
  }

  function NatToDecimal(n: nat): (r: string)
    ensures |r| > 0
    ensures forall i :: 0 <= i < |r| ==> '0' <= r[i] <= '9'
  {
    if n < 10 then [DigitChar(n)] else NatToDecimal(n / 10) + [DigitChar(n % 10)]
  }

  /** `n.toString()` for an integer. */
  function IntToDecimal(n: int): string
  {
    if n < 0 then "-" + NatToDecimal(-n) else NatToDecimal(n)
  }
}

=== FILE: csv.dfy ===
/** Comma-separated text as section 2 of RFC 4180 describes it: fields
    separated by commas, a field enclosed in double quotes when it needs to
    carry commas or quotes, and a quote inside such a field written twice
    (item 7). The reader is the one a spreadsheet applies to one record. */
module Csv {
  import opened Common

  const Quote: char := '"'
  const Comma: char := ','

  /** `s.replace(/"/g, '""')`: every double quote written twice. */
  function Escape(s: string): (r: string)
    ensures |r| >= |s|
  {
    if |s| == 0 then ""
    else (if s[0] == Quote then [Quote, Quote] else [s[0]]) + Escape(s[1..])
  }

  /** `"${escaped}"`: a field enclosed in quotes. */
  function Enclose(s: string): string
  {
    [Quote] + Escape(s) + [Quote]
  }

  /** A field that may be written bare: no comma and no quote. */
  predicate PlainSafe(s: string)
  {
    forall i :: 0 <= i < |s| ==> s[i] != Comma && s[i] != Quote
  }

  /** A field as the exporter writes it: bare, or enclosed. */
  datatype Cell = Bare(text: string) | Enclosed(text: string)

  function CellText(c: Cell): string
  {
    match c
    case Bare(t) => t
    case Enclosed(t) => Enclose(t)
  }

  /** `fields.join(',')`. */
  function JoinWith(parts: seq<string>, sep: char): string
  {
    if |parts| == 0 then ""
    else if |parts| == 1 then parts[0]
    else parts[0] + [sep] + JoinWith(parts[1..], sep)
  }

  function Texts(cells: seq<Cell>): (r: seq<string>)
    ensures |r| == |cells|
    ensures forall i :: 0 <= i < |cells| ==> r[i] == CellText(cells[i])
  {
    if |cells| == 0 then [] else [CellText(cells[0])] + Texts(cells[1..])
  }

  function Values(cells: seq<Cell>): (r: seq<string>)
    ensures |r| == |cells|
    ensures forall i :: 0 <= i < |cells| ==> r[i] == cells[i].text
  {
    if |cells| == 0 then [] else [cells[0].text] + Values(cells[1..])
  }

  /** One record as text. */
  function Record(cells: seq<Cell>): string
  {
    JoinWith(Texts(cells), Comma)
  }

  /** Cells a reader gets back unchanged: bare ones must be plain-safe. */
  predicate Writable(cells: seq<Cell>)
  {
    forall i :: 0 <= i < |cells| ==> cells[i].Enclosed? || PlainSafe(cells[i].text)
  }

  // ---------------------------------------------------------------------
  // The reader
  // ---------------------------------------------------------------------

  /** A bare field runs up to the next comma. */
  function ReadBare(s: string): (r: (string, string))
    ensures r.0 + r.1 == s
    ensures |r.1| == 0 || r.1[0] == Comma
    ensures forall i :: 0 <= i < |r.0| ==> r.0[i] != Comma
  {
    if |s| == 0 || s[0] == Comma then ("", s)
    else
      var (v, rest) := ReadBare(s[1..]);
      assert [s[0]] + v + rest == s;
      ([s[0]] + v, rest)
  }

  /** The inside of an enclosed field, after its opening quote: a doubled
      quote stands for one quote, a single quote closes the field. An
      unclosed field runs to the end. */
  function ReadEnclosed(s: string): (r: (string, string))
    ensures |r.1| <= |s|
  {
    if |s| == 0 then ("", "")
    else if s[0] == Quote then
      if |s| >= 2 && s[1] == Quote then
        var (v, rest) := ReadEnclosed(s[2..]);
        ([Quote] + v, rest)
      else ("", s[1..])
    else
      var (v, rest) := ReadEnclosed(s[1..]);
      ([s[0]] + v, rest)
  }

  /** One field and what follows it. */
  function ReadField(s: string): (r: (string, string))
    ensures |r.1| <= |s|
  {
    if |s| > 0 && s[0] == Quote then ReadEnclosed(s[1..]) else ReadBare(s)
  }

  /** All the fields of one record. */
  function ReadRecord(s: string): (r: seq<string>)
    ensures |r| >= 1
    decreases |s|
  {
    var (v, rest) := ReadField(s);
    if |rest| > 0 && rest[0] == Comma then [v] + ReadRecord(rest[1..]) else [v]
  }

  // ---------------------------------------------------------------------
  // Round trip
  // ---------------------------------------------------------------------

  lemma {:induction false} EscapeAppend(a: string, b: string)
    ensures Escape(a + b) == Escape(a) + Escape(b)
  {
    if |a| > 0 {
      assert (a + b)[1..] == a[1..] + b;
      EscapeAppend(a[1..], b);
    } else {
      assert a + b == b;
    }
  }

  lemma ReadEnclosedDoubled(rest: string)
    ensures ReadEnclosed([Quote, Quote] + rest) == ([Quote] + ReadEnclosed(rest).0, ReadEnclosed(rest).1)
  {
    assert ([Quote, Quote] + rest)[2..] == rest;
  }

  lemma ReadEnclosedPlain(c: char, rest: string)
    requires c != Quote
    ensures ReadEnclosed([c] + rest) == ([c] + ReadEnclosed(rest).0, ReadEnclosed(rest).1)
  {
    assert ([c] + rest)[1..] == rest;
  }

  /** Reading back an escaped text up to its closing quote gives the text,
      provided no quote follows the closing one (the writer follows a field
      with a comma or with nothing). */
  lemma {:induction false} ReadEnclosedEscape(t: string, tail: string)
    requires |tail| == 0 || tail[0] != Quote
    ensures ReadEnclosed(Escape(t) + [Quote] + tail) == (t, tail)
  {
    var s := Escape(t) + [Quote] + tail;
    if |t| == 0 {
      assert s == [Quote] + tail;
      assert s[1..] == tail;
    } else {
      ReadEnclosedEscape(t[1..], tail);
      var rest := Escape(t[1..]) + [Quote] + tail;
      assert Escape(t) == (if t[0] == Quote then [Quote, Quote] else [t[0]]) + Escape(t[1..]);
      if t[0] == Quote {
        assert s == [Quote, Quote] + rest;
        ReadEnclosedDoubled(rest);
      } else {
        assert s == [t[0]] + rest;
        ReadEnclosedPlain(t[0], rest);
      }
      assert [t[0]] + t[1..] == t;
    }
  }

  /** Reading back a plain-safe text up to the next comma gives the text. */
  lemma {:induction false} ReadBarePlain(t: string, tail: string)
    requires PlainSafe(t)
    requires |tail| == 0 || tail[0] == Comma
    ensures ReadBare(t + tail) == (t, tail)
  {
    var s := t + tail;
    if |t| == 0 {
      assert s == tail;
    } else {
      assert s[1..] == t[1..] + tail;
      ReadBarePlain(t[1..], tail);
      assert [t[0]] + t[1..] == t;
    }
  }

  /** One written cell followed by a comma or nothing reads back as its
      value. */
  lemma ReadFieldCell(c: Cell, tail: string)
    requires c.Enclosed? || PlainSafe(c.text)
    requires |tail| == 0 || tail[0] == Comma
    ensures ReadField(CellText(c) + tail) == (c.text, tail)
  {
    match c
    case Enclosed(t) =>
      var s := Enclose(t) + tail;
      assert s == [Quote] + (Escape(t) + [Quote] + tail);
      assert s[1..] == Escape(t) + [Quote] + tail;
      ReadEnclosedEscape(t, tail);
    case Bare(t) =>
      if |t| > 0 {
        assert (t + tail)[0] == t[0];
      } else {
        assert t + tail == tail;
      }
      ReadBarePlain(t, tail);
  }

  /** Reading a written record gives back the cell values, whatever the
      values are, as long as bare cells are plain-safe. */
  lemma {:induction false} RecordRoundTrip(cells: seq<Cell>)
    requires |cells| >= 1
    requires Writable(cells)
    ensures ReadRecord(Record(cells)) == Values(cells)
  {
    var c := cells[0];
    if |cells| == 1 {
      assert Record(cells) == CellText(c);
      ReadFieldCell(c, "");
      assert CellText(c) + "" == CellText(c);
    } else {
      var rest := cells[1..];
      assert Texts(cells)[1..] == Texts(rest);
      var tail := [Comma] + Record(rest);
      assert Record(cells) == CellText(c) + tail;
      ReadFieldCell(c, tail);
      assert tail[1..] == Record(rest);
      RecordRoundTrip(rest);
      assert Values(cells) == [c.text] + Values(rest);
    }
  }
}

=== FILE: history.dfy ===
/** The sales-history page (src/pages/History.jsx): the search over past
    sales, and the edit draft of one sale with its line edits and the
    update it sends to the ledger. */
module History {
  import opened Common
  import opened Tables
  import opened Records
  import opened Ledger

  /** A sale as listed, and the edit draft of one. Because the draft is a
      value, `startEdit`'s deep copy is the sale itself and no edit of the
      draft can reach the listed sale. */
  type Draft = Entry<Sale>

  // ---------------------------------------------------------------------
  // Line edits. Every edit re-prices the draft as Σ price_sell × quantity,
  // so a discount the sale carried is no longer part of its total.
  // ---------------------------------------------------------------------

  /** `removeItem(index)`: drop the line at `index` (nothing when past the
      end) and re-price. */
  function RemoveItem(d: Draft, index: nat): (r: Draft)
    ensures r.id == d.id && r.row == d.row.(items := r.row.items, total := r.row.total)
    ensures r.row.items == RemoveAt(d.row.items, index)
    ensures r.row.total == ItemsTotal(r.row.items)
    ensures index < |d.row.items| ==>
      r.row.total == ItemsTotal(d.row.items) - LineTotal(d.row.items[index])
  {
    var items := RemoveAt(d.row.items, index);
    assert index < |d.row.items| ==>
      ItemsTotal(items) == ItemsTotal(d.row.items) - LineTotal(d.row.items[index]) by {
      if index < |d.row.items| {
        SumOfRemove(d.row.items, index, LineTotal);
      }
    }
    d.(row := d.row.(items := items, total := ItemsTotal(items)))
  }

  /** The `-` button on line `i`: one unit less while more than one is
      left; at one unit nothing changes, the total included. */
  function Decrement(d: Draft, i: nat): (r: Draft)
    requires i < |d.row.items|
    ensures d.row.items[i].quantity <= 1 ==> r == d
    ensures d.row.items[i].quantity > 1 ==>
      && r.id == d.id && r.row == d.row.(items := r.row.items, total := r.row.total)
      && r.row.items == d.row.items[i := d.row.items[i].(quantity := d.row.items[i].quantity - 1)]
      && r.row.total == ItemsTotal(d.row.items) - d.row.items[i].priceSell
  {
    var line := d.row.items[i];
    if line.quantity > 1 then
      var items := d.row.items[i := line.(quantity := line.quantity - 1)];
      ReplaceLine(d.row.items, i, line.(quantity := line.quantity - 1));
      d.(row := d.row.(items := items, total := ItemsTotal(items)))
    else d
  }

  /** The `+` button on line `i`: one unit more, and re-price. */
  function Increment(d: Draft, i: nat): (r: Draft)
    requires i < |d.row.items|
    ensures r.id == d.id && r.row == d.row.(items := r.row.items, total := r.row.total)
    ensures r.row.items == d.row.items[i := d.row.items[i].(quantity := d.row.items[i].quantity + 1)]
    ensures r.row.total == ItemsTotal(d.row.items) + d.row.items[i].priceSell
  {
    var line := d.row.items[i];
    var items := d.row.items[i := line.(quantity := line.quantity + 1)];
    ReplaceLine(d.row.items, i, line.(quantity := line.quantity + 1));
    d.(row := d.row.(items := items, total := ItemsTotal(items)))
  }

  /** Swapping one line changes the sum by the difference of the two. */
  lemma ReplaceLine(items: seq<Item>, i: nat, x: Item)
    requires i < |items|
    ensures ItemsTotal(items[i := x]) == ItemsTotal(items) - LineTotal(items[i]) + LineTotal(x)
  {
    var s := items[i := x];
    SumOfRemove(items, i, LineTotal);
    SumOfRemove(s, i, LineTotal);
    assert s[..i] + s[i+1..] == items[..i] + items[i+1..];
  }

  /** `+` then `-` on a line gives the lines back, priced afresh. */
  lemma IncrementThenDecrement(d: Draft, i: nat)
    requires i < |d.row.items| && d.row.items[i].quantity >= 1
    ensures Decrement(Increment(d, i), i).row.items == d.row.items
    ensures Decrement(Increment(d, i), i).row.total == ItemsTotal(d.row.items)
  {
    var up := Increment(d, i);
    assert up.row.items[i].quantity > 1;
    assert up.row.items[i := up.row.items[i].(quantity := up.row.items[i].quantity - 1)] == d.row.items;
  }

  /** `saveChanges`: what the page sends to `updateTransaction`. The draft
      always carries the stored timestamp. */
  function SaveChanges(d: Draft): (r: EditRequest)
    ensures r.id == d.id && r.newDate == Some(d.row.timestamp)
    ensures r.newItems == d.row.items && r.newCustomer == d.row.customerName && r.newTotal == d.row.total
  {
    EditRequest(d.id, Some(d.row.timestamp), d.row.customerName, d.row.total, d.row.items)
  }

  /** Units of a product once line `index` is gone. */
  lemma QtyAfterRemove(items: seq<Item>, index: nat, k: int)
    requires index < |items|
    ensures QtyFor(RemoveAt(items, index), k) == QtyFor(items, k) - (if items[index].id == k then items[index].quantity else 0)
  {
    assert items == items[..index] + ([items[index]] + items[index + 1..]);
    QtyForAppend(items[..index], [items[index]] + items[index + 1..], k);
    QtyForAppend([items[index]], items[index + 1..], k);
    QtyForAppend(items[..index], items[index + 1..], k);
  }

  /** Saving a stored sale with one line removed puts that line's units
      back on its product's shelf and moves no other stock. */
  lemma RemovingALineReturnsItsStock(db: Db, tx: Draft, index: nat)
    requires Find(db.sales.entries, tx.id) == Some(tx.row)
    requires index < |tx.row.items|
    ensures var u := UpdateTransaction(db, SaveChanges(RemoveItem(tx, index)), None);
      var gone := tx.row.items[index];
      && u.result.Ok?
      && u.db.products.Keys == db.products.Keys
      && forall k :: k in db.products ==>
           u.db.products[k].stock == db.products[k].stock + (if k == gone.id then gone.quantity else 0)
  {
    var req := SaveChanges(RemoveItem(tx, index));
    var u := UpdateTransaction(db, req, None);
    forall k | k in db.products
      ensures u.db.products[k].stock == db.products[k].stock + (if k == tx.row.items[index].id then tx.row.items[index].quantity else 0)
    {
      QtyAfterRemove(tx.row.items, index, k);
    }
  }

  /** Saving a stored sale after `-` on a line returns one unit of that
      line's product to stock. */
  lemma DecrementReturnsOneUnit(db: Db, tx: Draft, i: nat)
    requires Find(db.sales.entries, tx.id) == Some(tx.row)
    requires i < |tx.row.items| && tx.row.items[i].quantity > 1
    ensures var u := UpdateTransaction(db, SaveChanges(Decrement(tx, i)), None);
      var line := tx.row.items[i];
      && u.result.Ok?
      && forall k :: k in db.products ==>
           u.db.products[k].stock == db.products[k].stock + (if k == line.id then 1 else 0)
  {
    var line := tx.row.items[i];
    var items := tx.row.items[i := line.(quantity := line.quantity - 1)];
    var u := UpdateTransaction(db, SaveChanges(Decrement(tx, i)), None);
    forall k | k in db.products
      ensures u.db.products[k].stock == db.products[k].stock + (if k == line.id then 1 else 0)
    {
      QtyAfterReplace(tx.row.items, i, line.(quantity := line.quantity - 1), k);
    }
  }

  lemma QtyAfterReplace(items: seq<Item>, i: nat, x: Item, k: int)
    requires i < |items| && x.id == items[i].id
    ensures QtyFor(items[i := x], k) == QtyFor(items, k) + (if x.id == k then x.quantity - items[i].quantity else 0)
  {
    var s := items[i := x];
    QtyAfterRemove(items, i, k);
    QtyAfterRemove(s, i, k);
    assert RemoveAt(s, i) == RemoveAt(items, i);
  }

  // ---------------------------------------------------------------------
  // Search
  // ---------------------------------------------------------------------

  /** A sale matches when its customer name contains the search text
      ignoring ASCII case, or its id written in decimal contains the text
      as typed. */
  predicate Matches(term: string, tx: Entry<Sale>)
  {
    Contains(ToLower(tx.row.customerName), ToLower(term))
    || Contains(IntToDecimal(tx.id), term)
  }

  /** `filtered`: the matching sales, in listing order. */
  function Filtered(txs: seq<Entry<Sale>>, term: string): (r: seq<Entry<Sale>>)
    ensures forall tx :: tx in r <==> tx in txs && Matches(term, tx)
    ensures IsSubseq(r, txs)
  {
    Filter(txs, (tx: Entry<Sale>) => Matches(term, tx))
  }

  /** An empty search lists every sale. */
  lemma EmptySearchListsAll(txs: seq<Entry<Sale>>)
    ensures Filtered(txs, "") == txs
  {
    forall i | 0 <= i < |txs|
      ensures Matches("", txs[i])
    {
      ContainsEmpty(ToLower(txs[i].row.customerName));
    }
  }

  /** Searching for a customer name finds that customer's sales however
      either side is capitalised. */
  lemma SearchIgnoresNameCase(txs: seq<Entry<Sale>>, a: string, b: string)
    requires ToLower(a) == ToLower(b)
    requires forall tx :: tx in txs ==> !Contains(IntToDecimal(tx.id), a) && !Contains(IntToDecimal(tx.id), b)
    ensures Filtered(txs, a) == Filtered(txs, b)
  {
    FilterSame(txs, (tx: Entry<Sale>) => Matches(a, tx), (tx: Entry<Sale>) => Matches(b, tx));
  }

  lemma {:induction false} FilterSame<T(!new)>(s: seq<T>, p: T -> bool, q: T -> bool)
    requires forall x :: x in s ==> p(x) == q(x)
    ensures Filter(s, p) == Filter(s, q)
  {
    if |s| > 0 {
      assert s[0] in s;
      assert forall x :: x in s[1..] ==> x in s;
      FilterSame(s[1..], p, q);
    }
  }
}

=== FILE: invoice_editor.dfy ===
/** The invoice editor (src/components/InvoiceEditor.jsx): a draft copy of
    an invoice whose lines can be re-counted, removed and added from a
    product search, with totals recomputed from the lines and a save that
    is possible only once something was edited.

    The editor names its fields `product_id`, `product_name`,
    `price_at_sale` and `sell_price`; the ledger's lines carry `id`, `name`
    and `price_sell` instead. The model keeps the editor's own fields, each
    optional where the editor falls back on `||`. */
module InvoiceEditor {
  import opened Common

  /** An invoice line as the editor reads it. */
  datatype Line = Line(
    productId: Option<int>, id: Option<int>, productName: string,
    quantity: int, priceAtSale: Option<real>)

  /** The invoice being edited. */
  datatype Invoice = Invoice(
    id: int, customerName: string, dateCreated: string,
    items: seq<Line>, discountAmount: Option<real>)

  /** A product as the search lists it. */
  datatype Offer = Offer(id: int, name: string, sku: string, sellPrice: Option<real>)

  /** The draft and whether anything was edited since it was opened. */
  datatype Editor = Editor(draft: Invoice, dirty: bool)

  /** Opening the editor on an invoice: a copy, nothing edited yet. */
  function Open(inv: Invoice): (e: Editor)
    ensures e.draft == inv && !e.dirty
  {
    Editor(inv, false)
  }

  // ---------------------------------------------------------------------
  // Totals
  // ---------------------------------------------------------------------

  /** `(price_at_sale || 0) * quantity`. */
  function LineAmount(l: Line): real
  {
    l.priceAtSale.GetOr(0.0) * l.quantity as real
  }

  function Subtotal(inv: Invoice): real
  {
    SumOf(inv.items, LineAmount)
  }

  datatype Totals = Totals(subtotal: real, tax: real, total: real)

  /** The editor's totals: no tax, and the discount (0 when unset) comes
      off the line sum. */
  function TotalsOf(inv: Invoice): (r: Totals)
    ensures r.subtotal == Subtotal(inv)
    ensures r.tax == 0.0
    ensures r.total + inv.discountAmount.GetOr(0.0) == r.subtotal
  {
    var subtotal := Subtotal(inv);
    var tax := subtotal * 0.0;
    Totals(subtotal, tax, subtotal + tax - inv.discountAmount.GetOr(0.0))
  }

  /** Lines that carry no `price_at_sale` add nothing to the subtotal;
      the ledger's lines are such lines. */
  lemma {:induction false} UnpricedLinesCountZero(items: seq<Line>)
    requires forall i :: 0 <= i < |items| ==> items[i].priceAtSale.None?
    ensures SumOf(items, LineAmount) == 0.0
  {
    if |items| > 0 {
      UnpricedLinesCountZero(items[1..]);
    }
  }

  // ---------------------------------------------------------------------
  // Field and line edits; each one marks the draft edited
  // ---------------------------------------------------------------------

  function SetCustomer(e: Editor, name: string): (r: Editor)
    ensures r.dirty && r.draft == e.draft.(customerName := name)
  {
    Editor(e.draft.(customerName := name), true)
  }

  function SetDate(e: Editor, date: string): (r: Editor)
    ensures r.dirty && r.draft == e.draft.(dateCreated := date)
  {
    Editor(e.draft.(dateCreated := date), true)
  }

  /** The discount field stores `parseFloat(value) || 0`. */
  function SetDiscount(e: Editor, amount: real): (r: Editor)
    ensures r.dirty && r.draft == e.draft.(discountAmount := Some(amount))
    ensures TotalsOf(r.draft).total == Subtotal(e.draft) - amount
  {
    Editor(e.draft.(discountAmount := Some(amount)), true)
  }

  /** `handleQuantityChange(index, delta)`: the line's quantity moves by
      `delta` but never below one unit. */
  function QuantityChange(e: Editor, index: nat, delta: int): (r: Editor)
    requires index < |e.draft.items|
    ensures r.dirty
    ensures |r.draft.items| == |e.draft.items|
    ensures r.draft == e.draft.(items := r.draft.items)
    ensures r.draft.items[index] == e.draft.items[index].(quantity := r.draft.items[index].quantity)
    ensures r.draft.items[index].quantity >= 1
    ensures e.draft.items[index].quantity + delta >= 1 ==>
      r.draft.items[index].quantity == e.draft.items[index].quantity + delta
    ensures e.draft.items[index].quantity + delta < 1 ==> r.draft.items[index].quantity == 1
    ensures forall i :: 0 <= i < |e.draft.items| && i != index ==> r.draft.items[i] == e.draft.items[i]
  {
    var l := e.draft.items[index];
    Editor(e.draft.(items := e.draft.items[index := l.(quantity := MaxInt(1, l.quantity + delta))]), true)
  }

  /** `+` then `-` on a line of at least one unit gives the lines back. */
  lemma UpThenDown(e: Editor, index: nat)
    requires index < |e.draft.items| && e.draft.items[index].quantity >= 1
    ensures QuantityChange(QuantityChange(e, index, 1), index, -1).draft.items == e.draft.items
  {
    var r := QuantityChange(QuantityChange(e, index, 1), index, -1);
    assert r.draft.items[index] == e.draft.items[index];
  }

  /** `handleRemoveItem(index)`: drop the line at `index` (nothing when
      past the end). */
  function RemoveItem(e: Editor, index: nat): (r: Editor)
    ensures r.dirty && r.draft == e.draft.(items := RemoveAt(e.draft.items, index))
    ensures index < |e.draft.items| ==>
      Subtotal(r.draft) == Subtotal(e.draft) - LineAmount(e.draft.items[index])
  {
    var items := RemoveAt(e.draft.items, index);
    assert index < |e.draft.items| ==>
      SumOf(items, LineAmount) == SumOf(e.draft.items, LineAmount) - LineAmount(e.draft.items[index]) by {
      if index < |e.draft.items| {
        SumOfRemove(e.draft.items, index, LineAmount);
      }
    }
    Editor(e.draft.(items := items), true)
  }

  /** `i.product_id || i.id`: the product a line belongs to; a missing or
      zero `product_id` falls back to the line's `id`. */
  function KeyOf(l: Line): Option<int>
  {
    if l.productId.Some? && l.productId.value != 0 then l.productId else l.id
  }

  /** `findIndex`: the first line of product `id`. */
  function IndexOfProduct(items: seq<Line>, id: int): (r: Option<nat>)
    ensures r.Some? ==> r.value < |items| && KeyOf(items[r.value]) == Some(id)
    ensures r.Some? ==> forall i :: 0 <= i < r.value ==> KeyOf(items[i]) != Some(id)
    ensures r.None? ==> forall i :: 0 <= i < |items| ==> KeyOf(items[i]) != Some(id)
  {
    if |items| == 0 then None
    else if KeyOf(items[0]) == Some(id) then Some(0)
    else match IndexOfProduct(items[1..], id)
      case None => None
      case Some(i) => Some(i + 1)
  }

  /** The line a product enters the invoice with. */
  function NewLine(p: Offer): Line
  {
    Line(Some(p.id), None, p.name, 1, p.sellPrice)
  }

  /** `handleAddItem(product)`: one more unit on the product's first line,
      or a new one-unit line at the end when the invoice has none. */
  function AddItem(e: Editor, p: Offer): (r: Editor)
    ensures r.dirty
    ensures r.draft == e.draft.(items := r.draft.items)
    ensures IndexOfProduct(e.draft.items, p.id).None? ==> r.draft.items == e.draft.items + [NewLine(p)]
    ensures IndexOfProduct(e.draft.items, p.id).Some? ==>
      var i := IndexOfProduct(e.draft.items, p.id).value;
      && |r.draft.items| == |e.draft.items|
      && r.draft.items[i] == e.draft.items[i].(quantity := e.draft.items[i].quantity + 1)
      && forall j :: 0 <= j < |e.draft.items| && j != i ==> r.draft.items[j] == e.draft.items[j]
  {
    match IndexOfProduct(e.draft.items, p.id)
    case Some(i) =>
      var l := e.draft.items[i];
      Editor(e.draft.(items := e.draft.items[i := l.(quantity := l.quantity + 1)]), true)
    case None =>
      Editor(e.draft.(items := e.draft.items + [NewLine(p)]), true)
  }

  /** Units on the lines of product `id`. */
  function UnitsOf(items: seq<Line>, id: int): int
  {
    if |items| == 0 then 0
    else (if KeyOf(items[0]) == Some(id) then items[0].quantity else 0) + UnitsOf(items[1..], id)
  }

  lemma {:induction false} UnitsAppend(a: seq<Line>, b: seq<Line>, id: int)
    ensures UnitsOf(a + b, id) == UnitsOf(a, id) + UnitsOf(b, id)
  {
    if |a| == 0 {
      assert a + b == b;
    } else {
      assert (a + b)[1..] == a[1..] + b;
      UnitsAppend(a[1..], b, id);
    }
  }

  lemma UnitsReplace(items: seq<Line>, i: nat, x: Line, id: int)
    requires i < |items| && KeyOf(x) == KeyOf(items[i])
    ensures UnitsOf(items[i := x], id) == UnitsOf(items, id) + (if KeyOf(x) == Some(id) then x.quantity - items[i].quantity else 0)
  {
    var s := items[i := x];
    assert items == items[..i] + [items[i]] + items[i+1..];
    assert s == items[..i] + [x] + items[i+1..];
    UnitsAppend(items[..i] + [items[i]], items[i+1..], id);
    UnitsAppend(items[..i], [items[i]], id);
    UnitsAppend(items[..i] + [x], items[i+1..], id);
    UnitsAppend(items[..i], [x], id);
    assert UnitsOf([x], id) == (if KeyOf(x) == Some(id) then x.quantity else 0) + UnitsOf([], id);
    assert UnitsOf([items[i]], id) == (if KeyOf(items[i]) == Some(id) then items[i].quantity else 0) + UnitsOf([], id);
  }

  /** Adding a product puts exactly one more unit of it on the invoice,
      and its price (0 when the line has none) on the subtotal; no other
      product's units move. Stored ids start at 1; a product id of 0 would
      give the new line no key, since `0 || undefined` is undefined. */
  lemma AddItemAddsOneUnit(e: Editor, p: Offer)
    requires p.id != 0
    ensures var r := AddItem(e, p);
      && UnitsOf(r.draft.items, p.id) == UnitsOf(e.draft.items, p.id) + 1
      && (forall k :: k != p.id ==> UnitsOf(r.draft.items, k) == UnitsOf(e.draft.items, k))
      && Subtotal(r.draft) == Subtotal(e.draft) +
           (match IndexOfProduct(e.draft.items, p.id)
            case Some(i) => e.draft.items[i].priceAtSale.GetOr(0.0)
            case None => p.sellPrice.GetOr(0.0))
  {
    var items := e.draft.items;
    var r := AddItem(e, p);
    match IndexOfProduct(items, p.id)
    case Some(i) =>
      var x := items[i].(quantity := items[i].quantity + 1);
      forall k
        ensures UnitsOf(r.draft.items, k) == UnitsOf(items, k) + (if k == p.id then 1 else 0)
      {
        UnitsReplace(items, i, x, k);
      }
      SumOfRemove(items, i, LineAmount);
      SumOfRemove(items[i := x], i, LineAmount);
      assert items[i := x][..i] + items[i := x][i+1..] == items[..i] + items[i+1..];
    case None =>
      forall k
        ensures UnitsOf(r.draft.items, k) == UnitsOf(items, k) + (if k == p.id then 1 else 0)
      {
        UnitsAppend(items, [NewLine(p)], k);
        assert [NewLine(p)][1..] == [];
      }
      SumOfAppend(items, [NewLine(p)], LineAmount);
  }

  // ---------------------------------------------------------------------
  // Save and search
  // ---------------------------------------------------------------------

  /** What `onSave` receives: the draft with the recomputed totals. */
  datatype Saved = Saved(invoice: Invoice, totalAmount: real, taxAmount: real, discountAmount: real)

  /** `handleSave`, behind a button that is enabled only once something was
      edited. */
  function Save(e: Editor): (r: Option<Saved>)
    ensures !e.dirty <==> r.None?
    ensures r.Some? ==>
      && r.value.invoice == e.draft
      && r.value.taxAmount == 0.0
      && r.value.discountAmount == e.draft.discountAmount.GetOr(0.0)
      && r.value.totalAmount + r.value.discountAmount == Subtotal(e.draft)
  {
    if !e.dirty then None
    else
      var t := TotalsOf(e.draft);
      Some(Saved(e.draft, t.total, t.tax, e.draft.discountAmount.GetOr(0.0)))
  }

  /** A freshly opened invoice cannot be saved; after any one edit it can. */
  lemma SaveNeedsAnEdit(inv: Invoice, name: string)
    ensures Save(Open(inv)).None?
    ensures Save(SetCustomer(Open(inv), name)).Some?
  {
  }

  const MaxSuggestions := 5

  /** A product matches when its name or SKU contains the search text,
      ignoring ASCII case. */
  predicate Suggests(term: string, p: Offer)
  {
    Contains(ToLower(p.name), ToLower(term)) || Contains(ToLower(p.sku), ToLower(term))
  }

  /** `filteredProducts`: the first five matching products, in catalogue
      order. */
  function Suggestions(products: seq<Offer>, term: string): (r: seq<Offer>)
    ensures |r| <= MaxSuggestions
    ensures |r| == MinInt(MaxSuggestions, CountOf(products, (p: Offer) => Suggests(term, p)))
    ensures r <= Filter(products, (p: Offer) => Suggests(term, p))
    ensures forall p :: p in r ==> p in products && Suggests(term, p)
    ensures IsSubseq(r, products)
  {
    var all := Filter(products, (p: Offer) => Suggests(term, p));
    FilterCountOf(products, (p: Offer) => Suggests(term, p));
    var r := all[..MinInt(MaxSuggestions, |all|)];
    PrefixIsSubseq(all, products, |r|);
    assert forall i :: 0 <= i < |r| ==> r[i] == all[i];
    assert forall p :: p in r ==> p in all;
    r
  }

  /** With fewer than six matches, every match is suggested. */
  lemma FewMatchesAllShown(products: seq<Offer>, term: string)
    requires |Filter(products, (p: Offer) => Suggests(term, p))| <= MaxSuggestions
    ensures forall p :: p in Suggestions(products, term) <==> p in products && Suggests(term, p)
  {
    var all := Filter(products, (p: Offer) => Suggests(term, p));
    assert all[..|all|] == all;
  }

  lemma {:induction false} PrefixIsSubseq<T>(a: seq<T>, b: seq<T>, n: nat)
    requires IsSubseq(a, b) && n <= |a|
    ensures IsSubseq(a[..n], b)
    decreases |b|
  {
    if n == 0 {
    } else if a[0] == b[0] {
      assert a[..n][1..] == a[1..][..n - 1];
      PrefixIsSubseq(a[1..], b[1..], n - 1);
    } else {
      PrefixIsSubseq(a, b[1..], n);
    }
  }
}

=== FILE: ledger.dfy ===
/** The write side of the sale ledger (electron/db.js): recording a sale,
    editing a recorded sale, and holding carts for later.

    `createTransaction` and `updateTransaction` each run their statements
    inside one `db.transaction(...)`. That wrapper is modelled in two parts:
    the statements become a script of `Write`s that `Run` executes one by
    one against the database, and `Atomically` keeps the database the
    script started from whenever the script fails. Any statement may also
    fail in storage (a full disk, a locked file); the position of such a
    failure is a parameter, `fault`, so the all-or-nothing property can be
    stated for every failure the engine may raise and not only for the ones
    the code raises itself. */
module Ledger {
  import opened Common
  import opened Tables
  import opened Records

  datatype Db = Db(
    products: map<int, Product>,
    customers: map<int, Customer>,
    sales: Table<Sale>,
    held: Table<HeldCart>)

  /** What a wrapped operation leaves behind: the database and its reply. */
  datatype Reply<T> = Reply(db: Db, result: Result<T>)

  const NotFound := "Transaction not found"
  const NullTimestamp := "NOT NULL constraint failed: transactions.timestamp"
  const StorageFault := "disk I/O error"

  /** One write statement of a wrapped operation. */
  datatype Write =
      /** `UPDATE products SET stock = stock + delta WHERE id = ?` */
    | AdjustStock(id: int, delta: int)
      /** `UPDATE customers SET points = points + ? WHERE name = ?` */
    | AdjustPoints(name: string, points: real)
      /** `INSERT INTO transactions ...` */
    | InsertSale(row: Sale)
      /** `UPDATE transactions SET timestamp, customer_name, total, profit,
          items_json WHERE id = ?`; a missing timestamp is a NULL. */
    | RewriteSale(id: int, timestamp: Option<string>, customerName: string,
                  total: real, profit: real, items: seq<Item>)

  /** The row-level effect of `UPDATE transactions SET ...`: the five
      columns the statement names change, the rest stay. */
  function Overwrite(timestamp: string, customerName: string, total: real,
                     profit: real, items: seq<Item>): Sale -> Sale
  {
    (row: Sale) => row.(timestamp := timestamp, customerName := customerName, total := total,
                profit := Some(profit), items := items)
  }

  /** Every customer whose name equals `name` exactly gets `delta` more
      points; nobody else changes. */
  function AddPoints(cs: map<int, Customer>, name: string, delta: real): (r: map<int, Customer>)
    ensures r.Keys == cs.Keys
    ensures forall k :: k in cs ==> r[k] == if cs[k].name == name then cs[k].(points := cs[k].points + delta) else cs[k]
  {
    map k | k in cs :: if cs[k].name == name then cs[k].(points := cs[k].points + delta) else cs[k]
  }

  /** The product with that id, if any, gets `delta` more stock; no lower
      bound applies. */
  function AddStock(ps: map<int, Product>, id: int, delta: int): (r: map<int, Product>)
    ensures r.Keys == ps.Keys
    ensures forall k :: k in ps ==> r[k] == if k == id then ps[k].(stock := ps[k].stock + delta) else ps[k]
  {
    if id in ps then ps[id := ps[id].(stock := ps[id].stock + delta)] else ps
  }

  function Exec(db: Db, w: Write): Result<Db>
  {
    match w
    case AdjustStock(id, delta) => Ok(db.(products := AddStock(db.products, id, delta)))
    case AdjustPoints(name, delta) => Ok(db.(customers := AddPoints(db.customers, name, delta)))
    case InsertSale(row) => Ok(db.(sales := Insert(db.sales, row).0))
    case RewriteSale(id, ts, c, total, profit, items) =>
      if ts.None? then Err(NullTimestamp)
      else Ok(db.(sales := Table(Rewrite(db.sales.entries, id, Overwrite(ts.value, c, total, profit, items)),
                                 db.sales.lastId)))
  }

  function NextFault(fault: Option<nat>): Option<nat>
  {
    if fault.Some? && fault.value > 0 then Some(fault.value - 1) else None
  }

  /** Runs the statements in order, stopping at the first that fails. The
      statement at position `fault` (if any) fails in storage. */
  function Run(db: Db, script: seq<Write>, fault: Option<nat>): Result<Db>
    decreases |script|
  {
    if |script| == 0 then Ok(db)
    else if fault == Some(0) then Err(StorageFault)
    else match Exec(db, script[0])
      case Err(e) => Err(e)
      case Ok(next) => Run(next, script[1..], NextFault(fault))
  }

  /** A storage failure can only abort a script: when a run with a fault
      succeeds, it produced exactly what the run without one produces, and a
      fault inside the script always aborts it. */
  lemma {:induction false} RunUnderFault(db: Db, script: seq<Write>, fault: Option<nat>)
    ensures Run(db, script, fault).Ok? ==> Run(db, script, fault) == Run(db, script, None)
    ensures fault.Some? && fault.value < |script| ==> Run(db, script, fault).Err?
    ensures Run(db, script, fault).Err? ==> Run(db, script, fault).error == StorageFault || Run(db, script, None).Err?
    decreases |script|
  {
    if |script| > 0 && fault != Some(0) {
      match Exec(db, script[0])
      case Err(e) =>
      case Ok(next) =>
        RunUnderFault(next, script[1..], NextFault(fault));
    }
  }

  /** Running two scripts back to back is running their concatenation. */
  lemma {:induction false} RunAppend(db: Db, a: seq<Write>, b: seq<Write>)
    ensures Run(db, a + b, None) ==
            if Run(db, a, None).Ok? then Run(Run(db, a, None).value, b, None) else Run(db, a, None)
    decreases |a|
  {
    if |a| == 0 {
      assert a + b == b;
    } else {
      assert (a + b)[0] == a[0];
      assert (a + b)[1..] == a[1..] + b;
      match Exec(db, a[0])
      case Err(e) =>
      case Ok(next) => RunAppend(next, a[1..], b);
    }
  }

  /** The `db.transaction` wrapper: commit what the script produced, or
      roll back to where it started and report the error. */
  function Atomically<T>(db: Db, outcome: Result<Db>, value: Db -> T): (r: Reply<T>)
    ensures outcome.Ok? ==> r == Reply(outcome.value, Ok(value(outcome.value)))
    ensures outcome.Err? ==> r == Reply(db, Err(outcome.error))
  {
    match outcome
    case Ok(next) => Reply(next, Ok(value(next)))
    case Err(e) => Reply(db, Err(e))
  }

  // ---------------------------------------------------------------------
  // Stock and loyalty statements
  // ---------------------------------------------------------------------

  /** `q` units going back into stock (`restore`) or out of it. */
  function Signed(q: int, restore: bool): int
  {
    if restore then q else -q
  }

  /** One stock statement per line, in line order. */
  function StockWrites(items: seq<Item>, restore: bool): seq<Write>
  {
    if |items| == 0 then []
    else [AdjustStock(items[0].id, Signed(items[0].quantity, restore))] + StockWrites(items[1..], restore)
  }

  /** Running the stock statements changes only stock: every product moves
      by the summed quantity of the lines naming it. */
  lemma {:induction false} RunStockWrites(db: Db, items: seq<Item>, restore: bool)
    ensures Run(db, StockWrites(items, restore), None).Ok?
    ensures var d := Run(db, StockWrites(items, restore), None).value;
      && d.customers == db.customers && d.sales == db.sales && d.held == db.held
      && d.products.Keys == db.products.Keys
      && forall k :: k in db.products ==>
           d.products[k] == db.products[k].(stock := db.products[k].stock + Signed(QtyFor(items, k), restore))
    decreases |items|
  {
    if |items| > 0 {
      var s := StockWrites(items, restore);
      var id0, q0 := items[0].id, items[0].quantity;
      assert s[0] == AdjustStock(id0, Signed(q0, restore));
      assert s[1..] == StockWrites(items[1..], restore);
      var next := db.(products := AddStock(db.products, id0, Signed(q0, restore)));
      assert Run(db, s, None) == Run(next, s[1..], None);
      RunStockWrites(next, items[1..], restore);
      var d := Run(db, s, None).value;
      forall k | k in db.products
        ensures d.products[k] == db.products[k].(stock := db.products[k].stock + Signed(QtyFor(items, k), restore))
      {
        assert QtyFor(items, k) == (if id0 == k then q0 else 0) + QtyFor(items[1..], k);
      }
    }
  }

  /** Loyalty applies to a named customer other than the walk-in default. */
  predicate LoyaltyApplies(customer: string)
  {
    customer != "" && customer != "Walk-in"
  }

  /** `Math.floor(total / 100)`: one point per full 100 paid. */
  function PointsEarned(total: real): (p: int)
    ensures p as real * 100.0 <= total < (p + 1) as real * 100.0
  {
    (total / 100.0).Floor
  }

  function LoyaltyWrites(customer: string, total: real, pointsUsed: real): seq<Write>
  {
    if LoyaltyApplies(customer) then
      (if pointsUsed > 0.0 then [AdjustPoints(customer, -pointsUsed)] else [])
      + [AdjustPoints(customer, PointsEarned(total) as real)]
    else []
  }

  /** Points a sale takes away: `pointsUsed` when positive, otherwise none. */
  function Redeemed(pointsUsed: real): (r: real)
    ensures r >= 0.0
    ensures pointsUsed > 0.0 ==> r == pointsUsed
  {
    if pointsUsed > 0.0 then pointsUsed else 0.0
  }

  /** The points of a customer after the loyalty statements of a sale. */
  function PointsAfterSale(c: Customer, customer: string, total: real, pointsUsed: real): Customer
  {
    if LoyaltyApplies(customer) && c.name == customer
    then c.(points := c.points - Redeemed(pointsUsed) + PointsEarned(total) as real)
    else c
  }

  lemma RunLoyaltyWrites(db: Db, customer: string, total: real, pointsUsed: real)
    ensures Run(db, LoyaltyWrites(customer, total, pointsUsed), None).Ok?
    ensures var d := Run(db, LoyaltyWrites(customer, total, pointsUsed), None).value;
      && d.products == db.products && d.sales == db.sales && d.held == db.held
      && d.customers.Keys == db.customers.Keys
      && forall k :: k in db.customers ==>
           d.customers[k] == PointsAfterSale(db.customers[k], customer, total, pointsUsed)
  {
    var ws := LoyaltyWrites(customer, total, pointsUsed);
    if LoyaltyApplies(customer) {
      var earned := PointsEarned(total) as real;
      var earn := AdjustPoints(customer, earned);
      if pointsUsed > 0.0 {
        var spend := AdjustPoints(customer, -pointsUsed);
        var d1 := db.(customers := AddPoints(db.customers, customer, -pointsUsed));
        var d2 := d1.(customers := AddPoints(d1.customers, customer, earned));
        assert ws == [spend, earn];
        assert ws[1..] == [earn];
        assert ws[1..][1..] == [];
        assert Run(d1, [earn], None) == Run(d2, [], None);
        assert Run(db, ws, None) == Run(d1, ws[1..], None);
        assert Run(db, ws, None) == Ok(d2);
      } else {
        var d1 := db.(customers := AddPoints(db.customers, customer, earned));
        assert ws == [earn];
        assert ws[1..] == [];
        assert Run(db, ws, None) == Run(d1, [], None);
      }
    } else {
      assert ws == [];
    }
  }

  // ---------------------------------------------------------------------
  // createTransaction
  // ---------------------------------------------------------------------

  /** What the checkout sends. `customer` and `paymentMethod` are "" where
      the page sent nothing. */
  datatype SaleRequest = SaleRequest(
    items: seq<Item>, customer: string, total: real,
    paymentMethod: string, discount: real, pointsUsed: real)

  /** `Σ (price_sell − price_buy) × quantity`; a line without a cost makes
      the sum NaN, which the store records as NULL (`None`). */
  function Margins(items: seq<Item>): (r: Option<real>)
    ensures r.None? <==> exists i :: 0 <= i < |items| && items[i].priceBuy.None?
  {
    if |items| == 0 then Some(0.0)
    else
      var rest := Margins(items[1..]);
      if items[0].priceBuy.None? || rest.None? then None
      else Some((items[0].priceSell - items[0].priceBuy.value) * items[0].quantity as real + rest.value)
  }

  /** The profit createTransaction records: the margins less the discount
      (a zero discount subtracts nothing either way). */
  function SaleProfit(items: seq<Item>, discount: real): Option<real>
  {
    match Margins(items)
    case None => None
    case Some(m) => Some(m - discount)
  }

  /** The row createTransaction inserts. */
  function SaleRow(req: SaleRequest, now: string): Sale
  {
    Sale(now, req.total, SaleProfit(req.items, req.discount),
         OrDefault(req.paymentMethod, "Cash"), OrDefault(req.customer, "Walk-in"),
         req.items, req.discount)
  }

  function SaleScript(req: SaleRequest, now: string): seq<Write>
  {
    StockWrites(req.items, false) + LoyaltyWrites(req.customer, req.total, req.pointsUsed)
    + [InsertSale(SaleRow(req, now))]
  }

  /** The id the insert handed out is the table's new sequence value. */
  function InsertedId(db: Db): int { db.sales.lastId }

  /** `createTransaction`: deduct stock per line, move loyalty points,
      insert the sale row; all or nothing. The reply carries the new row's
      id (`lastInsertRowid`). */
  function CreateTransaction(db: Db, req: SaleRequest, now: string, fault: Option<nat>): (r: Reply<int>)
    ensures r.result.Err? ==> r.db == db && r.result.error == StorageFault
    ensures fault.None? ==> r.result.Ok?
    ensures r.result.Ok? ==>
      && r.db.held == db.held
      && r.db.products.Keys == db.products.Keys
      && (forall k :: k in db.products ==>
            r.db.products[k] == db.products[k].(stock := db.products[k].stock - QtyFor(req.items, k)))
      && r.db.customers.Keys == db.customers.Keys
      && (forall k :: k in db.customers ==>
            r.db.customers[k] == PointsAfterSale(db.customers[k], req.customer, req.total, req.pointsUsed))
      && r.result.value > db.sales.lastId
      && (forall i :: 0 <= i < |db.sales.entries| ==> db.sales.entries[i].id < r.result.value)
      && Find(r.db.sales.entries, r.result.value) == Some(SaleRow(req, now))
      && r.db.sales.lastId == r.result.value
      && r.db.sales.entries == db.sales.entries + [Entry(r.result.value, SaleRow(req, now))]
  {
    var script := SaleScript(req, now);
    var outcome := Run(db, script, fault);
    RunUnderFault(db, script, fault);
    var stock := StockWrites(req.items, false);
    var loyalty := LoyaltyWrites(req.customer, req.total, req.pointsUsed);
    RunStockWrites(db, req.items, false);
    var d1 := Run(db, stock, None).value;
    RunLoyaltyWrites(d1, req.customer, req.total, req.pointsUsed);
    var d2 := Run(d1, loyalty, None).value;
    RunAppend(db, stock, loyalty);
    RunAppend(db, stock + loyalty, [InsertSale(SaleRow(req, now))]);
    assert script == stock + loyalty + [InsertSale(SaleRow(req, now))];
    assert Run(db, script, None) == Ok(d2.(sales := Insert(d2.sales, SaleRow(req, now)).0)) by {
      var w := [InsertSale(SaleRow(req, now))];
      assert w[1..] == [];
    }
    Atomically(db, outcome, InsertedId)
  }

  // ---------------------------------------------------------------------
  // updateTransaction
  // ---------------------------------------------------------------------

  /** What the history page sends; `newDate` is `None` where it sent no
      timestamp. */
  datatype EditRequest = EditRequest(
    id: int, newDate: Option<string>, newCustomer: string, newTotal: real, newItems: seq<Item>)

  /** A cost the snapshot lacks counts as 0. */
  function EditMargin(it: Item): real
  {
    (it.priceSell - it.priceBuy.GetOr(0.0)) * it.quantity as real
  }

  /** The profit updateTransaction records: margins with missing costs
      taken as 0, and no discount subtracted. */
  function EditProfit(items: seq<Item>): real
  {
    SumOf(items, EditMargin)
  }

  function EditScript(req: EditRequest, prior: Sale): seq<Write>
  {
    StockWrites(prior.items, true) + StockWrites(req.newItems, false)
    + [RewriteSale(req.id, req.newDate, req.newCustomer, req.newTotal, EditProfit(req.newItems), req.newItems)]
  }

  function NoValue(db: Db): () { () }

  /** Stock after putting back the `restored` lines and taking out the
      `taken` ones. */
  function Restocked(ps: map<int, Product>, restored: seq<Item>, taken: seq<Item>): (r: map<int, Product>)
    ensures r.Keys == ps.Keys
  {
    map k | k in ps :: ps[k].(stock := ps[k].stock + QtyFor(restored, k) - QtyFor(taken, k))
  }

  /** The database an edit leaves when every statement succeeds. */
  function EditedDb(db: Db, req: EditRequest, prior: Sale, date: string): Db
  {
    var rewrite := Overwrite(date, req.newCustomer, req.newTotal, EditProfit(req.newItems), req.newItems);
    db.(products := Restocked(db.products, prior.items, req.newItems),
        sales := Table(Rewrite(db.sales.entries, req.id, rewrite), db.sales.lastId))
  }

  /** Stock moved by the lines' quantities, into stock or out of it. */
  function Shifted(ps: map<int, Product>, items: seq<Item>, restore: bool): map<int, Product>
  {
    map k | k in ps :: ps[k].(stock := ps[k].stock + Signed(QtyFor(items, k), restore))
  }

  lemma RunStockExact(db: Db, items: seq<Item>, restore: bool)
    ensures Run(db, StockWrites(items, restore), None) == Ok(db.(products := Shifted(db.products, items, restore)))
  {
    RunStockWrites(db, items, restore);
    var d := Run(db, StockWrites(items, restore), None).value;
    var want := Shifted(db.products, items, restore);
    assert d.products.Keys == want.Keys;
    forall k | k in want
      ensures d.products[k] == want[k]
    {
    }
    assert d.products == want;
  }

  lemma ShiftedTwice(ps: map<int, Product>, restored: seq<Item>, taken: seq<Item>)
    ensures Shifted(Shifted(ps, restored, true), taken, false) == Restocked(ps, restored, taken)
  {
  }

  lemma RunRestock(db: Db, restored: seq<Item>, taken: seq<Item>)
    ensures Run(db, StockWrites(restored, true) + StockWrites(taken, false), None)
         == Ok(db.(products := Restocked(db.products, restored, taken)))
  {
    RunStockExact(db, restored, true);
    var d1 := db.(products := Shifted(db.products, restored, true));
    RunStockExact(d1, taken, false);
    RunAppend(db, StockWrites(restored, true), StockWrites(taken, false));
    ShiftedTwice(db.products, restored, taken);
  }

  lemma RunOne(db: Db, w: Write)
    ensures Run(db, [w], None) == Exec(db, w)
  {
    assert [w][1..] == [];
  }

  /** What `EditedDb` holds, column by column. */
  lemma EditedDbShape(db: Db, req: EditRequest, prior: Sale, date: string)
    requires Find(db.sales.entries, req.id) == Some(prior)
    ensures var d := EditedDb(db, req, prior, date);
      var es := db.sales.entries;
      var row := prior.(timestamp := date, customerName := req.newCustomer, total := req.newTotal,
                        profit := Some(EditProfit(req.newItems)), items := req.newItems);
      && d.held == db.held
      && d.customers == db.customers
      && d.products.Keys == db.products.Keys
      && (forall k :: k in db.products ==>
            d.products[k] == db.products[k].(stock := db.products[k].stock + QtyFor(prior.items, k) - QtyFor(req.newItems, k)))
      && d.sales.lastId == db.sales.lastId
      && Find(d.sales.entries, req.id) == Some(row)
      && (forall k :: k != req.id ==> Find(d.sales.entries, k) == Find(es, k))
      && |d.sales.entries| == |es|
      && (forall i :: 0 <= i < |es| ==> d.sales.entries[i].id == es[i].id)
      && (forall i :: 0 <= i < |es| && es[i].id != req.id ==> d.sales.entries[i] == es[i])
      && (forall i :: 0 <= i < |es| && es[i].id == req.id ==>
            d.sales.entries[i].row == es[i].row.(timestamp := date, customerName := req.newCustomer,
              total := req.newTotal, profit := Some(EditProfit(req.newItems)), items := req.newItems))
  {
  }

  /** Without a fault, the edit script fails only on a missing timestamp,
      and otherwise leaves `EditedDb`. */
  lemma RunEdit(db: Db, req: EditRequest, prior: Sale)
    ensures req.newDate.None? ==> Run(db, EditScript(req, prior), None).Err?
    ensures req.newDate.Some? ==> Run(db, EditScript(req, prior), None) == Ok(EditedDb(db, req, prior, req.newDate.value))
  {
    var restock := StockWrites(prior.items, true) + StockWrites(req.newItems, false);
    var w := RewriteSale(req.id, req.newDate, req.newCustomer, req.newTotal, EditProfit(req.newItems), req.newItems);
    RunRestock(db, prior.items, req.newItems);
    RunAppend(db, restock, [w]);
    var d2 := db.(products := Restocked(db.products, prior.items, req.newItems));
    RunOne(d2, w);
  }

  /** `updateTransaction`: put back the stock of the stored lines, take out
      the stock of the new lines, overwrite five columns of the row; all or
      nothing. */
  function UpdateTransaction(db: Db, req: EditRequest, fault: Option<nat>): (r: Reply<()>)
    ensures Find(db.sales.entries, req.id).None? ==> r == Reply(db, Err(NotFound))
    ensures r.result.Err? ==> r.db == db
    ensures req.newDate.None? ==> r.result.Err?
    ensures fault.None? && req.newDate.Some? && Find(db.sales.entries, req.id).Some? ==> r.result.Ok?
    ensures r.result.Ok? ==>
      var prior := Find(db.sales.entries, req.id).value;
      var es := db.sales.entries;
      && req.newDate.Some?
      && r.db.held == db.held
      && r.db.customers == db.customers
      && r.db.products.Keys == db.products.Keys
      && (forall k :: k in db.products ==>
            r.db.products[k] == db.products[k].(stock := db.products[k].stock + QtyFor(prior.items, k) - QtyFor(req.newItems, k)))
      && r.db.sales.lastId == db.sales.lastId
      && Find(r.db.sales.entries, req.id) == Some(prior.(timestamp := req.newDate.value,
              customerName := req.newCustomer, total := req.newTotal,
              profit := Some(EditProfit(req.newItems)), items := req.newItems))
      && (forall k :: k != req.id ==> Find(r.db.sales.entries, k) == Find(es, k))
      && |r.db.sales.entries| == |es|
      && (forall i :: 0 <= i < |es| ==> r.db.sales.entries[i].id == es[i].id)
      && (forall i :: 0 <= i < |es| && es[i].id != req.id ==> r.db.sales.entries[i] == es[i])
      && (forall i :: 0 <= i < |es| && es[i].id == req.id ==>
            r.db.sales.entries[i].row == es[i].row.(timestamp := req.newDate.value,
              customerName := req.newCustomer, total := req.newTotal,
              profit := Some(EditProfit(req.newItems)), items := req.newItems))
  {
    match Find(db.sales.entries, req.id)
    case None => Reply(db, Err(NotFound))
    case Some(prior) =>
      var script := EditScript(req, prior);
      RunUnderFault(db, script, fault);
      RunEdit(db, req, prior);
      EditedDbShape(db, req, prior, req.newDate.GetOr(""));
      Atomically(db, Run(db, script, fault), NoValue)
  }

  /** A fault-free edit of a stored sale that carries a timestamp leaves
      exactly `EditedDb`. */
  lemma UpdateIsEdited(db: Db, req: EditRequest)
    requires Find(db.sales.entries, req.id).Some? && req.newDate.Some?
    ensures UpdateTransaction(db, req, None)
         == Reply(EditedDb(db, req, Find(db.sales.entries, req.id).value, req.newDate.value), Ok(()))
  {
    RunEdit(db, req, Find(db.sales.entries, req.id).value);
  }

  // ---------------------------------------------------------------------
  // Held carts (single statements, no wrapper)
  // ---------------------------------------------------------------------

  /** `addHeldCart`: insert a held cart stamped `now`; returns the new id. */
  function AddHeldCart(db: Db, customer: string, items: seq<Item>, now: string): (r: (Db, int))
    ensures r.0 == db.(held := r.0.held)
    ensures r.1 > db.held.lastId && r.0.held.lastId == r.1
    ensures r.0.held.entries == db.held.entries + [Entry(r.1, HeldCart(customer, items, now))]
  {
    var (t, id) := Insert(db.held, HeldCart(customer, items, now));
    (db.(held := t), id)
  }

  /** `deleteHeldCart`: drop the held cart with that id; nothing else moves. */
  function DeleteHeldCart(db: Db, id: int): (r: Db)
    ensures r == db.(held := r.held)
    ensures Find(r.held.entries, id).None?
    ensures forall k :: k != id ==> Find(r.held.entries, k) == Find(db.held.entries, k)
  {
    db.(held := Delete(db.held, id))
  }
}

=== FILE: ledger_laws.dfy ===
/** Laws that relate the ledger's operations to each other: how a sale and
    a later edit of it add up on stock, what an edit does to the recorded
    profit, and that deleting a held cart undoes holding it. */
module LedgerLaws {
  import opened Common
  import opened Tables
  import opened Records
  import opened Ledger

  /** All or nothing for a sale: whatever storage failure strikes, the
      database either stays exactly as it was or ends exactly as a run
      without failure leaves it. */
  lemma SaleAllOrNothing(db: Db, req: SaleRequest, now: string, fault: Option<nat>)
    ensures var r := CreateTransaction(db, req, now, fault);
      (r.result.Err? && r.db == db) || r == CreateTransaction(db, req, now, None)
  {
    RunUnderFault(db, SaleScript(req, now), fault);
  }

  /** All or nothing for an edit, in the same sense. */
  lemma EditAllOrNothing(db: Db, req: EditRequest, fault: Option<nat>)
    ensures var r := UpdateTransaction(db, req, fault);
      (r.result.Err? && r.db == db) || r == UpdateTransaction(db, req, None)
  {
    match Find(db.sales.entries, req.id)
    case None =>
    case Some(prior) => RunUnderFault(db, EditScript(req, prior), fault);
  }

  /** When every line has a cost, createTransaction's margins and
      updateTransaction's margins are the same sum. */
  lemma {:induction false} MarginsWithCosts(items: seq<Item>)
    requires forall i :: 0 <= i < |items| ==> items[i].priceBuy.Some?
    ensures Margins(items) == Some(EditProfit(items))
  {
    if |items| > 0 {
      var it := items[0];
      assert forall i :: 0 <= i < |items[1..]| ==> items[1..][i].priceBuy.Some?;
      MarginsWithCosts(items[1..]);
      assert it.priceBuy.GetOr(0.0) == it.priceBuy.value;
      assert EditMargin(it) == (it.priceSell - it.priceBuy.value) * it.quantity as real;
      assert EditProfit(items) == EditMargin(it) + EditProfit(items[1..]);
      assert Margins(items).Some?;
      assert Margins(items).value == (it.priceSell - it.priceBuy.value) * it.quantity as real + Margins(items[1..]).value;
    }
  }

  /** A line without a cost makes the created row's profit NULL, while an
      edit of the same lines books that cost as 0. */
  lemma MissingCostOnlyBreaksCreate(items: seq<Item>, i: nat, discount: real)
    requires i < |items| && items[i].priceBuy.None?
    ensures SaleProfit(items, discount).None?
  {
  }

  /** What a fault-free sale does to stock, and where its row is. */
  lemma SaleEffect(db: Db, req: SaleRequest, now: string)
    ensures var c := CreateTransaction(db, req, now, None);
      && c.result.Ok?
      && Find(c.db.sales.entries, c.result.value) == Some(SaleRow(req, now))
      && c.db.products.Keys == db.products.Keys
      && forall k :: k in db.products ==>
           c.db.products[k] == db.products[k].(stock := db.products[k].stock - QtyFor(req.items, k))
  {
  }

  /** What a fault-free edit of an existing sale does to stock and to the
      row. */
  lemma EditEffect(db: Db, req: EditRequest)
    requires Find(db.sales.entries, req.id).Some? && req.newDate.Some?
    ensures var prior := Find(db.sales.entries, req.id).value;
      var u := UpdateTransaction(db, req, None);
      && u.result.Ok?
      && Find(u.db.sales.entries, req.id) == Some(prior.(timestamp := req.newDate.value,
           customerName := req.newCustomer, total := req.newTotal,
           profit := Some(EditProfit(req.newItems)), items := req.newItems))
      && u.db.products.Keys == db.products.Keys
      && forall k :: k in db.products ==>
           u.db.products[k] == db.products[k].(stock := db.products[k].stock + QtyFor(prior.items, k) - QtyFor(req.newItems, k))
  {
  }

  /** After a fault-free sale, every product has lost the units the sale
      took. */
  lemma SoldStock(db: Db, req: SaleRequest, now: string)
    ensures CreateTransaction(db, req, now, None).db.products == Shifted(db.products, req.items, false)
  {
    var c := CreateTransaction(db, req, now, None);
    var want := Shifted(db.products, req.items, false);
    assert c.db.products.Keys == want.Keys;
    forall k | k in want
      ensures c.db.products[k] == want[k]
    {
    }
    assert c.db.products == want;
  }

  /** Putting back and taking out the same lines moves no stock. */
  lemma RestockSame(ps: map<int, Product>, items: seq<Item>)
    ensures Restocked(ps, items, items) == ps
  {
    var r := Restocked(ps, items, items);
    forall k | k in ps
      ensures r[k] == ps[k]
    {
    }
    assert r == ps;
  }

  /** Putting back all the lines a sale took restores the stock. */
  lemma RestockAfterSale(ps: map<int, Product>, items: seq<Item>)
    ensures Restocked(Shifted(ps, items, false), items, []) == ps
  {
    var r := Restocked(Shifted(ps, items, false), items, []);
    forall k | k in ps
      ensures r[k] == ps[k]
    {
    }
    assert r == ps;
  }

  /** Two restocks in a row, the second putting back what the first took,
      are one restock. */
  lemma RestockTwice(ps: map<int, Product>, a: seq<Item>, b: seq<Item>, c: seq<Item>)
    ensures Restocked(Restocked(ps, a, b), b, c) == Restocked(ps, a, c)
  {
    var r := Restocked(Restocked(ps, a, b), b, c);
    var q := Restocked(ps, a, c);
    forall k | k in ps
      ensures r[k] == q[k]
    {
    }
    assert r == q;
  }

  /** The row an edit writes when it re-sends a created row's own lines,
      customer, total and date: the row with its discount added back to
      the profit. */
  lemma ResavedRow(req: SaleRequest, now: string)
    requires forall i :: 0 <= i < |req.items| ==> req.items[i].priceBuy.Some?
    ensures var row := SaleRow(req, now);
      && row.profit.Some?
      && row.(timestamp := now, customerName := row.customerName, total := req.total,
              profit := Some(EditProfit(req.items)), items := req.items)
         == row.(profit := Some(row.profit.value + req.discount))
  {
    MarginsWithCosts(req.items);
  }

  /** Re-saving a sale exactly as it was recorded leaves stock where it is,
      but the recorded profit gains back the discount: createTransaction
      subtracts the discount and updateTransaction does not. */
  lemma ResaveForgetsDiscount(db: Db, req: SaleRequest, now: string)
    requires forall i :: 0 <= i < |req.items| ==> req.items[i].priceBuy.Some?
    ensures var c := CreateTransaction(db, req, now, None);
      var row := SaleRow(req, now);
      var u := UpdateTransaction(c.db, EditRequest(c.result.value, Some(now), row.customerName, req.total, req.items), None);
      && u.result.Ok?
      && u.db.products == c.db.products
      && row.profit.Some?
      && Find(u.db.sales.entries, c.result.value) == Some(row.(profit := Some(row.profit.value + req.discount)))
  {
    var c := CreateTransaction(db, req, now, None);
    var row := SaleRow(req, now);
    var e := EditRequest(c.result.value, Some(now), row.customerName, req.total, req.items);
    assert Find(c.db.sales.entries, c.result.value) == Some(row);
    UpdateIsEdited(c.db, e);
    RestockSame(c.db.products, req.items);
    EditedDbShape(c.db, e, row, now);
    ResavedRow(req, now);
  }

  /** Editing a sale down to no lines puts back every unit the sale took:
      stock ends where it was before the sale. Loyalty points moved by the
      sale stay moved. */
  lemma VoidingEditRestoresStock(db: Db, req: SaleRequest, now: string)
    ensures var c := CreateTransaction(db, req, now, None);
      var u := UpdateTransaction(c.db, EditRequest(c.result.value, Some(now), "Walk-in", 0.0, []), None);
      && u.result.Ok?
      && u.db.products == db.products
      && u.db.customers == c.db.customers
  {
    var c := CreateTransaction(db, req, now, None);
    var e := EditRequest(c.result.value, Some(now), "Walk-in", 0.0, []);
    assert Find(c.db.sales.entries, c.result.value) == Some(SaleRow(req, now));
    UpdateIsEdited(c.db, e);
    SoldStock(db, req, now);
    RestockAfterSale(db.products, req.items);
  }

  /** Two edits in a row move stock exactly as the second edit alone would
      have moved it from the original lines: stock is conserved across
      edits. */
  lemma EditsCompose(db: Db, a: EditRequest, b: EditRequest)
    requires a.id == b.id
    requires Find(db.sales.entries, a.id).Some?
    requires a.newDate.Some? && b.newDate.Some?
    ensures var u1 := UpdateTransaction(db, a, None);
      var u2 := UpdateTransaction(u1.db, b, None);
      && u1.result.Ok? && u2.result.Ok?
      && u2.db.products == UpdateTransaction(db, b, None).db.products
  {
    var prior := Find(db.sales.entries, a.id).value;
    UpdateIsEdited(db, a);
    EditedDbShape(db, a, prior, a.newDate.value);
    var mid := EditedDb(db, a, prior, a.newDate.value);
    UpdateIsEdited(mid, b);
    UpdateIsEdited(db, b);
    RestockTwice(db.products, prior.items, a.newItems, b.newItems);
  }

  /** Deleting a cart right after holding it gives back the held carts
      there were; only the id counter has moved on. */
  lemma DeleteUndoesHold(db: Db, customer: string, items: seq<Item>, now: string)
    ensures var (d, id) := AddHeldCart(db, customer, items, now);
      var e := DeleteHeldCart(d, id);
      && e.held.entries == db.held.entries
      && e == db.(held := Table(db.held.entries, id))
  {
    DeleteInserted(db.held, HeldCart(customer, items, now));
  }
}

=== FILE: ordering.dfy ===
/** Orderings used by the read side: SQLite's text comparison (BINARY
    collation) for `ORDER BY timestamp DESC`, and a stable insertion sort
    over any total preorder (the engine's sorter and `Array.prototype.sort`,
    which is stable). */
module Ordering {

  /** `a <= b` as text: compared character by character, a proper prefix
      sorting first. */
  predicate StrLe(a: string, b: string)
    decreases |a|
  {
    |a| == 0 || (|b| > 0 && (a[0] < b[0] || (a[0] == b[0] && StrLe(a[1..], b[1..]))))
  }

  lemma {:induction false} StrLeTotal(a: string, b: string)
    ensures StrLe(a, b) || StrLe(b, a)
    decreases |a|
  {
    if |a| > 0 && |b| > 0 && a[0] == b[0] {
      StrLeTotal(a[1..], b[1..]);
    }
  }

  lemma {:induction false} StrLeTrans(a: string, b: string, c: string)
    requires StrLe(a, b) && StrLe(b, c)
    ensures StrLe(a, c)
    decreases |a|
  {
    if |a| > 0 && a[0] == b[0] && b[0] == c[0] {
      StrLeTrans(a[1..], b[1..], c[1..]);
    }
  }

  ghost predicate TotalPreorder<T(!new)>(le: (T, T) -> bool)
  {
    && (forall a, b :: le(a, b) || le(b, a))
    && (forall a, b, c :: le(a, b) && le(b, c) ==> le(a, c))
  }

  predicate SortedBy<T>(s: seq<T>, le: (T, T) -> bool)
  {
    forall i, j :: 0 <= i < j < |s| ==> le(s[i], s[j])
  }

  /** Put `x` in front of the first element it does not follow; `x` goes
      before the elements it ties with. */
  function InsertBy<T(!new)>(x: T, s: seq<T>, le: (T, T) -> bool): (r: seq<T>)
    requires TotalPreorder(le)
    requires SortedBy(s, le)
    ensures SortedBy(r, le)
    ensures multiset(r) == multiset(s) + multiset{x}
    ensures |r| == |s| + 1
  {
    if |s| == 0 then [x]
    else if le(x, s[0]) then [x] + s
    else
      var tail := InsertBy(x, s[1..], le);
      HeadPrecedesAll(s[0], x, s[1..], tail, le);
      assert s == [s[0]] + s[1..];
      [s[0]] + tail
  }

  lemma HeadPrecedesAll<T(!new)>(h: T, x: T, s: seq<T>, t: seq<T>, le: (T, T) -> bool)
    requires TotalPreorder(le)
    requires !le(x, h)
    requires forall k :: 0 <= k < |s| ==> le(h, s[k])
    requires multiset(t) == multiset(s) + multiset{x}
    ensures forall k :: 0 <= k < |t| ==> le(h, t[k])
  {
    forall k | 0 <= k < |t|
      ensures le(h, t[k])
    {
      var y := t[k];
      assert y in multiset(t);
      if y != x {
        assert y in multiset(s);
        var m :| 0 <= m < |s| && s[m] == y;
      }
    }
  }

  /** Stable insertion sort: elements that tie keep their input order. */
  function SortBy<T(!new)>(s: seq<T>, le: (T, T) -> bool): (r: seq<T>)
    requires TotalPreorder(le)
    ensures SortedBy(r, le)
    ensures multiset(r) == multiset(s)
    ensures |r| == |s|
  {
    if |s| == 0 then []
    else
      assert s == [s[0]] + s[1..];
      InsertBy(s[0], SortBy(s[1..], le), le)
  }

  /** Membership survives a permutation. */
  lemma SameElements<T>(a: seq<T>, b: seq<T>)
    requires multiset(a) == multiset(b)
    ensures forall x :: x in a <==> x in b
  {
    forall x
      ensures x in a <==> x in b
    {
      assert x in a <==> x in multiset(a);
      assert x in b <==> x in multiset(b);
    }
  }
}

=== FILE: pos.dfy ===
/** The point-of-sale page (src/pages/POS.jsx): the cart and its edits, the
    running totals with points and tax, the split-payment check, the
    checkout that hands the cart to the ledger and clears the till, holding
    and restoring carts, and the loyalty-points lookup. */
module Pos {
  import opened Common
  import opened Tables
  import opened Records
  import opened Ledger
  import opened LedgerLaws

  // ---------------------------------------------------------------------
  // The cart
  // ---------------------------------------------------------------------

  /** No two cart lines for the same product. */
  ghost predicate DistinctIds(cart: seq<Item>)
  {
    forall i, j :: 0 <= i < j < |cart| ==> cart[i].id != cart[j].id
  }

  /** `cart.find(item => item.id === id)`. */
  function LineOf(cart: seq<Item>, id: int): (r: Option<Item>)
    ensures r.Some? ==> r.value in cart && r.value.id == id
    ensures r.None? <==> forall i :: 0 <= i < |cart| ==> cart[i].id != id
  {
    if |cart| == 0 then None
    else if cart[0].id == id then Some(cart[0])
    else LineOf(cart[1..], id)
  }

  /** `{ ...product, quantity: 1 }`. */
  function NewLine(p: Entry<Product>): Item
  {
    Item(p.id, p.row.name, p.row.priceSell, Some(p.row.priceBuy), 1)
  }

  /** One more unit on every line of product `id`; every other line, and
      every other field, as it was. */
  function Bump(cart: seq<Item>, id: int): (r: seq<Item>)
    ensures |r| == |cart|
    ensures forall i :: 0 <= i < |cart| ==> r[i].id == cart[i].id
    ensures forall i :: 0 <= i < |cart| ==>
      r[i] == (if cart[i].id == id then cart[i].(quantity := cart[i].quantity + 1) else cart[i])
  {
    if |cart| == 0 then []
    else [if cart[0].id == id then cart[0].(quantity := cart[0].quantity + 1) else cart[0]]
         + Bump(cart[1..], id)
  }

  lemma {:induction false} BumpQty(cart: seq<Item>, id: int, k: int)
    ensures DistinctIds(cart) ==>
      QtyFor(Bump(cart, id), k) == QtyFor(cart, k) + (if k == id && LineOf(cart, id).Some? then 1 else 0)
  {
    if |cart| > 0 && DistinctIds(cart) {
      BumpQty(cart[1..], id, k);
      if cart[0].id == id {
        assert LineOf(cart[1..], id).None?;
      }
    }
  }

  /** True when adding product `p` is refused: it is in the cart already
      and its line holds as many units as the product has in stock. */
  predicate AddRefused(cart: seq<Item>, p: Entry<Product>)
  {
    LineOf(cart, p.id).Some? && LineOf(cart, p.id).value.quantity >= p.row.stock
  }

  /** `addToCart`: a product already in the cart gains one unit unless its
      line has reached the product's stock; a new product enters with one
      unit at the end of the cart. Other products are untouched. */
  function AddToCart(cart: seq<Item>, p: Entry<Product>): (r: seq<Item>)
    ensures AddRefused(cart, p) ==> r == cart
    ensures LineOf(cart, p.id).None? ==> r == cart + [NewLine(p)]
    ensures LineOf(cart, p.id).Some? && !AddRefused(cart, p) ==> r == Bump(cart, p.id)
    ensures forall k :: k != p.id ==> QtyFor(r, k) == QtyFor(cart, k)
    ensures DistinctIds(cart) ==> DistinctIds(r)
    ensures DistinctIds(cart) ==> QtyFor(r, p.id) == QtyFor(cart, p.id) + (if AddRefused(cart, p) then 0 else 1)
  {
    match LineOf(cart, p.id)
    case Some(existing) =>
      if existing.quantity >= p.row.stock then cart
      else
        assert forall k :: k != p.id ==> QtyFor(Bump(cart, p.id), k) == QtyFor(cart, k) by {
          forall k | k != p.id
            ensures QtyFor(Bump(cart, p.id), k) == QtyFor(cart, k)
          {
            BumpQtyAnyIds(cart, p.id, k);
          }
        }
        BumpQty(cart, p.id, p.id);
        Bump(cart, p.id)
    case None =>
      var r := cart + [NewLine(p)];
      assert forall k :: k != p.id ==> QtyFor(r, k) == QtyFor(cart, k) by {
        forall k | k != p.id
          ensures QtyFor(r, k) == QtyFor(cart, k)
        {
          QtyForAppend(cart, [NewLine(p)], k);
        }
      }
      QtyForAppend(cart, [NewLine(p)], p.id);
      r
  }

  lemma {:induction false} BumpQtyAnyIds(cart: seq<Item>, id: int, k: int)
    requires k != id
    ensures QtyFor(Bump(cart, id), k) == QtyFor(cart, k)
  {
    if |cart| > 0 {
      BumpQtyAnyIds(cart[1..], id, k);
    }
  }

  /** The add button is disabled for a product with no stock; for any
      other product, adding keeps its line within stock when it was. */
  lemma AddKeepsWithinStock(cart: seq<Item>, p: Entry<Product>)
    requires DistinctIds(cart)
    requires p.row.stock >= 1
    requires QtyFor(cart, p.id) <= p.row.stock
    requires forall i :: 0 <= i < |cart| ==> cart[i].quantity >= 0
    ensures QtyFor(AddToCart(cart, p), p.id) <= p.row.stock
  {
    match LineOf(cart, p.id)
    case None =>
      NoLineNoQty(cart, p.id);
    case Some(line) =>
      LineQty(cart, p.id);
  }

  lemma {:induction false} NoLineNoQty(cart: seq<Item>, id: int)
    requires forall i :: 0 <= i < |cart| ==> cart[i].id != id
    ensures QtyFor(cart, id) == 0
  {
    if |cart| > 0 {
      NoLineNoQty(cart[1..], id);
    }
  }

  /** With one line per product, the product's units are that line's. */
  lemma {:induction false} LineQty(cart: seq<Item>, id: int)
    requires DistinctIds(cart)
    requires LineOf(cart, id).Some?
    ensures QtyFor(cart, id) == LineOf(cart, id).value.quantity
  {
    if cart[0].id == id {
      NoLineNoQty(cart[1..], id);
    } else {
      LineQty(cart[1..], id);
    }
  }

  /** `removeFromCart`: drop every line of product `id`, keeping the
      others in order. */
  function RemoveFromCart(cart: seq<Item>, id: int): (r: seq<Item>)
    ensures LineOf(r, id).None?
    ensures forall x :: x in r <==> x in cart && x.id != id
    ensures IsSubseq(r, cart)
    ensures forall k :: k != id ==> QtyFor(r, k) == QtyFor(cart, k)
  {
    var r := Filter(cart, (line: Item) => line.id != id);
    forall k | k != id
      ensures QtyFor(r, k) == QtyFor(cart, k)
    {
      RemoveKeepsOthers(cart, id, k);
    }
    r
  }

  lemma {:induction false} RemoveKeepsOthers(cart: seq<Item>, id: int, k: int)
    requires k != id
    ensures QtyFor(Filter(cart, (line: Item) => line.id != id), k) == QtyFor(cart, k)
  {
    if |cart| > 0 {
      RemoveKeepsOthers(cart[1..], id, k);
    }
  }

  /** Removing a product right after adding it gives the cart it would
      have been without the product at all. */
  lemma {:induction false} RemoveUndoesAdd(cart: seq<Item>, p: Entry<Product>)
    ensures RemoveFromCart(AddToCart(cart, p), p.id) == RemoveFromCart(cart, p.id)
  {
    var drop := (line: Item) => line.id != p.id;
    match LineOf(cart, p.id)
    case Some(existing) =>
      if existing.quantity < p.row.stock {
        FilterBump(cart, p.id);
      }
    case None =>
      FilterAppend(cart, NewLine(p), drop);
  }

  lemma {:induction false} FilterBump(cart: seq<Item>, id: int)
    ensures Filter(Bump(cart, id), (line: Item) => line.id != id) == Filter(cart, (line: Item) => line.id != id)
  {
    if |cart| > 0 {
      FilterBump(cart[1..], id);
    }
  }

  /** True when `updateQuantity(id, delta)` refuses to move `line`: the
      catalogue lists the product and the new count, never below one,
      would pass its stock. */
  predicate AdjustRefused(line: Item, products: seq<Entry<Product>>, id: int, delta: int)
  {
    Find(products, id).Some? && MaxInt(1, line.quantity + delta) > Find(products, id).value.stock
  }

  /** One line after `updateQuantity(id, delta)`: a line of product `id`
      gets `max(1, quantity + delta)` units unless that passes the
      catalogue's stock, in which case it stays as it was. */
  function AdjustLine(line: Item, products: seq<Entry<Product>>, id: int, delta: int): (r: Item)
    ensures r.id == line.id && r == line.(quantity := r.quantity)
    ensures line.id != id ==> r == line
    ensures line.id == id && AdjustRefused(line, products, id, delta) ==> r == line
    ensures line.id == id && !AdjustRefused(line, products, id, delta) ==>
      r.quantity >= 1 && r.quantity >= line.quantity + delta
      && (r.quantity == 1 || r.quantity == line.quantity + delta)
    ensures r != line && Find(products, id).Some? ==> r.quantity <= Find(products, id).value.stock
  {
    if line.id == id then
      var newQty := MaxInt(1, line.quantity + delta);
      if Find(products, id).Some? && newQty > Find(products, id).value.stock then line
      else line.(quantity := newQty)
    else line
  }

  /** `updateQuantity`: every line of product `id` moves by `delta`, never
      below one unit and never past the stock the catalogue lists; other
      lines stay as they are. */
  function UpdateQuantity(cart: seq<Item>, products: seq<Entry<Product>>, id: int, delta: int): (r: seq<Item>)
    ensures |r| == |cart|
    ensures forall i :: 0 <= i < |cart| ==> r[i] == cart[i].(quantity := r[i].quantity)
    ensures forall i :: 0 <= i < |cart| && (cart[i].id != id || AdjustRefused(cart[i], products, id, delta)) ==>
      r[i] == cart[i]
    ensures forall i :: 0 <= i < |cart| && cart[i].id == id && !AdjustRefused(cart[i], products, id, delta) ==>
      r[i].quantity == MaxInt(1, cart[i].quantity + delta)
  {
    seq(|cart|, i requires 0 <= i < |cart| => AdjustLine(cart[i], products, id, delta))
  }

  /** `+` then `-` on a line with room for one more unit gives the cart
      back. */
  lemma UpThenDown(cart: seq<Item>, products: seq<Entry<Product>>, id: int)
    requires forall i :: 0 <= i < |cart| && cart[i].id == id ==>
      cart[i].quantity >= 1
      && (Find(products, id).Some? ==> cart[i].quantity + 1 <= Find(products, id).value.stock)
    ensures UpdateQuantity(UpdateQuantity(cart, products, id, 1), products, id, -1) == cart
  {
    var up := UpdateQuantity(cart, products, id, 1);
    var down := UpdateQuantity(up, products, id, -1);
    forall i | 0 <= i < |cart|
      ensures down[i] == cart[i]
    {
      if cart[i].id == id {
        assert up[i] == cart[i].(quantity := cart[i].quantity + 1);
      }
    }
  }

  /** `-` on a line of one unit leaves it at one unit. */
  lemma DownStopsAtOne(cart: seq<Item>, products: seq<Entry<Product>>, id: int, i: nat)
    requires i < |cart| && cart[i].id == id && cart[i].quantity == 1
    ensures UpdateQuantity(cart, products, id, -1)[i] == cart[i]
  {
  }

  // ---------------------------------------------------------------------
  // The till: the checkout state of the page
  // ---------------------------------------------------------------------

  /** `cash` and `card` are the split amounts as entered
      (`parseFloat(value) || 0`). */
  datatype Till = Till(
    cart: seq<Item>, customer: string, customerPoints: real, usePoints: bool,
    paymentMethod: string, split: bool, cash: real, card: real,
    discount: real, taxRate: real)

  datatype Totals = Totals(
    subtotal: real, maxPointsRedeemable: real, pointsDiscount: real,
    taxable: real, tax: real, total: real)

  /** The totals the page shows. Points stand in for money one for one,
      never more than the customer holds nor more than is left to pay
      after the discount; tax applies to what remains. */
  function TotalsOf(t: Till): (r: Totals)
    ensures r.subtotal == ItemsTotal(t.cart)
    ensures r.maxPointsRedeemable == Min(t.customerPoints, r.subtotal - t.discount)
    ensures r.pointsDiscount == (if t.usePoints then r.maxPointsRedeemable else 0.0)
    ensures r.tax == r.taxable * (t.taxRate / 100.0)
    ensures r.taxable >= 0.0
    ensures r.total == r.taxable + r.tax
    ensures t.taxRate >= 0.0 ==> r.tax >= 0.0 && r.total >= r.taxable
    ensures !t.usePoints ==> r.pointsDiscount == 0.0
    ensures t.usePoints ==> r.pointsDiscount <= t.customerPoints && r.pointsDiscount <= r.subtotal - t.discount
    ensures r.subtotal - t.discount - r.pointsDiscount >= 0.0 ==> r.taxable == r.subtotal - t.discount - r.pointsDiscount
    ensures r.subtotal - t.discount - r.pointsDiscount < 0.0 ==> r.taxable == 0.0
  {
    var subtotal := ItemsTotal(t.cart);
    var maxPoints := Min(t.customerPoints, subtotal - t.discount);
    var pointsDiscount := if t.usePoints then maxPoints else 0.0;
    var taxable := Max(0.0, subtotal - t.discount - pointsDiscount);
    var tax := taxable * (t.taxRate / 100.0);
    Totals(subtotal, maxPoints, pointsDiscount, taxable, tax, taxable + tax)
  }

  /** Redeeming points never makes the bill larger, as long as the
      customer's balance is not negative and the tax rate is not. */
  lemma PointsNeverRaiseTotal(t: Till)
    requires t.customerPoints >= 0.0 && t.taxRate >= 0.0
    requires t.discount <= ItemsTotal(t.cart)
    ensures TotalsOf(t.(usePoints := true)).total <= TotalsOf(t.(usePoints := false)).total
  {
    var a, b := TotalsOf(t.(usePoints := true)), TotalsOf(t.(usePoints := false));
    assert a.pointsDiscount >= 0.0;
    assert a.taxable <= b.taxable;
    var f := t.taxRate / 100.0;
    ScaleMonotone(a.taxable, b.taxable, f);
    assert a.tax == a.taxable * f && b.tax == b.taxable * f;
  }

  lemma ScaleMonotone(x: real, y: real, f: real)
    requires x <= y && f >= 0.0
    ensures x * f <= y * f
  {
    assert (y - x) * f >= 0.0;
    assert (y - x) * f == y * f - x * f;
  }

  /** `Math.abs(sum - total) > 1`: split amounts may miss the total by at
      most one unit of money. */
  predicate SplitMismatch(t: Till)
  {
    t.split && Abs(t.cash + t.card - TotalsOf(t).total) > 1.0
  }

  /** Opening the checkout fills the split amounts with the whole total
      in cash, which the split check always accepts. */
  function OpenCheckout(t: Till): (r: Till)
    ensures r.cash == TotalsOf(t).total && r.card == 0.0
    ensures r.(cash := t.cash, card := t.card) == t
    ensures r.cart == t.cart && TotalsOf(r) == TotalsOf(t)
    ensures !SplitMismatch(r)
  {
    t.(cash := TotalsOf(t).total, card := 0.0)
  }

  /** Pressing F12 again on an open checkout changes nothing: the amounts
      already put the whole total on cash. */
  lemma OpenCheckoutTwice(t: Till)
    ensures OpenCheckout(OpenCheckout(t)) == OpenCheckout(t)
  {
  }

  /** What `handleCheckout` sends to `createTransaction`. `tax` and
      `paymentDetails` are sent too but the ledger never reads them. */
  function Payload(t: Till): (r: SaleRequest)
    ensures r.items == t.cart && r.customer == t.customer && r.total == TotalsOf(t).total
    ensures r.paymentMethod == (if t.split then "Split" else t.paymentMethod)
    ensures r.pointsUsed == (if t.usePoints then TotalsOf(t).maxPointsRedeemable else 0.0)
    ensures r.discount == t.discount + TotalsOf(t).pointsDiscount
    ensures !t.usePoints ==> r.pointsUsed == 0.0 && r.discount == t.discount
    ensures t.usePoints ==> r.pointsUsed <= t.customerPoints && r.pointsUsed == r.discount - t.discount
  {
    var tot := TotalsOf(t);
    SaleRequest(
      t.cart, t.customer, tot.total,
      if t.split then "Split" else t.paymentMethod,
      t.discount + tot.pointsDiscount,
      if t.usePoints then tot.maxPointsRedeemable else 0.0)
  }

  /** Without tax, what the customer pays plus the discount the ledger
      records is the cart's value, whenever the discount does not exceed
      it. */
  lemma PaidPlusDiscountIsSubtotal(t: Till)
    requires t.taxRate == 0.0 && t.customerPoints >= 0.0
    requires t.discount <= ItemsTotal(t.cart)
    ensures Payload(t).total + Payload(t).discount == ItemsTotal(t.cart)
  {
  }

  /** At any tax rate, what the customer is charged is what is left of
      the cart's value after the discount the ledger records, plus tax on
      it, whenever that remainder is not negative. */
  lemma ChargedIsTaxedRemainder(t: Till)
    requires ItemsTotal(t.cart) - Payload(t).discount >= 0.0
    ensures Payload(t).total == (ItemsTotal(t.cart) - Payload(t).discount) * (1.0 + t.taxRate / 100.0)
  {
    var tot := TotalsOf(t);
    assert tot.taxable == ItemsTotal(t.cart) - Payload(t).discount;
    assert tot.taxable + tot.taxable * (t.taxRate / 100.0) == tot.taxable * (1.0 + t.taxRate / 100.0);
  }

  /** The till after a completed sale: empty cart, no customer, cash,
      no discount, no points, no split; the tax rate stays. */
  function Cleared(t: Till): (r: Till)
    ensures r.cart == [] && r.customer == "" && r.paymentMethod == "Cash"
    ensures r.discount == 0.0 && !r.usePoints && r.customerPoints == 0.0 && !r.split
    ensures r.taxRate == t.taxRate
    ensures TotalsOf(r).total == 0.0
  {
    t.(cart := [], customer := "", paymentMethod := "Cash", discount := 0.0,
       usePoints := false, customerPoints := 0.0, split := false)
  }

  datatype Outcome = Rejected | Failed(error: string) | Completed(id: int)

  datatype Step = Step(till: Till, db: Db, outcome: Outcome)

  /** `handleCheckout`: refuse a split that does not add up (nothing is
      sent); otherwise send the payload and clear the till. The IPC wrapper
      turns a ledger error into an `{ error }` reply rather than a
      rejection, and the page never looks at it, so a failed sale clears
      the till too, while the ledger keeps its state. */
  function Checkout(t: Till, db: Db, now: string, fault: Option<nat>): (r: Step)
    ensures SplitMismatch(t) ==> r == Step(t, db, Rejected)
    ensures r.outcome.Rejected? ==> r.till == t && r.db == db
    ensures r.outcome.Failed? ==> r.till == Cleared(t) && r.db == db
    ensures !SplitMismatch(t) ==> r.till == Cleared(t)
    ensures !SplitMismatch(t) && fault.None? ==> r.outcome.Completed?
    ensures r.outcome.Completed? ==>
      r.till == Cleared(t) && r.db == CreateTransaction(db, Payload(t), now, fault).db
  {
    if SplitMismatch(t) then Step(t, db, Rejected)
    else
      var reply := CreateTransaction(db, Payload(t), now, fault);
      match reply.result
      case Err(e) => Step(Cleared(t), db, Failed(e))
      case Ok(id) => Step(Cleared(t), reply.db, Completed(id))
  }

  /** What a completed checkout leaves in the ledger: a row carrying the
      cart, the total shown, the customer (or the walk-in default) and the
      payment method (Split when split), and every product's stock lowered
      by its units in the cart. */
  lemma CheckoutRecordsCart(t: Till, db: Db, now: string, fault: Option<nat>)
    ensures var r := Checkout(t, db, now, fault);
      r.outcome.Completed? ==>
        && Find(r.db.sales.entries, r.outcome.id).Some?
        && var row := Find(r.db.sales.entries, r.outcome.id).value;
        && row.items == t.cart
        && row.total == TotalsOf(t).total
        && row.customerName == OrDefault(t.customer, "Walk-in")
        && row.paymentMethod == (if t.split then "Split" else OrDefault(t.paymentMethod, "Cash"))
        && r.db.products.Keys == db.products.Keys
        && forall k :: k in db.products ==> r.db.products[k].stock == db.products[k].stock - QtyFor(t.cart, k)
  {
  }

  // ---------------------------------------------------------------------
  // Hold and recall
  // ---------------------------------------------------------------------

  /** `handleHoldCart`: with a non-empty cart and a reference name typed
      into the prompt (`""` when cancelled), park the cart under that name
      and clear cart, customer and discount. Otherwise nothing happens. */
  function HoldCart(t: Till, db: Db, name: string, now: string): (r: (Till, Db))
    ensures |t.cart| == 0 || name == "" ==> r == (t, db)
    ensures |t.cart| > 0 && name != "" ==>
      && r.0 == t.(cart := [], customer := "", discount := 0.0)
      && r.1 == db.(held := r.1.held)
      && r.1.held.entries == db.held.entries + [Entry(r.1.held.lastId, HeldCart(name, t.cart, now))]
  {
    if |t.cart| == 0 || name == "" then (t, db)
    else
      var (d, _) := AddHeldCart(db, name, t.cart, now);
      (t.(cart := [], customer := "", discount := 0.0), d)
  }

  /** `restoreCart`: put a held cart's lines and name back on the till and
      delete it from the held list. */
  function RestoreCart(t: Till, db: Db, h: Entry<HeldCart>): (r: (Till, Db))
    ensures r.0.cart == h.row.items && r.0.customer == h.row.customerName
    ensures r.0.discount == t.discount && r.0.taxRate == t.taxRate
    ensures r.0.(cart := t.cart, customer := t.customer) == t
    ensures r.1 == db.(held := r.1.held)
    ensures Find(r.1.held.entries, h.id).None?
    ensures forall k :: k != h.id ==> Find(r.1.held.entries, k) == Find(db.held.entries, k)
  {
    (t.(cart := h.row.items, customer := h.row.customerName), DeleteHeldCart(db, h.id))
  }

  /** Holding a cart and restoring it gives back the cart, with the
      reference name as customer; the held list is as it was before. The
      discount does not come back. */
  lemma HoldThenRestore(t: Till, db: Db, name: string, now: string)
    requires |t.cart| > 0 && name != ""
    ensures var (t1, d1) := HoldCart(t, db, name, now);
      var id := d1.held.lastId;
      var (t2, d2) := RestoreCart(t1, d1, Entry(id, HeldCart(name, t.cart, now)));
      && t2.cart == t.cart && t2.customer == name && t2.discount == 0.0
      && d2.held.entries == db.held.entries
      && d2.products == db.products && d2.customers == db.customers && d2.sales == db.sales
  {
    DeleteUndoesHold(db, name, t.cart, now);
  }

  // ---------------------------------------------------------------------
  // Loyalty points lookup
  // ---------------------------------------------------------------------

  /** `customers.find(c => c.name.toLowerCase() === name.toLowerCase())`:
      the first customer whose name matches ignoring ASCII case. */
  function FindCustomer(cs: seq<Customer>, name: string): (r: Option<nat>)
    ensures r.Some? ==> r.value < |cs| && ToLower(cs[r.value].name) == ToLower(name)
    ensures r.Some? ==> forall i :: 0 <= i < r.value ==> ToLower(cs[i].name) != ToLower(name)
    ensures r.None? ==> forall i :: 0 <= i < |cs| ==> ToLower(cs[i].name) != ToLower(name)
  {
    if |cs| == 0 then None
    else if ToLower(cs[0].name) == ToLower(name) then Some(0)
    else match FindCustomer(cs[1..], name)
      case None => None
      case Some(i) => Some(i + 1)
  }

  /** The balance shown for the name typed at checkout: the first
      case-insensitive match's points, or 0 for no name or no match. */
  function LookupPoints(cs: seq<Customer>, name: string): (r: real)
    ensures name == "" ==> r == 0.0
    ensures name != "" && FindCustomer(cs, name).None? ==> r == 0.0
    ensures name != "" && FindCustomer(cs, name).Some? ==> r == cs[FindCustomer(cs, name).value].points
  {
    if name == "" then 0.0
    else match FindCustomer(cs, name)
      case None => 0.0
      case Some(i) => cs[i].points
  }

  /** The lookup does not care how the name is capitalised. */
  lemma LookupIgnoresCase(cs: seq<Customer>, a: string, b: string)
    requires ToLower(a) == ToLower(b)
    ensures LookupPoints(cs, a) == LookupPoints(cs, b)
  {
    assert |a| == |b|;
    assert a == "" <==> b == "";
    FindSameKey(cs, a, b);
  }

  lemma {:induction false} FindSameKey(cs: seq<Customer>, a: string, b: string)
    requires ToLower(a) == ToLower(b)
    ensures FindCustomer(cs, a) == FindCustomer(cs, b)
  {
    if |cs| > 0 {
      FindSameKey(cs[1..], a, b);
    }
  }
}

=== FILE: records.dfy ===
/** The rows the ledger stores and the pages pass around. A sale keeps a
    snapshot of the cart lines it was rung up with; JSON serialisation of
    that snapshot is taken to be an exact round trip, so the snapshot is
    stored as the list itself. */
module Records {
  import opened Common

  /** A cart line: the product row as it was when it entered the cart, plus
      a quantity. `priceBuy` is `None` where the snapshot has no `price_buy`
      key (`undefined`); a `null` cost acts as 0 on both paths and is
      `Some(0.0)`. */
  datatype Item = Item(id: int, name: string, priceSell: real, priceBuy: Option<real>, quantity: int)

  /** A row of `products`. */
  datatype Product = Product(
    name: string, sku: string, category: string,
    priceBuy: real, priceSell: real, stock: int,
    image: string, warranty: string)

  /** A row of `customers`. */
  datatype Customer = Customer(name: string, points: real)

  /** A row of `transactions`. `profit` is `None` where the stored value is
      NULL. */
  datatype Sale = Sale(
    timestamp: string, total: real, profit: Option<real>,
    paymentMethod: string, customerName: string, items: seq<Item>,
    discount: real)

  /** A row of `held_carts`. */
  datatype HeldCart = HeldCart(customerName: string, items: seq<Item>, timestamp: string)

  /** `price_sell * quantity`. */
  function LineTotal(it: Item): real
  {
    it.priceSell * it.quantity as real
  }

  /** `items.reduce((sum, x) => sum + x.price_sell * x.quantity, 0)`. */
  function ItemsTotal(items: seq<Item>): real
  {
    SumOf(items, LineTotal)
  }

  /** Units of product `id` across `items` (all lines with that id). */
  function QtyFor(items: seq<Item>, id: int): int
  {
    if |items| == 0 then 0
    else (if items[0].id == id then items[0].quantity else 0) + QtyFor(items[1..], id)
  }

  lemma {:induction false} QtyForAppend(a: seq<Item>, b: seq<Item>, id: int)
    ensures QtyFor(a + b, id) == QtyFor(a, id) + QtyFor(b, id)
  {
    if |a| == 0 {
      assert a + b == b;
    } else {
      assert (a + b)[1..] == a[1..] + b;
      QtyForAppend(a[1..], b, id);
    }
  }

  /** `s || d` for a string: the empty string falls back to `d`. */
  function OrDefault(s: string, d: string): (r: string)
    ensures s != "" ==> r == s
    ensures s == "" ==> r == d
  {
    if s == "" then d else s
  }
}

=== FILE: repairs.dfy ===
/** The repairs board (src/pages/Repairs.jsx): tickets shown in three
    status columns, the button that moves a ticket on to the next status,
    and the new-ticket form. */
module Repairs {
  import opened Common

  const Pending := "Pending"
  const InProgress := "In_Progress"
  const Done := "Done"

  /** `COLUMNS`, left to right. */
  const Columns: seq<string> := [Pending, InProgress, Done]

  predicate OnBoard(status: string)
  {
    status == Pending || status == InProgress || status == Done
  }

  datatype Ticket = Ticket(id: int, status: string, customerId: string, device: string, issue: string, cost: real)

  /** `nextMap[currentStatus]`: Pending, then In_Progress, then Done, then
      back to Pending; any other status has no next one. */
  function NextStatus(s: string): (r: Option<string>)
    ensures r.Some? <==> OnBoard(s)
    ensures r.Some? ==> OnBoard(r.value) && r.value != s
  {
    if s == Pending then Some(InProgress)
    else if s == InProgress then Some(Done)
    else if s == Done then Some(Pending)
    else None
  }

  /** Three moves bring a ticket back to where it started. */
  lemma ThreeMovesCycle(s: string)
    requires OnBoard(s)
    ensures NextStatus(NextStatus(NextStatus(s).value).value).value == s
  {
  }

  /** Every column is reached from every column. */
  lemma EveryColumnReachable(s: string, t: string)
    requires OnBoard(s) && OnBoard(t)
    ensures t == s || t == NextStatus(s).value || t == NextStatus(NextStatus(s).value).value
  {
  }

  /** The status-update call the page makes. */
  datatype StatusCall = StatusCall(id: int, status: string)

  /** `moveStatus(id, currentStatus)`: with no next status nothing happens;
      otherwise every ticket with that id shows the next status at once and
      the page asks the store to record it. */
  function MoveStatus(tickets: seq<Ticket>, id: int, current: string): (r: (seq<Ticket>, Option<StatusCall>))
    ensures NextStatus(current).None? ==> r == (tickets, None)
    ensures NextStatus(current).Some? ==>
      && r.1 == Some(StatusCall(id, NextStatus(current).value))
      && |r.0| == |tickets|
      && (forall i :: 0 <= i < |tickets| && tickets[i].id != id ==> r.0[i] == tickets[i])
      && (forall i :: 0 <= i < |tickets| && tickets[i].id == id ==>
            r.0[i] == tickets[i].(status := NextStatus(current).value))
  {
    match NextStatus(current)
    case None => (tickets, None)
    case Some(next) =>
      var moved := seq(|tickets|, i requires 0 <= i < |tickets| =>
        if tickets[i].id == id then tickets[i].(status := next) else tickets[i]);
      (moved, Some(StatusCall(id, next)))
  }

  /** `repairs.filter(r => r.status === col.id)`. */
  function Column(tickets: seq<Ticket>, col: string): (r: seq<Ticket>)
    ensures forall t :: t in r <==> t in tickets && t.status == col
    ensures IsSubseq(r, tickets)
  {
    Filter(tickets, (t: Ticket) => t.status == col)
  }

  /** The three columns share the tickets out: each ticket with a board
      status is in exactly one column, a ticket with any other status is
      in none, and the column sizes add up to the tickets on the board. */
  lemma {:induction false} ColumnsPartition(tickets: seq<Ticket>)
    ensures |Column(tickets, Pending)| + |Column(tickets, InProgress)| + |Column(tickets, Done)|
            == CountOf(tickets, (t: Ticket) => OnBoard(t.status))
  {
    if |tickets| > 0 {
      ColumnsPartition(tickets[1..]);
    }
  }

  /** Moving a ticket never takes any ticket off the board. */
  lemma MoveKeepsBoard(tickets: seq<Ticket>, id: int, current: string)
    ensures var after := MoveStatus(tickets, id, current).0;
      forall i :: 0 <= i < |tickets| && OnBoard(tickets[i].status) ==> OnBoard(after[i].status)
  {
  }

  /** The new-ticket form, every field as typed. */
  datatype Form = Form(customerId: string, device: string, issue: string, cost: string)

  const EmptyForm := Form("", "", "", "")

  /** What `addRepair` receives. */
  datatype RepairRequest = RepairRequest(customerId: string, device: string, issue: string, cost: real)

  /** `handleSubmit`: nothing is sent unless a customer is chosen and a
      device named; the cost is the parsed number, or 0 when the text does
      not parse (`parsed` is what `parseFloat` read, `None` for NaN). After
      sending, the form is cleared. */
  function Submit(f: Form, parsed: Option<real>): (r: (Option<RepairRequest>, Form))
    ensures r.0.None? <==> f.customerId == "" || f.device == ""
    ensures r.0.None? ==> r.1 == f
    ensures r.0.Some? ==>
      && r.0.value.customerId == f.customerId && r.0.value.device == f.device && r.0.value.issue == f.issue
      && r.0.value.cost == parsed.GetOr(0.0)
      && r.1 == EmptyForm
  {
    if f.customerId == "" || f.device == "" then (None, f)
    else (Some(RepairRequest(f.customerId, f.device, f.issue, parsed.GetOr(0.0))), EmptyForm)
  }

  /** A second submit right after a successful one sends nothing: the
      cleared form names neither customer nor device. */
  lemma SubmitTwiceSendsOnce(f: Form, first: Option<real>, second: Option<real>)
    requires Submit(f, first).0.Some?
    ensures Submit(Submit(f, first).1, second) == (None, EmptyForm)
  {
  }
}

=== FILE: reports.dfy ===
/** The read side of the ledger (electron/db.js): newest-first listings of
    sales and held carts, the best sellers among the latest sales, and the
    dashboard figures. */
module Reports {
  import opened Common
  import opened Ordering
  import opened Tables
  import opened Records
  import opened Ledger

  // ---------------------------------------------------------------------
  // Listings: `SELECT * ... ORDER BY timestamp DESC`
  // ---------------------------------------------------------------------

  /** `a` sorts no later than `b` when newest first. */
  predicate NewerSale(a: Entry<Sale>, b: Entry<Sale>)
  {
    StrLe(b.row.timestamp, a.row.timestamp)
  }

  predicate NewerHeld(a: Entry<HeldCart>, b: Entry<HeldCart>)
  {
    StrLe(b.row.timestamp, a.row.timestamp)
  }

  lemma NewerSaleIsPreorder()
    ensures TotalPreorder(NewerSale)
  {
    forall a: Entry<Sale>, b: Entry<Sale>
      ensures NewerSale(a, b) || NewerSale(b, a)
    {
      StrLeTotal(a.row.timestamp, b.row.timestamp);
    }
    forall a: Entry<Sale>, b: Entry<Sale>, c: Entry<Sale> | NewerSale(a, b) && NewerSale(b, c)
      ensures NewerSale(a, c)
    {
      StrLeTrans(c.row.timestamp, b.row.timestamp, a.row.timestamp);
    }
  }

  lemma NewerHeldIsPreorder()
    ensures TotalPreorder(NewerHeld)
  {
    forall a: Entry<HeldCart>, b: Entry<HeldCart>
      ensures NewerHeld(a, b) || NewerHeld(b, a)
    {
      StrLeTotal(a.row.timestamp, b.row.timestamp);
    }
    forall a: Entry<HeldCart>, b: Entry<HeldCart>, c: Entry<HeldCart> | NewerHeld(a, b) && NewerHeld(b, c)
      ensures NewerHeld(a, c)
    {
      StrLeTrans(c.row.timestamp, b.row.timestamp, a.row.timestamp);
    }
  }

  /** `getTransactions`: every stored sale exactly once, each with the item
      list it was stored with, newest first. The order among equal
      timestamps is the engine's choice and is not claimed. */
  function ListTransactions(db: Db): (r: seq<Entry<Sale>>)
    ensures multiset(r) == multiset(db.sales.entries)
    ensures |r| == |db.sales.entries|
    ensures forall i, j :: 0 <= i < j < |r| ==> StrLe(r[j].row.timestamp, r[i].row.timestamp)
  {
    NewerSaleIsPreorder();
    SortBy(db.sales.entries, NewerSale)
  }

  /** `getHeldCarts`: every held cart exactly once, newest first. */
  function ListHeldCarts(db: Db): (r: seq<Entry<HeldCart>>)
    ensures multiset(r) == multiset(db.held.entries)
    ensures |r| == |db.held.entries|
    ensures forall i, j :: 0 <= i < j < |r| ==> StrLe(r[j].row.timestamp, r[i].row.timestamp)
  {
    NewerHeldIsPreorder();
    SortBy(db.held.entries, NewerHeld)
  }

  // ---------------------------------------------------------------------
  // getTopSellingProducts
  // ---------------------------------------------------------------------

  const WindowSize := 100
  const TopCount := 5

  /** `ORDER BY timestamp DESC LIMIT 100`: the newest sales, and no sale
      left out is newer than one taken. */
  function Window(db: Db): (w: seq<Entry<Sale>>)
    ensures |w| == MinInt(WindowSize, |db.sales.entries|)
    ensures multiset(w) <= multiset(db.sales.entries)
    ensures forall i, e :: 0 <= i < |w| && e in multiset(db.sales.entries) - multiset(w) ==>
              StrLe(e.row.timestamp, w[i].row.timestamp)
  {
    var all := ListTransactions(db);
    var n := MinInt(WindowSize, |all|);
    WindowIsNewest(all, n);
    all[..n]
  }

  lemma WindowIsNewest(all: seq<Entry<Sale>>, n: nat)
    requires n <= |all|
    requires forall i, j :: 0 <= i < j < |all| ==> StrLe(all[j].row.timestamp, all[i].row.timestamp)
    ensures multiset(all[..n]) <= multiset(all)
    ensures forall i, e :: 0 <= i < n && e in multiset(all) - multiset(all[..n]) ==>
              StrLe(e.row.timestamp, all[i].row.timestamp)
  {
    assert all == all[..n] + all[n..];
    assert multiset(all) == multiset(all[..n]) + multiset(all[n..]);
    forall i, e | 0 <= i < n && e in multiset(all) - multiset(all[..n])
      ensures StrLe(e.row.timestamp, all[i].row.timestamp)
    {
      assert e in multiset(all[n..]);
      var j :| 0 <= j < |all[n..]| && all[n..][j] == e;
      assert all[n + j] == e;
    }
  }

  /** Every line of every sale in `ws`, in order. */
  function AllItems(ws: seq<Entry<Sale>>): seq<Item>
  {
    if |ws| == 0 then [] else ws[0].row.items + AllItems(ws[1..])
  }

  /** A best-seller entry: units and revenue summed over one item name. */
  datatype Seller = Seller(name: string, qty: int, revenue: real)

  /** Units sold under `name`. */
  function QtySold(items: seq<Item>, name: string): int
  {
    if |items| == 0 then 0
    else QtySold(items[..|items| - 1], name)
         + (if items[|items| - 1].name == name then items[|items| - 1].quantity else 0)
  }

  /** Revenue taken under `name`. */
  function RevenueOf(items: seq<Item>, name: string): real
  {
    if |items| == 0 then 0.0
    else RevenueOf(items[..|items| - 1], name)
         + (if items[|items| - 1].name == name then LineTotal(items[|items| - 1]) else 0.0)
  }

  /** The position of the entry for `name`, if there is one. */
  function IndexOfName(gs: seq<Seller>, name: string): (r: Option<nat>)
    ensures r.Some? ==> r.value < |gs| && gs[r.value].name == name
    ensures r.None? ==> forall i :: 0 <= i < |gs| ==> gs[i].name != name
  {
    if |gs| == 0 then None
    else if gs[0].name == name then Some(0)
    else match IndexOfName(gs[1..], name)
      case None => None
      case Some(i) => Some(i + 1)
  }

  /** The names a plain object `{}` already answers through
      `Object.prototype`. For these `map[name]` is truthy before any entry
      exists, so no entry is ever made and the line's figures go to the
      inherited value instead of into the result. */
  const InheritedKeys: set<string> := {
    "constructor", "hasOwnProperty", "isPrototypeOf", "propertyIsEnumerable",
    "toString", "toLocaleString", "valueOf", "__proto__",
    "__defineGetter__", "__defineSetter__", "__lookupGetter__", "__lookupSetter__"}

  /** One line into the running totals: `if (!map[name]) map[name] = {...};
      map[name].qty += quantity; map[name].revenue += quantity * price`.
      A line whose name is an inherited key leaves the entries as they
      are. */
  function Tally(gs: seq<Seller>, it: Item): seq<Seller>
  {
    if it.name in InheritedKeys then gs
    else match IndexOfName(gs, it.name)
    case Some(i) => gs[i := gs[i].(qty := gs[i].qty + it.quantity, revenue := gs[i].revenue + LineTotal(it))]
    case None => gs + [Seller(it.name, it.quantity, LineTotal(it))]
  }

  /** The names the running totals have entries for. */
  function NamesOf(gs: seq<Seller>): set<string>
  {
    set i | 0 <= i < |gs| :: gs[i].name
  }

  /** The names the lines carry. */
  function ItemNames(items: seq<Item>): set<string>
  {
    set k | 0 <= k < |items| :: items[k].name
  }

  /** Distinct entry names. */
  ghost predicate DistinctNames(gs: seq<Seller>)
  {
    forall i, j :: 0 <= i < j < |gs| ==> gs[i].name != gs[j].name
  }

  /** Each entry's figures are its name's totals over `items`. */
  ghost predicate Counted(gs: seq<Seller>, items: seq<Item>)
  {
    forall i :: 0 <= i < |gs| ==>
      gs[i].qty == QtySold(items, gs[i].name) && gs[i].revenue == RevenueOf(items, gs[i].name)
  }

  /** What the running totals promise after reading `items`: one entry per
      name read that is not an inherited key, no other entry, and the right
      figures in each. */
  ghost predicate Tallied(gs: seq<Seller>, items: seq<Item>)
  {
    DistinctNames(gs) && Counted(gs, items) && NamesOf(gs) == ItemNames(items) - InheritedKeys
  }

  /** Reading one more line adds to its own name's figures only. */
  lemma SoldSnoc(items: seq<Item>, it: Item, n: string)
    ensures QtySold(items + [it], n) == QtySold(items, n) + (if it.name == n then it.quantity else 0)
    ensures RevenueOf(items + [it], n) == RevenueOf(items, n) + (if it.name == n then LineTotal(it) else 0.0)
  {
    var all := items + [it];
    assert all[..|all| - 1] == items;
  }

  /** A name no line carries has no figures. */
  lemma {:induction false} NeverSold(items: seq<Item>, n: string)
    requires n !in ItemNames(items)
    ensures QtySold(items, n) == 0 && RevenueOf(items, n) == 0.0
  {
    if |items| > 0 {
      var front := items[..|items| - 1];
      NeverSold(front, n);
      assert items[|items| - 1].name in ItemNames(items);
    }
  }

  lemma ItemNamesSnoc(items: seq<Item>, it: Item)
    ensures ItemNames(items + [it]) == ItemNames(items) + {it.name}
  {
    var all := items + [it];
    forall n | n in ItemNames(all)
      ensures n in ItemNames(items) + {it.name}
    {
      var k :| 0 <= k < |all| && all[k].name == n;
      if k < |items| {
        assert items[k].name == n;
      }
    }
    forall n | n in ItemNames(items) + {it.name}
      ensures n in ItemNames(all)
    {
      if n == it.name {
        assert all[|items|].name == n;
      } else {
        var k :| 0 <= k < |items| && items[k].name == n;
        assert all[k].name == n;
      }
    }
  }

  /** Tally either keeps the names (and updates one entry) or appends a new
      name. */
  lemma TallyNames(gs: seq<Seller>, it: Item)
    requires it.name !in InheritedKeys
    ensures NamesOf(Tally(gs, it)) == NamesOf(gs) + {it.name}
  {
    var r := Tally(gs, it);
    match IndexOfName(gs, it.name)
    case Some(x) =>
      assert |r| == |gs|;
      assert forall i :: 0 <= i < |gs| ==> r[i].name == gs[i].name;
      forall n | n in NamesOf(r)
        ensures n in NamesOf(gs) + {it.name}
      {
        var i :| 0 <= i < |r| && r[i].name == n;
        assert gs[i].name == n;
      }
      forall n | n in NamesOf(gs) + {it.name}
        ensures n in NamesOf(r)
      {
        if n == it.name {
          assert r[x].name == n;
        } else {
          var i :| 0 <= i < |gs| && gs[i].name == n;
          assert r[i].name == n;
        }
      }
    case None =>
      assert r == gs + [Seller(it.name, it.quantity, LineTotal(it))];
      forall n | n in NamesOf(r)
        ensures n in NamesOf(gs) + {it.name}
      {
        var i :| 0 <= i < |r| && r[i].name == n;
        if i < |gs| {
          assert gs[i].name == n;
        }
      }
      forall n | n in NamesOf(gs) + {it.name}
        ensures n in NamesOf(r)
      {
        if n == it.name {
          assert r[|gs|].name == n;
        } else {
          var i :| 0 <= i < |gs| && gs[i].name == n;
          assert r[i].name == n;
        }
      }
  }

  /** The figures of every entry after one more line. */
  lemma TallyCounts(gs: seq<Seller>, items: seq<Item>, it: Item)
    requires Tallied(gs, items) && it.name !in InheritedKeys
    ensures Counted(Tally(gs, it), items + [it])
  {
    var r := Tally(gs, it);
    forall i | 0 <= i < |r|
      ensures r[i].qty == QtySold(items + [it], r[i].name) && r[i].revenue == RevenueOf(items + [it], r[i].name)
    {
      SoldSnoc(items, it, r[i].name);
      match IndexOfName(gs, it.name)
      case Some(x) =>
        if i != x {
          assert r[i] == gs[i];
          assert gs[i].name != gs[x].name by {
            if i < x {} else {}
          }
        }
      case None =>
        if i == |gs| {
          assert it.name !in NamesOf(gs);
          NeverSold(items, it.name);
        } else {
          assert r[i] == gs[i];
        }
    }
  }

  /** Entry names stay distinct after one more line. */
  lemma TallyDistinct(gs: seq<Seller>, it: Item)
    requires DistinctNames(gs) && it.name !in InheritedKeys
    ensures DistinctNames(Tally(gs, it))
  {
    var r := Tally(gs, it);
    match IndexOfName(gs, it.name)
    case Some(x) =>
      assert forall i :: 0 <= i < |gs| ==> r[i].name == gs[i].name;
    case None =>
      assert r == gs + [Seller(it.name, it.quantity, LineTotal(it))];
  }

  lemma TallyStep(gs: seq<Seller>, items: seq<Item>, it: Item)
    requires Tallied(gs, items)
    ensures Tallied(Tally(gs, it), items + [it])
  {
    ItemNamesSnoc(items, it);
    if it.name in InheritedKeys {
      InheritedLineSkipped(gs, items, it);
    } else {
      TallyCounts(gs, items, it);
      TallyDistinct(gs, it);
      TallyNames(gs, it);
    }
  }

  /** A line under an inherited key changes no entry's figures. */
  lemma InheritedLineSkipped(gs: seq<Seller>, items: seq<Item>, it: Item)
    requires Tallied(gs, items) && it.name in InheritedKeys
    ensures Counted(gs, items + [it])
  {
    forall i | 0 <= i < |gs|
      ensures gs[i].qty == QtySold(items + [it], gs[i].name) && gs[i].revenue == RevenueOf(items + [it], gs[i].name)
    {
      assert gs[i].name in NamesOf(gs);
      SoldSnoc(items, it, gs[i].name);
    }
  }

  /** The running totals after reading `items` in order: one entry per
      item name, in order of first appearance. */
  function Group(items: seq<Item>): (gs: seq<Seller>)
    ensures Tallied(gs, items)
    decreases |items|
  {
    if |items| == 0 then []
    else
      var front := items[..|items| - 1];
      var last := items[|items| - 1];
      assert front + [last] == items;
      TallyStep(Group(front), front, last);
      Tally(Group(front), last)
  }

  /** The per-name totals over the newest hundred sales. A name that is
      an inherited key of a plain object gets no entry. */
  function Sellers(db: Db): (gs: seq<Seller>)
    ensures forall i, j :: 0 <= i < j < |gs| ==> gs[i].name != gs[j].name
    ensures forall i :: 0 <= i < |gs| ==>
              gs[i].qty == QtySold(AllItems(Window(db)), gs[i].name)
              && gs[i].revenue == RevenueOf(AllItems(Window(db)), gs[i].name)
    ensures NamesOf(gs) == ItemNames(AllItems(Window(db))) - InheritedKeys
  {
    Group(AllItems(Window(db)))
  }

  /** `(a, b) => b.qty - a.qty`: more units first. */
  predicate MoreSold(a: Seller, b: Seller)
  {
    a.qty >= b.qty
  }

  lemma MoreSoldIsPreorder()
    ensures TotalPreorder(MoreSold)
  {
  }

  /** The five entries with the most units (fewer when there are fewer
      entries), most units first. Nothing left out sold more than anything
      listed. Order among equal unit counts is not claimed. */
  function TopOf(gs: seq<Seller>): (r: seq<Seller>)
    ensures |r| == MinInt(TopCount, |gs|)
    ensures forall i, j :: 0 <= i < j < |r| ==> r[i].qty >= r[j].qty
    ensures forall i :: 0 <= i < |r| ==> r[i] in gs
    ensures forall g :: g in gs && g !in r ==> |r| == TopCount && forall i :: 0 <= i < |r| ==> r[i].qty >= g.qty
  {
    MoreSoldIsPreorder();
    var sorted := SortBy(gs, MoreSold);
    var n := MinInt(TopCount, |sorted|);
    TopIsBest(gs, sorted, n);
    sorted[..n]
  }

  /** `getTopSellingProducts`: the best sellers over the newest hundred
      sales. */
  function TopSelling(db: Db): (r: seq<Seller>)
    ensures |r| == MinInt(TopCount, |Sellers(db)|)
    ensures forall i, j :: 0 <= i < j < |r| ==> r[i].qty >= r[j].qty
    ensures forall i :: 0 <= i < |r| ==> r[i] in Sellers(db)
    ensures forall i :: 0 <= i < |r| ==>
              r[i].qty == QtySold(AllItems(Window(db)), r[i].name)
              && r[i].revenue == RevenueOf(AllItems(Window(db)), r[i].name)
    ensures forall g :: g in Sellers(db) && g !in r ==>
              |r| == TopCount && forall i :: 0 <= i < |r| ==> r[i].qty >= g.qty
  {
    var gs := Sellers(db);
    var r := TopOf(gs);
    assert forall i :: 0 <= i < |r| ==> r[i] in gs;
    r
  }

  /** Every item name sold in the newest hundred sales that is not an
      inherited key has exactly one best-seller candidate. */
  lemma OneSellerPerName(db: Db, n: string)
    requires n in ItemNames(AllItems(Window(db))) && n !in InheritedKeys
    ensures exists i :: 0 <= i < |Sellers(db)| && Sellers(db)[i].name == n
  {
    assert n in NamesOf(Sellers(db));
  }

  lemma TopIsBest(gs: seq<Seller>, sorted: seq<Seller>, n: nat)
    requires multiset(sorted) == multiset(gs)
    requires forall i, j :: 0 <= i < j < |sorted| ==> MoreSold(sorted[i], sorted[j])
    requires n == MinInt(TopCount, |sorted|)
    ensures forall i :: 0 <= i < n ==> sorted[i] in gs
    ensures forall g :: g in gs && g !in sorted[..n] ==> n == TopCount && forall i :: 0 <= i < n ==> sorted[i].qty >= g.qty
  {
    SameElements(sorted, gs);
    forall i | 0 <= i < n
      ensures sorted[i] in gs
    {
      assert sorted[i] in sorted;
    }
    forall g | g in gs && g !in sorted[..n]
      ensures n == TopCount && forall i :: 0 <= i < n ==> sorted[i].qty >= g.qty
    {
      assert g in sorted;
      var j :| 0 <= j < |sorted| && sorted[j] == g;
    }
  }

  // ---------------------------------------------------------------------
  // getDashboardStats
  // ---------------------------------------------------------------------

  datatype Stats = Stats(totalRevenue: real, netProfit: real, totalOrders: nat, lowStockCount: nat)

  /** `timestamp LIKE 'today%'` for a date without wildcard characters. */
  function SoldOn(today: string): Entry<Sale> -> bool
  {
    (e: Entry<Sale>) => StartsWith(e.row.timestamp, today)
  }

  function SaleTotal(e: Entry<Sale>): real { e.row.total }

  /** What one sale adds to today's revenue: its total when it is dated
      today, nothing otherwise. */
  function TodayShare(today: string): Entry<Sale> -> real
  {
    (e: Entry<Sale>) => if StartsWith(e.row.timestamp, today) then e.row.total else 0.0
  }

  /** `SUM(profit)` skips NULLs. */
  function StoredProfit(e: Entry<Sale>): real { e.row.profit.GetOr(0.0) }

  /** Ids of the products with fewer than five units. */
  function LowStock(ps: map<int, Product>): (r: set<int>)
    ensures forall k :: k in r <==> k in ps && ps[k].stock < 5
  {
    set k | k in ps && ps[k].stock < 5
  }

  /** `getDashboardStats`: today's revenue and order count, profit over all
      sales, and the number of products under five units. A query over no
      rows yields 0. */
  function DashboardStats(db: Db, today: string): (r: Stats)
    ensures r.totalRevenue == SumOf(db.sales.entries, TodayShare(today))
    ensures r.netProfit == SumOf(db.sales.entries, StoredProfit)
    ensures r.totalOrders == CountOf(db.sales.entries, SoldOn(today))
    ensures r.lowStockCount == |LowStock(db.products)|
    ensures r.totalOrders <= |db.sales.entries|
    ensures r.lowStockCount <= |db.products|
    ensures |db.sales.entries| == 0 ==> r.totalRevenue == 0.0 && r.netProfit == 0.0 && r.totalOrders == 0
    ensures (forall k :: k in db.products ==> db.products[k].stock >= 5) ==> r.lowStockCount == 0
  {
    var todays := Filter(db.sales.entries, SoldOn(today));
    FilterCountOf(db.sales.entries, SoldOn(today));
    FilterSum(db.sales.entries, SoldOn(today), SaleTotal, TodayShare(today));
    LowStockBound(db.products);
    Stats(SumOf(todays, SaleTotal), SumOf(db.sales.entries, StoredProfit), |todays|, |LowStock(db.products)|)
  }

  lemma LowStockBound(ps: map<int, Product>)
    ensures |LowStock(ps)| <= |ps|
    ensures (forall k :: k in ps ==> ps[k].stock >= 5) ==> |LowStock(ps)| == 0
  {
    var low := LowStock(ps);
    assert low * ps.Keys == low;
    assert low + ps.Keys == ps.Keys;
    assert low - ps.Keys == {};
    assert |low - ps.Keys| + |ps.Keys - low| + |low * ps.Keys| == |low + ps.Keys|;
    assert |ps.Keys| == |ps|;
    if forall k :: k in ps ==> ps[k].stock >= 5 {
      assert low == {};
    }
  }

  /** A fault-free sale moves today's figures by exactly its own: one more
      order and its total when it is dated today, nothing otherwise; the
      profit figure gains its stored profit (nothing when that is NULL). */
  lemma SaleCountsToday(db: Db, req: SaleRequest, now: string, today: string)
    ensures var c := CreateTransaction(db, req, now, None);
      var before := DashboardStats(db, today);
      var after := DashboardStats(c.db, today);
      && after.totalOrders == before.totalOrders + (if StartsWith(now, today) then 1 else 0)
      && after.totalRevenue == before.totalRevenue + (if StartsWith(now, today) then req.total else 0.0)
      && after.netProfit == before.netProfit + SaleProfit(req.items, req.discount).GetOr(0.0)
  {
    var c := CreateTransaction(db, req, now, None);
    var e := Entry(c.result.value, SaleRow(req, now));
    var es := db.sales.entries;
    assert c.db.sales.entries == es + [e];
    FilterAppend(es, e, SoldOn(today));
    var todays := Filter(es, SoldOn(today));
    var added: seq<Entry<Sale>> := if SoldOn(today)(e) then [e] else [];
    SumOfAppend(todays, added, SaleTotal);
    SumOfAppend(es, [e], StoredProfit);
  }

  /** A sale never takes a product off the low-stock count: with
      non-negative quantities, every product under five units before is
      still under five after. */
  lemma LowStockAfterSale(db: Db, req: SaleRequest, now: string)
    requires forall i :: 0 <= i < |req.items| ==> req.items[i].quantity >= 0
    ensures LowStock(db.products) <= LowStock(CreateTransaction(db, req, now, None).db.products)
  {
    var c := CreateTransaction(db, req, now, None);
    forall k | k in LowStock(db.products)
      ensures k in LowStock(c.db.products)
    {
      QtyForNonNegative(req.items, k);
    }
  }

  lemma {:induction false} QtyForNonNegative(items: seq<Item>, id: int)
    requires forall i :: 0 <= i < |items| ==> items[i].quantity >= 0
    ensures QtyFor(items, id) >= 0
  {
    if |items| > 0 {
      QtyForNonNegative(items[1..], id);
    }
  }
}

=== FILE: sales_chart.dfy ===
/** The dashboard's seven-day sales chart (src/pages/Dashboard.jsx): one
    bar per day, oldest on the left, each the sum of the totals of the
    sales whose timestamp starts with that day's date. Which dates make
    up the last seven days depends on the clock and the time zone; they
    are a parameter here, newest first, as the page builds them before
    reversing; the page always passes seven. */
module SalesChart {
  import opened Common
  import opened Tables
  import opened Records
  import opened Ledger
  import opened Reports

  datatype Point = Point(name: string, sales: real)

  /** `date.slice(5)`: the date without its year, `MM-DD` of `YYYY-MM-DD`;
      a text shorter than five characters gives nothing. */
  function Label(date: string): (r: string)
    ensures |date| >= 5 ==> date[..5] + r == date
    ensures |date| < 5 ==> r == ""
  {
    DropChars(date, 5)
  }

  /** The sales total of one day: the totals of the sales whose timestamp
      starts with the date. */
  function DayTotal(history: seq<Entry<Sale>>, date: string): real
  {
    SumOf(Filter(history, SoldOn(date)), SaleTotal)
  }

  /** A day no sale's timestamp starts with has a zero bar. */
  lemma NoSalesNoBar(history: seq<Entry<Sale>>, date: string)
    requires forall i :: 0 <= i < |history| ==> !StartsWith(history[i].row.timestamp, date)
    ensures DayTotal(history, date) == 0.0
  {
    assert forall i :: 0 <= i < |history| ==> !SoldOn(date)(history[i]);
  }

  /** The bar of one day: its label and its total. */
  function Bar(history: seq<Entry<Sale>>, day: string): Point
  {
    Point(Label(day), DayTotal(history, day))
  }

  /** `chartData`: the days reversed, oldest first, each with its label
      and its total. */
  function Chart(history: seq<Entry<Sale>>, newestFirst: seq<string>): (r: seq<Point>)
    ensures |r| == |newestFirst|
    ensures forall i :: 0 <= i < |r| ==>
      var day := newestFirst[|newestFirst| - 1 - i];
      r[i] == Bar(history, day)
  {
    var n := |newestFirst|;
    seq(n, i requires 0 <= i < n => Bar(history, newestFirst[n - 1 - i]))
  }

  /** Filtering keeps every copy of what passes and no copy of what does
      not. */
  lemma {:induction false} FilterCounts<T(!new)>(s: seq<T>, p: T -> bool, x: T)
    ensures multiset(Filter(s, p))[x] == if p(x) then multiset(s)[x] else 0
  {
    if |s| > 0 {
      FilterCounts(s[1..], p, x);
      assert s == [s[0]] + s[1..];
      assert multiset(s) == multiset{s[0]} + multiset(s[1..]);
    }
  }

  lemma FilterPermutation<T(!new)>(a: seq<T>, b: seq<T>, p: T -> bool)
    requires multiset(a) == multiset(b)
    ensures multiset(Filter(a, p)) == multiset(Filter(b, p))
  {
    forall x
      ensures multiset(Filter(a, p))[x] == multiset(Filter(b, p))[x]
    {
      FilterCounts(a, p, x);
      FilterCounts(b, p, x);
    }
  }

  /** A day's total does not depend on the order the sales are listed
      in. */
  lemma DayTotalIgnoresOrder(a: seq<Entry<Sale>>, b: seq<Entry<Sale>>, date: string)
    requires multiset(a) == multiset(b)
    ensures DayTotal(a, date) == DayTotal(b, date)
  {
    FilterPermutation(a, b, SoldOn(date));
    SumOfPermutation(Filter(a, SoldOn(date)), Filter(b, SoldOn(date)), SaleTotal);
  }

  /** Nor does the chart. */
  lemma ChartIgnoresOrder(a: seq<Entry<Sale>>, b: seq<Entry<Sale>>, newestFirst: seq<string>)
    requires multiset(a) == multiset(b)
    ensures Chart(a, newestFirst) == Chart(b, newestFirst)
  {
    forall i | 0 <= i < |newestFirst|
      ensures Chart(a, newestFirst)[i] == Chart(b, newestFirst)[i]
    {
      DayTotalIgnoresOrder(a, b, newestFirst[|newestFirst| - 1 - i]);
    }
  }

  /** The rightmost bar is today's, and drawn from `getTransactions` it
      shows the same figure as the dashboard's revenue card. */
  lemma TodayBarIsRevenue(db: Db, newestFirst: seq<string>)
    requires |newestFirst| >= 1
    ensures var bars := Chart(ListTransactions(db), newestFirst);
      bars[|bars| - 1].sales == DashboardStats(db, newestFirst[0]).totalRevenue
  {
    var history := ListTransactions(db);
    var bars := Chart(history, newestFirst);
    assert bars[|bars| - 1] == Bar(history, newestFirst[0]);
    DayTotalIgnoresOrder(history, db.sales.entries, newestFirst[0]);
    RevenueIsDayTotal(db, newestFirst[0]);
  }

  /** The dashboard's revenue figure is the day total of the rows in
      table order. */
  lemma RevenueIsDayTotal(db: Db, today: string)
    ensures DashboardStats(db, today).totalRevenue == DayTotal(db.sales.entries, today)
  {
  }

  /** One more sale adds its total to the day its timestamp starts with,
      and to no other. */
  lemma DayTotalAppend(history: seq<Entry<Sale>>, e: Entry<Sale>, date: string)
    ensures DayTotal(history + [e], date)
         == DayTotal(history, date) + (if StartsWith(e.row.timestamp, date) then e.row.total else 0.0)
  {
    FilterAppend(history, e, SoldOn(date));
    var added: seq<Entry<Sale>> := if SoldOn(date)(e) then [e] else [];
    SumOfAppend(Filter(history, SoldOn(date)), added, SaleTotal);
  }

  /** After a checkout recorded at `now`, each bar of the chart rises by
      the sale's total when `now` falls on its day, and stays as it was
      otherwise. */
  lemma SaleRaisesItsBar(db: Db, req: SaleRequest, now: string, newestFirst: seq<string>)
    ensures var c := CreateTransaction(db, req, now, None);
      var before := Chart(ListTransactions(db), newestFirst);
      var after := Chart(ListTransactions(c.db), newestFirst);
      forall i :: 0 <= i < |newestFirst| ==>
        after[i].sales == before[i].sales
          + (if StartsWith(now, newestFirst[|newestFirst| - 1 - i]) then req.total else 0.0)
  {
    var c := CreateTransaction(db, req, now, None);
    var e := Entry(c.result.value, SaleRow(req, now));
    assert c.db.sales.entries == db.sales.entries + [e];
    forall i | 0 <= i < |newestFirst|
      ensures Chart(ListTransactions(c.db), newestFirst)[i].sales
           == Chart(ListTransactions(db), newestFirst)[i].sales
              + (if StartsWith(now, newestFirst[|newestFirst| - 1 - i]) then req.total else 0.0)
    {
      var day := newestFirst[|newestFirst| - 1 - i];
      DayTotalIgnoresOrder(ListTransactions(db), db.sales.entries, day);
      DayTotalIgnoresOrder(ListTransactions(c.db), c.db.sales.entries, day);
      DayTotalAppend(db.sales.entries, e, day);
    }
  }
}

=== FILE: stock_page.dfy ===
/** The stock page (src/pages/Stock.jsx): the product form and how it
    turns typed text into numbers, the search with its low-stock switch,
    the inventory valuations in the header, and the CSV export. */
module StockPage {
  import opened Common
  import opened Tables
  import opened Records
  import opened Ledger
  import opened Reports
  import opened Csv

  // ---------------------------------------------------------------------
  // The product form
  // ---------------------------------------------------------------------

  /** A numeric input: a number put there by the page, or text the user
      typed together with what `Number()` reads from it (`None` for NaN).
      `Number("")` is 0. */
  datatype Input = Num(value: real) | Typed(text: string, number: Option<real>)

  const Blank: Input := Typed("", Some(0.0))

  /** `Number(x) || 0`: the number read, with NaN (and 0) giving 0. */
  function Coerce(x: Input): (r: real)
    ensures x.Num? ==> r == x.value
    ensures x.Typed? && x.number.None? ==> r == 0.0
    ensures x.Typed? && x.number.Some? ==> r == x.number.value
  {
    match x
    case Num(v) => v
    case Typed(_, n) => n.GetOr(0.0)
  }

  datatype Form = Form(
    id: Option<int>, name: string, sku: string, category: string,
    priceBuy: Input, priceSell: Input, stock: Input,
    image: string, warranty: string)

  /** `initialFormState`: empty fields, category GPU. */
  const InitialForm: Form := Form(None, "", "", "GPU", Blank, Blank, Blank, "", "")

  /** `x || ''` on a number: 0 shows as an empty field. */
  function Shown(x: real): (r: Input)
    ensures x == 0.0 ==> r == Blank
    ensures x != 0.0 ==> r == Num(x)
  {
    if x == 0.0 then Blank else Num(x)
  }

  /** `openEditModal`: the product's fields, zero numbers shown empty. */
  function OpenEdit(e: Entry<Product>): (f: Form)
    ensures f.id == Some(e.id) && f.name == e.row.name && f.sku == e.row.sku && f.category == e.row.category
    ensures f.image == e.row.image && f.warranty == e.row.warranty
    ensures Coerce(f.priceBuy) == e.row.priceBuy && Coerce(f.priceSell) == e.row.priceSell
    ensures Coerce(f.stock) == e.row.stock as real
  {
    Form(Some(e.id), e.row.name, e.row.sku, e.row.category,
         Shown(e.row.priceBuy), Shown(e.row.priceSell), Shown(e.row.stock as real),
         e.row.image, e.row.warranty)
  }

  /** What `handleSubmit` sends to `addProduct` or `updateProduct`. */
  datatype ProductData = ProductData(
    id: Option<int>, name: string, sku: string, category: string,
    priceBuy: real, priceSell: real, stock: real, image: string, warranty: string)

  /** `handleSubmit`'s coercion: numbers through `Number(x) || 0`, texts
      through `x || ''`. */
  function Submit(f: Form): (r: ProductData)
    ensures r.id == f.id && r.name == f.name && r.sku == f.sku && r.category == f.category
    ensures r.priceBuy == Coerce(f.priceBuy) && r.priceSell == Coerce(f.priceSell) && r.stock == Coerce(f.stock)
    ensures r.image == f.image && r.warranty == f.warranty
  {
    ProductData(f.id, f.name, f.sku, f.category,
                Coerce(f.priceBuy), Coerce(f.priceSell), Coerce(f.stock),
                OrDefault(f.image, ""), OrDefault(f.warranty, ""))
  }

  /** Opening a product for edit and saving it untouched sends the product
      back as it is stored; a zero shown as an empty field is read back as
      zero. */
  lemma EditRoundTrip(e: Entry<Product>)
    ensures Submit(OpenEdit(e)) == ProductData(
      Some(e.id), e.row.name, e.row.sku, e.row.category,
      e.row.priceBuy, e.row.priceSell, e.row.stock as real, e.row.image, e.row.warranty)
  {
  }

  /** Submitting the untouched add form sends zeros and empty texts. */
  lemma BlankFormSendsZeros()
    ensures var d := Submit(InitialForm);
      d.priceBuy == 0.0 && d.priceSell == 0.0 && d.stock == 0.0 && d.image == "" && d.warranty == ""
  {
  }

  // ---------------------------------------------------------------------
  // Search and the low-stock switch
  // ---------------------------------------------------------------------

  /** Fewer than this many units is low stock, here and on the dashboard. */
  const LowStockLimit := 5

  predicate MatchesSearch(term: string, p: Product)
  {
    Contains(ToLower(p.name), ToLower(term)) || Contains(ToLower(p.sku), ToLower(term))
  }

  predicate InCategory(category: string, p: Product)
  {
    category == "All" || p.category == category
  }

  /** What `filtered` keeps. */
  predicate Listed(term: string, category: string, lowOnly: bool, p: Product)
  {
    !(lowOnly && p.stock >= LowStockLimit) && MatchesSearch(term, p) && InCategory(category, p)
  }

  /** `filtered`: the products that match the search and the category,
      and, with `?filter=low`, only those under five units; in list
      order. */
  function Filtered(ps: seq<Entry<Product>>, term: string, category: string, lowOnly: bool): (r: seq<Entry<Product>>)
    ensures forall e :: e in r <==> e in ps && Listed(term, category, lowOnly, e.row)
    ensures lowOnly ==> forall e :: e in r ==> e.row.stock < LowStockLimit
    ensures IsSubseq(r, ps)
  {
    Filter(ps, (e: Entry<Product>) => Listed(term, category, lowOnly, e.row))
  }

  /** The ids a list of products carries. */
  function Ids(ps: seq<Entry<Product>>): set<int>
  {
    set i | 0 <= i < |ps| :: ps[i].id
  }

  ghost predicate DistinctIds(ps: seq<Entry<Product>>)
  {
    forall i, j :: 0 <= i < j < |ps| ==> ps[i].id != ps[j].id
  }

  lemma {:induction false} DistinctCount(ps: seq<Entry<Product>>)
    requires DistinctIds(ps)
    ensures |Ids(ps)| == |ps|
  {
    if |ps| > 0 {
      DistinctCount(ps[1..]);
      assert Ids(ps) == {ps[0].id} + Ids(ps[1..]) by {
        forall k | k in Ids(ps) ensures k == ps[0].id || k in Ids(ps[1..]) {
          var i :| 0 <= i < |ps| && ps[i].id == k;
          if i > 0 { assert ps[1..][i - 1].id == k; }
        }
        forall k | k in Ids(ps[1..]) ensures k in Ids(ps) {
          var i :| 0 <= i < |ps[1..]| && ps[1..][i].id == k;
          assert ps[i + 1].id == k;
        }
      }
      assert ps[0].id !in Ids(ps[1..]);
    }
  }

  lemma {:induction false} FilterKeepsDistinct(ps: seq<Entry<Product>>, p: Entry<Product> -> bool)
    requires DistinctIds(ps)
    ensures DistinctIds(Filter(ps, p))
  {
    if |ps| > 0 {
      FilterKeepsDistinct(ps[1..], p);
      if p(ps[0]) {
        var rest := Filter(ps[1..], p);
        forall j | 0 <= j < |rest|
          ensures rest[j].id != ps[0].id
        {
          assert rest[j] in rest;
          assert rest[j] in ps[1..];
        }
      }
    }
  }

  /** The page's list holds exactly the stored products, once each. */
  ghost predicate ListsCatalogue(ps: seq<Entry<Product>>, products: map<int, Product>)
  {
    && DistinctIds(ps)
    && Ids(ps) == products.Keys
    && forall i :: 0 <= i < |ps| ==> ps[i].id in products && products[ps[i].id] == ps[i].row
  }

  /** The dashboard's low-stock card and the stock page's low-stock list
      agree: with no search and all categories, the list holds as many
      products as the card counts. */
  lemma LowListMatchesDashboard(ps: seq<Entry<Product>>, db: Db, today: string)
    requires ListsCatalogue(ps, db.products)
    ensures |Filtered(ps, "", "All", true)| == DashboardStats(db, today).lowStockCount
  {
    var low := Filtered(ps, "", "All", true);
    FilterKeepsDistinct(ps, (e: Entry<Product>) => Listed("", "All", true, e.row));
    DistinctCount(low);
    forall k | k in Ids(low)
      ensures k in LowStock(db.products)
    {
      var i :| 0 <= i < |low| && low[i].id == k;
      assert low[i] in low;
      var j :| 0 <= j < |ps| && ps[j] == low[i];
    }
    forall k | k in LowStock(db.products)
      ensures k in Ids(low)
    {
      var j :| 0 <= j < |ps| && ps[j].id == k;
      ContainsEmpty(ToLower(ps[j].row.name));
      assert Listed("", "All", true, ps[j].row);
      assert ps[j] in low;
      var i :| 0 <= i < |low| && low[i] == ps[j];
    }
    assert Ids(low) == LowStock(db.products);
  }

  // ---------------------------------------------------------------------
  // Valuations
  // ---------------------------------------------------------------------

  function CostOfStock(e: Entry<Product>): real { e.row.priceBuy * e.row.stock as real }
  function MarginOfStock(e: Entry<Product>): real { (e.row.priceSell - e.row.priceBuy) * e.row.stock as real }
  function RetailOfStock(e: Entry<Product>): real { e.row.priceSell * e.row.stock as real }

  /** `totalStockValue`: what the stock on hand cost. */
  function StockValue(ps: seq<Entry<Product>>): real { SumOf(ps, CostOfStock) }

  /** `potentialProfit`: what selling all of it at list price would earn
      over cost. */
  function PotentialProfit(ps: seq<Entry<Product>>): real { SumOf(ps, MarginOfStock) }

  /** Cost plus potential profit is the stock's value at list price. */
  lemma {:induction false} ValuationsAddUp(ps: seq<Entry<Product>>)
    ensures StockValue(ps) + PotentialProfit(ps) == SumOf(ps, RetailOfStock)
  {
    if |ps| > 0 {
      ValuationsAddUp(ps[1..]);
      var e := ps[0];
      assert CostOfStock(e) + MarginOfStock(e) == RetailOfStock(e) by {
        assert (e.row.priceSell - e.row.priceBuy) * e.row.stock as real
            == e.row.priceSell * e.row.stock as real - e.row.priceBuy * e.row.stock as real;
      }
    }
  }

  /** The valuations do not depend on how the list is sorted. */
  lemma ValuationsIgnoreOrder(ps: seq<Entry<Product>>, qs: seq<Entry<Product>>)
    requires multiset(ps) == multiset(qs)
    ensures StockValue(ps) == StockValue(qs) && PotentialProfit(ps) == PotentialProfit(qs)
  {
    SumOfPermutation(ps, qs, CostOfStock);
    SumOfPermutation(ps, qs, MarginOfStock);
  }

  // ---------------------------------------------------------------------
  // CSV export
  // ---------------------------------------------------------------------

  /** The column names of the export, in order. */
  const ColumnNames: seq<string> := ["ID", "Name", "SKU", "Category", "Cost", "Price", "Stock", "Warranty"]

  /** The header line's cells: every column name written bare. */
  const Header: seq<Cell> := [Bare("ID"), Bare("Name"), Bare("SKU"), Bare("Category"),
                              Bare("Cost"), Bare("Price"), Bare("Stock"), Bare("Warranty")]

  /** How a price is written: JavaScript's number-to-text conversion,
      which is not part of this model, given as a parameter. It writes
      digits, a sign, a point and exponent letters, never a comma or a
      quote. */
  ghost predicate NumberText(numText: real -> string)
  {
    forall x :: PlainSafe(numText(x))
  }

  /** One exported product as the page writes it: name and warranty
      enclosed and escaped, SKU and category written bare. */
  function ExportRow(e: Entry<Product>, numText: real -> string): (r: seq<Cell>)
    ensures |r| == |Header|
    ensures Values(r) == [IntToDecimal(e.id), e.row.name, e.row.sku, e.row.category,
                          numText(e.row.priceBuy), numText(e.row.priceSell),
                          IntToDecimal(e.row.stock), OrDefault(e.row.warranty, "")]
  {
    [Bare(IntToDecimal(e.id)), Enclosed(e.row.name), Bare(e.row.sku), Bare(e.row.category),
     Bare(numText(e.row.priceBuy)), Bare(numText(e.row.priceSell)), Bare(IntToDecimal(e.row.stock)),
     Enclosed(OrDefault(e.row.warranty, ""))]
  }

  /** The same row with every text field enclosed. */
  function SafeExportRow(e: Entry<Product>, numText: real -> string): (r: seq<Cell>)
    ensures |r| == |Header|
    ensures Values(r) == Values(ExportRow(e, numText))
  {
    [Bare(IntToDecimal(e.id)), Enclosed(e.row.name), Enclosed(e.row.sku), Enclosed(e.row.category),
     Bare(numText(e.row.priceBuy)), Bare(numText(e.row.priceSell)), Bare(IntToDecimal(e.row.stock)),
     Enclosed(OrDefault(e.row.warranty, ""))]
  }

  lemma {:induction false} DecimalIsPlain(n: int)
    ensures PlainSafe(IntToDecimal(n))
  {
    if n < 0 {
      var d := NatToDecimal(-n);
      assert forall i :: 0 <= i < |d| ==> ("-" + d)[i + 1] == d[i];
    }
  }

  /** Read back, a row of the page's export gives the eight values of the
      product, provided its SKU and category hold no comma or quote. */
  lemma ExportRowRoundTrip(e: Entry<Product>, numText: real -> string)
    requires NumberText(numText)
    requires PlainSafe(e.row.sku) && PlainSafe(e.row.category)
    ensures ReadRecord(Record(ExportRow(e, numText))) == Values(ExportRow(e, numText))
  {
    DecimalIsPlain(e.id);
    DecimalIsPlain(e.row.stock);
    RecordRoundTrip(ExportRow(e, numText));
  }

  /** The corrected row reads back as the product's eight values for
      every product. */
  lemma SafeRowRoundTrip(e: Entry<Product>, numText: real -> string)
    requires NumberText(numText)
    ensures ReadRecord(Record(SafeExportRow(e, numText))) == Values(ExportRow(e, numText))
  {
    DecimalIsPlain(e.id);
    DecimalIsPlain(e.row.stock);
    RecordRoundTrip(SafeExportRow(e, numText));
  }

  lemma {:induction false} JoinAppend(xs: seq<string>, ys: seq<string>, sep: char)
    requires |xs| >= 1 && |ys| >= 1
    ensures JoinWith(xs + ys, sep) == JoinWith(xs, sep) + [sep] + JoinWith(ys, sep)
  {
    if |xs| == 1 {
      assert (xs + ys)[1..] == ys;
    } else {
      assert (xs + ys)[1..] == xs[1..] + ys;
      JoinAppend(xs[1..], ys, sep);
    }
  }

  lemma TextsAppend(x: seq<Cell>, y: seq<Cell>)
    ensures Texts(x + y) == Texts(x) + Texts(y)
  {
  }

  lemma JoinPair(a: string, b: string, sep: char)
    ensures JoinWith([a, b], sep) == a + [sep] + b
  {
    assert [a, b][1..] == [b];
  }

  /** Between other parts, a part holding the separator joins to exactly
      what two parts would. */
  lemma JoinAround(p: seq<string>, whole: string, q: seq<string>, sep: char)
    requires |p| >= 1 && |q| >= 1
    ensures JoinWith(p + [whole] + q, sep) == JoinWith(p, sep) + [sep] + whole + [sep] + JoinWith(q, sep)
  {
    JoinAppend(p + [whole], q, sep);
    JoinAppend(p, [whole], sep);
  }

  lemma JoinAroundPair(p: seq<string>, a: string, b: string, q: seq<string>, sep: char)
    requires |p| >= 1 && |q| >= 1
    ensures JoinWith(p + [a, b] + q, sep) == JoinWith(p, sep) + [sep] + (a + [sep] + b + [sep] + JoinWith(q, sep))
  {
    var r := [a, b] + q;
    assert p + [a, b] + q == p + r;
    JoinAppend(p, r, sep);
    JoinPair(a, b, sep);
    JoinAppend([a, b], q, sep);
  }

  /** Between other parts, a part holding the separator joins to exactly
      what two parts would. */
  lemma JoinSplit(p: seq<string>, a: string, b: string, q: seq<string>, sep: char)
    requires |p| >= 1 && |q| >= 1
    ensures JoinWith(p + [a + [sep] + b] + q, sep) == JoinWith(p + [a, b] + q, sep)
  {
    JoinAround(p, a + [sep] + b, q, sep);
    JoinAroundPair(p, a, b, q, sep);
  }

  /** Between other cells, a bare text with a comma in it is written
      exactly as two bare texts would be. */
  lemma SplitBare(pre: seq<Cell>, a: string, b: string, post: seq<Cell>)
    requires |pre| >= 1 && |post| >= 1
    ensures Record(pre + [Bare(a + [Comma] + b)] + post) == Record(pre + [Bare(a), Bare(b)] + post)
  {
    var one := [Bare(a + [Comma] + b)];
    var two := [Bare(a), Bare(b)];
    TextsAppend(pre + one, post);
    TextsAppend(pre, one);
    TextsAppend(pre + two, post);
    TextsAppend(pre, two);
    assert Texts(one) == [a + [Comma] + b];
    assert Texts(two) == [a, b];
    JoinSplit(Texts(pre), a, b, Texts(post), Comma);
  }

  /** The nine cells a row with the SKU "A,B" is written as. */
  function SkuSplitRow(e: Entry<Product>, numText: real -> string): seq<Cell>
  {
    [Bare(IntToDecimal(e.id)), Enclosed(e.row.name), Bare("A"), Bare("B"), Bare(e.row.category),
     Bare(numText(e.row.priceBuy)), Bare(numText(e.row.priceSell)), Bare(IntToDecimal(e.row.stock)),
     Enclosed(OrDefault(e.row.warranty, ""))]
  }

  lemma SkuSplitWritten(e: Entry<Product>, numText: real -> string)
    requires e.row.sku == "A,B"
    ensures Record(ExportRow(e, numText)) == Record(SkuSplitRow(e, numText))
  {
    var row := ExportRow(e, numText);
    var pre := row[..2];
    var post := row[3..];
    assert e.row.sku == "A" + [Comma] + "B";
    assert row == pre + [Bare("A" + [Comma] + "B")] + post;
    SplitBare(pre, "A", "B", post);
    assert pre + [Bare("A"), Bare("B")] + post == SkuSplitRow(e, numText);
  }

  lemma SkuSplitReadBack(e: Entry<Product>, numText: real -> string)
    requires NumberText(numText)
    requires PlainSafe(e.row.category)
    ensures ReadRecord(Record(SkuSplitRow(e, numText))) == Values(SkuSplitRow(e, numText))
  {
    var nine := SkuSplitRow(e, numText);
    DecimalIsPlain(e.id);
    DecimalIsPlain(e.row.stock);
    assert PlainSafe("A") && PlainSafe("B");
    assert Writable(nine);
    RecordRoundTrip(nine);
  }

  /** The export as written misreads a SKU such as "A,B": the row reads
      back as nine fields, the SKU split over two of them and every later
      column shifted by one. */
  lemma SkuWithCommaShiftsColumns(e: Entry<Product>, numText: real -> string)
    requires NumberText(numText)
    requires e.row.sku == "A,B" && PlainSafe(e.row.category)
    ensures |ReadRecord(Record(ExportRow(e, numText)))| == 9
    ensures ReadRecord(Record(ExportRow(e, numText)))[2] == "A"
    ensures ReadRecord(Record(ExportRow(e, numText)))[3] == "B"
    ensures ReadRecord(Record(ExportRow(e, numText)))[4] == e.row.category
  {
    SkuSplitWritten(e, numText);
    SkuSplitReadBack(e, numText);
  }

  /** One product's line of the file, as `r.join(',')` writes it. */
  function ProductLine(e: Entry<Product>, numText: real -> string): string
  {
    Record(ExportRow(e, numText))
  }

  /** One product's line in the corrected form. */
  function SafeProductLine(e: Entry<Product>, numText: real -> string): string
  {
    Record(SafeExportRow(e, numText))
  }

  /** The lines of a file: a head line, then the given lines. */
  function FileLines(head: string, lines: seq<string>): (r: seq<string>)
    ensures |r| == |lines| + 1
    ensures r[0] == head
    ensures forall i :: 0 <= i < |lines| ==> r[i + 1] == lines[i]
  {
    [head] + lines
  }

  /** One more line at the end of a file's lines adds one newline and that
      line to its text, and changes nothing before it. */
  lemma FileLinesAppend(head: string, lines: seq<string>, x: string)
    ensures JoinWith(FileLines(head, lines + [x]), '\n') == JoinWith(FileLines(head, lines), '\n') + "\n" + x
  {
    assert [head] + (lines + [x]) == ([head] + lines) + [x];
    JoinAppend(FileLines(head, lines), [x], '\n');
  }

  /** The product lines as the page writes them, one per product, in list
      order. */
  function ProductLines(ps: seq<Entry<Product>>, numText: real -> string): (r: seq<string>)
    ensures |r| == |ps|
    ensures forall i :: 0 <= i < |ps| ==> r[i] == ProductLine(ps[i], numText)
  {
    seq(|ps|, i requires 0 <= i < |ps| => ProductLine(ps[i], numText))
  }

  /** The corrected product lines, one per product, in list order. */
  function SafeProductLines(ps: seq<Entry<Product>>, numText: real -> string): (r: seq<string>)
    ensures |r| == |ps|
    ensures forall i :: 0 <= i < |ps| ==> r[i] == SafeProductLine(ps[i], numText)
  {
    seq(|ps|, i requires 0 <= i < |ps| => SafeProductLine(ps[i], numText))
  }

  /** The lines of the export as the page writes them: the header, then
      one line per product, in list order. */
  function ExportLines(ps: seq<Entry<Product>>, numText: real -> string): (r: seq<string>)
    ensures |r| == |ps| + 1
    ensures r[0] == Record(Header)
    ensures forall i :: 0 <= i < |ps| ==> r[i + 1] == ProductLine(ps[i], numText)
  {
    FileLines(Record(Header), ProductLines(ps, numText))
  }

  /** `exportCSV`'s file contents: the lines joined by newlines. */
  function ExportCsv(ps: seq<Entry<Product>>, numText: real -> string): string
  {
    JoinWith(ExportLines(ps, numText), '\n')
  }

  /** The corrected export's lines: the header, then one corrected line
      per product. */
  function SafeExportLines(ps: seq<Entry<Product>>, numText: real -> string): (r: seq<string>)
    ensures |r| == |ps| + 1
    ensures r[0] == Record(Header)
    ensures forall i :: 0 <= i < |ps| ==> r[i + 1] == SafeProductLine(ps[i], numText)
  {
    FileLines(Record(Header), SafeProductLines(ps, numText))
  }

  function SafeExportCsv(ps: seq<Entry<Product>>, numText: real -> string): string
  {
    JoinWith(SafeExportLines(ps, numText), '\n')
  }

  /** A product line of the page's export reads back as that product's
      eight values, provided its SKU and category hold no comma or quote.
      The line is read on its own, before the lines are joined, so a line
      break in them is outside what this promises. */
  lemma ExportLineReadsBack(ps: seq<Entry<Product>>, numText: real -> string, i: nat)
    requires NumberText(numText) && i < |ps|
    requires PlainSafe(ps[i].row.sku) && PlainSafe(ps[i].row.category)
    ensures ReadRecord(ExportLines(ps, numText)[i + 1]) == Values(ExportRow(ps[i], numText))
  {
    ExportRowRoundTrip(ps[i], numText);
  }

  /** In the page's export, the line of a product whose SKU is "A,B"
      reads back as nine fields. */
  lemma ExportLineMisread(ps: seq<Entry<Product>>, numText: real -> string, i: nat)
    requires NumberText(numText) && i < |ps|
    requires ps[i].row.sku == "A,B" && PlainSafe(ps[i].row.category)
    ensures |ReadRecord(ExportLines(ps, numText)[i + 1])| == 9
  {
    SkuWithCommaShiftsColumns(ps[i], numText);
  }

  /** Every line of the corrected export reads back as that product's
      eight values, whatever its texts contain. */
  lemma SafeExportLineReadsBack(ps: seq<Entry<Product>>, numText: real -> string, i: nat)
    requires NumberText(numText) && i < |ps|
    ensures ReadRecord(SafeExportLines(ps, numText)[i + 1]) == Values(ExportRow(ps[i], numText))
  {
    SafeRowRoundTrip(ps[i], numText);
  }

  lemma ProductLinesAppend(ps: seq<Entry<Product>>, e: Entry<Product>, numText: real -> string)
    ensures ProductLines(ps + [e], numText) == ProductLines(ps, numText) + [ProductLine(e, numText)]
  {
    var l := ProductLines(ps + [e], numText);
    var want := ProductLines(ps, numText) + [ProductLine(e, numText)];
    forall i | 0 <= i < |l|
      ensures l[i] == want[i]
    {
      assert (ps + [e])[i] == if i < |ps| then ps[i] else e;
    }
  }

  /** One more product adds one line at the end of the page's export and
      changes nothing before it. */
  lemma ExportAppend(ps: seq<Entry<Product>>, e: Entry<Product>, numText: real -> string)
    ensures ExportCsv(ps + [e], numText) == ExportCsv(ps, numText) + "\n" + ProductLine(e, numText)
  {
    ProductLinesAppend(ps, e, numText);
    FileLinesAppend(Record(Header), ProductLines(ps, numText), ProductLine(e, numText));
  }

  lemma HeaderWritable()
    ensures Writable(Header)
  {
    assert PlainSafe("ID") && PlainSafe("Name") && PlainSafe("SKU") && PlainSafe("Category");
    assert PlainSafe("Cost") && PlainSafe("Price") && PlainSafe("Stock") && PlainSafe("Warranty");
  }

  /** Read back, the header line gives the eight column names. */
  lemma HeaderRoundTrip()
    ensures ReadRecord(Record(Header)) == ColumnNames
  {
    HeaderWritable();
    RecordRoundTrip(Header);
    HeaderValues();
  }

  lemma HeaderValues()
    ensures Values(Header) == ColumnNames
  {
    var v := Values(Header);
    forall i | 0 <= i < 8
      ensures v[i] == ColumnNames[i]
    {
    }
  }
}

=== FILE: tables.dfy ===
/** A table with an INTEGER PRIMARY KEY AUTOINCREMENT column, kept as the
    relational store keeps it: rows in ascending id order (the order of a
    full scan), plus the table's `sqlite_sequence` counter. An insert picks
    an id above every id the table has ever handed out, so new rows go to the
    end of the scan. */
module Tables {
  import opened Common

  datatype Entry<R> = Entry(id: int, row: R)

  /** `entries` is the scan; `lastId` the largest id ever handed out (0 for
      a fresh table). */
  datatype Table<R> = Table(entries: seq<Entry<R>>, lastId: int)

  /** `SELECT ... WHERE id = ?` (`.get`): the first row with that id. */
  function Find<R>(es: seq<Entry<R>>, id: int): (r: Option<R>)
    ensures r.Some? ==> Entry(id, r.value) in es
    ensures r.None? ==> forall i :: 0 <= i < |es| ==> es[i].id != id
    ensures (forall i :: 0 <= i < |es| ==> es[i].id != id) ==> r.None?
  {
    if |es| == 0 then None
    else if es[0].id == id then Some(es[0].row)
    else Find(es[1..], id)
  }

  lemma {:induction false} FindAppend<R>(es: seq<Entry<R>>, e: Entry<R>, k: int)
    ensures Find(es + [e], k) == if Find(es, k).Some? then Find(es, k)
                                 else if e.id == k then Some(e.row) else None
  {
    if |es| > 0 {
      assert (es + [e])[1..] == es[1..] + [e];
      FindAppend(es[1..], e, k);
    } else {
      assert (es + [e])[1..] == [];
    }
  }

  function MaxId<R>(es: seq<Entry<R>>): (m: int)
    ensures forall i :: 0 <= i < |es| ==> es[i].id <= m
  {
    if |es| == 0 then 0 else MaxInt(es[0].id, MaxId(es[1..]))
  }

  /** The id an AUTOINCREMENT insert hands out: one above both the
      sequence counter and the largest id present. */
  function NextId<R>(t: Table<R>): (id: int)
    ensures id > t.lastId
    ensures forall i :: 0 <= i < |t.entries| ==> t.entries[i].id < id
  {
    MaxInt(t.lastId, MaxId(t.entries)) + 1
  }

  /** `INSERT`: returns the table and the new row's id (`lastInsertRowid`). */
  function Insert<R>(t: Table<R>, row: R): (r: (Table<R>, int))
    ensures r.1 > t.lastId && r.0.lastId == r.1
    ensures forall i :: 0 <= i < |t.entries| ==> t.entries[i].id < r.1
    ensures Find(r.0.entries, r.1) == Some(row)
    ensures forall k :: k != r.1 ==> Find(r.0.entries, k) == Find(t.entries, k)
    ensures r.0.entries == t.entries + [Entry(r.1, row)]
  {
    var id := NextId(t);
    var es := t.entries + [Entry(id, row)];
    FindAppend(t.entries, Entry(id, row), id);
    assert forall k :: k != id ==> Find(es, k) == Find(t.entries, k) by {
      forall k | k != id
        ensures Find(es, k) == Find(t.entries, k)
      {
        FindAppend(t.entries, Entry(id, row), k);
      }
    }
    (Table(es, id), id)
  }

  /** `DELETE ... WHERE id = ?`: drops the rows with that id, keeps the
      others in scan order. */
  function Without<R>(es: seq<Entry<R>>, id: int): (r: seq<Entry<R>>)
    ensures Find(r, id).None?
    ensures forall k :: k != id ==> Find(r, k) == Find(es, k)
    ensures forall i :: 0 <= i < |r| ==> r[i].id != id && r[i] in es
  {
    if |es| == 0 then []
    else if es[0].id == id then Without(es[1..], id)
    else [es[0]] + Without(es[1..], id)
  }

  function Delete<R>(t: Table<R>, id: int): (r: Table<R>)
    ensures Find(r.entries, id).None?
    ensures forall k :: k != id ==> Find(r.entries, k) == Find(t.entries, k)
    ensures r.lastId == t.lastId
  {
    Table(Without(t.entries, id), t.lastId)
  }

  /** `UPDATE ... SET ... WHERE id = ?`: applies `f` to the rows with that
      id; ids, order and every other row stay as they were. */
  function Rewrite<R>(es: seq<Entry<R>>, id: int, f: R -> R): (r: seq<Entry<R>>)
    ensures |r| == |es|
    ensures forall i :: 0 <= i < |es| ==> r[i].id == es[i].id
    ensures forall i :: 0 <= i < |es| && es[i].id != id ==> r[i] == es[i]
    ensures forall i :: 0 <= i < |es| && es[i].id == id ==> r[i].row == f(es[i].row)
    ensures Find(r, id) == (if Find(es, id).Some? then Some(f(Find(es, id).value)) else None)
    ensures forall k :: k != id ==> Find(r, k) == Find(es, k)
  {
    if |es| == 0 then []
    else
      var head := if es[0].id == id then Entry(id, f(es[0].row)) else es[0];
      [head] + Rewrite(es[1..], id, f)
  }

  /** Deleting the row an insert just added gives back the rows there were. */
  lemma {:induction false} DeleteInserted<R>(t: Table<R>, row: R)
    ensures Delete(Insert(t, row).0, Insert(t, row).1).entries == t.entries
  {
    var (t2, id) := Insert(t, row);
    WithoutAppendFresh(t.entries, id, row);
  }

  lemma {:induction false} WithoutAppendFresh<R>(es: seq<Entry<R>>, id: int, row: R)
    requires forall i :: 0 <= i < |es| ==> es[i].id < id
    ensures Without(es + [Entry(id, row)], id) == es
  {
    if |es| == 0 {
      assert [Entry(id, row)][1..] == [];
    } else {
      assert (es + [Entry(id, row)])[1..] == es[1..] + [Entry(id, row)];
      WithoutAppendFresh(es[1..], id, row);
      assert es == [es[0]] + es[1..];
    }
  }
}
